=== FILE: README.md ===
# push_swap engine — a verified Dafny model

This project models the Kotlin push_swap engine: the program that sorts a list of distinct 32-bit
integers using two bounded stacks, A and B, and the eleven moves `sa sb ss pa pb ra rb rr rra rrb
rrr`, while keeping the number of moves small. It also models the test-side checker that defines a
correct answer. The model follows `src/main/kotlin` and `src/test/kotlin/Checker.kt`.

Every state is an immutable value. Each operation is a pure function or a short method over
sequences, and the lemmas relate the operations to one another.

The modules follow the source's structure:

- `Ints` is the Kotlin `Int` range, with wrapping arithmetic and the truncating remainder.
- `Sorting` holds the ordering predicates and the reference sort that stands in for `sorted()`
  on a list and, in the rest of the model, on a buffer's logical contents (see Findings for the
  buffer version the repository defines).
- `Wrappers` holds `Option` and `Result`.
- `Moves` is the `Move` enum: ordinals, the inverse map, the printed names and the push/pull move lists.
- `Buffers` is a `CircularBuffer` seen as its logical contents: a bounded sequence, read from the head.
- `Ring` is the array-backed representation: `buf`, `head` and `size`, with the same operations.
  Each `Ring` operation is proved to refine the `Buffers` operation. `Ring` also holds the
  buffer `sorted()` extension, as written and as intended.
- `VirtualView` is `VirtualRotatedBuffer`: a value placed in front of a rotated buffer.
- `PackedMoves` is `PackedMoveList`: moves packed as 4-bit digits, with the encoder, decoder and iterator.
- `Heap` is the binary min-heap `PriorityQueue`, ordered by `currentCost`.
- `Chunks` is `Chunk` and its range-based membership test.
- `Machine` is `Stack`: `apply` on the two buffers with the history of successful moves, `currentCost`,
  whole-sequence replay, and the "descends from" relation that the search results satisfy.
- `Replay` covers straight-line move sequences and the shortest-direction rotation.
- `HeuristicUtil`, `PushHeuristic` and `MixedHeuristic` are the counting heuristics.
- `BestStates` is successor generation and filtering.
- `AStar` is the best-first search with its exit and visited tests.
- `SmallSort` is the closed-form sort for five or fewer values.
- `ChunkSort` is the top level: chunk partitioning, one search per chunk and the final head alignment.
- `Checker` is the test-side replay and its verdicts.
- `SmallSortTest` states what the small-sort tests check, for every input rather than the
  permutations the tests list.

## Model

| member | source | states |
|---|---|---|
| Moves.Ordinal | src/main/kotlin/data/Move.kt:3-7 | a move's ordinal is its position in the declaration order |
| Moves.FromOrdinal | src/main/kotlin/data/Move.kt:3-7 | `entries[k]` is defined exactly for the eleven ordinals and inverts `Ordinal` |
| Moves.OrdinalRoundTrip | src/main/kotlin/data/Move.kt:3-7 | decoding a move's ordinal gives back the move |
| Moves.LookupInverse | src/main/kotlin/data/Move.kt:10-28 | the inverse lookup fails exactly for a move missing from the inverse map |
| Moves.InverseTotal | src/main/kotlin/data/Move.kt:10-28 | the inverse map covers all eleven moves, so `inverse()` never reaches `error` |
| Moves.InverseInvolution | src/main/kotlin/data/Move.kt:10-22 | the inverse of the inverse is the move itself |
| Moves.InversePairs | src/main/kotlin/data/Move.kt:10-22 | swaps are self-inverse, PA/PB pair up, each rotation pairs with its reverse |
| Moves.Name | src/main/kotlin/data/Move.kt:27 | a move prints as two or three lower-case letters |
| Moves.NameInjective | src/main/kotlin/data/Move.kt:27 | different moves print differently, so the output can be parsed back |
| Moves.PhaseLists | newKotlin/data/Move.kt:24-30 | the push list is recognised as push and the pull list as pull; neither offers PA, and the push list offers no swap |
| Chunks.ContainsEnds | src/main/kotlin/data/Chunk.kt:16 | both bounds belong to the range exactly when the range is non-empty |
| Chunks.ContainsOutside | src/main/kotlin/data/Chunk.kt:16 | a value below the minimum or above the maximum is not in the chunk |
| Chunks.ContainsIgnoresValues | src/main/kotlin/data/Chunk.kt:10-16 | membership depends only on the two bounds, not on the value list |
| Chunks.Filter | src/main/kotlin/a_star/AStar.kt:100 | the filtered list holds exactly the elements of A that lie in the chunk's range |
| Ints.Wrap32 | src/main/kotlin/data/CircularBuffer.kt:106-112 | Kotlin `Int` arithmetic: the result is congruent to the exact value modulo 2^32 and equals it when it fits |
| Ints.Rem | src/main/kotlin/data/VirtualRotatedBuffer.kt:19 | Kotlin `%` agrees with the mathematical remainder for non-negative operands and is never positive for a negative dividend |
| Buffers.Empty | src/main/kotlin/data/CircularBuffer.kt:3-8 | a fresh buffer is empty and within its capacity |
| Buffers.FromList | src/main/kotlin/data/CircularBuffer.kt:9-18 | construction fails exactly when the list is longer than the capacity, and otherwise holds the list |
| Buffers.Enqueue | src/main/kotlin/data/CircularBuffer.kt:24-29 | enqueue succeeds exactly when not full and then appends at the tail; a failure changes nothing |
| Buffers.Dequeue | src/main/kotlin/data/CircularBuffer.kt:32-39 | dequeue yields `null` exactly when empty, otherwise the head and the rest |
| Buffers.Swap | src/main/kotlin/data/CircularBuffer.kt:41-47 | swap succeeds exactly with two or more elements and exchanges the first two, leaving the rest |
| Buffers.Rotate | src/main/kotlin/data/CircularBuffer.kt:50-54 | rotate succeeds exactly with more than one element and moves the head to the tail |
| Buffers.ReverseRotate | src/main/kotlin/data/CircularBuffer.kt:60-68 | reverse rotate succeeds exactly with more than one element and moves the tail to the head |
| Buffers.Push | src/main/kotlin/data/CircularBuffer.kt:73-81 | push succeeds exactly when the source is non-empty and the destination not full, and moves the source's head onto the destination's head |
| Buffers.Get | src/main/kotlin/data/CircularBuffer.kt:114-117 | indexing is defined exactly inside the content and yields the element at that position |
| Buffers.IndexOf | src/main/kotlin/chunk/ChunkSort.kt:69 | the result is -1 exactly when the value is absent, and otherwise its first position |
| Buffers.MaxOf | src/main/kotlin/a_star/AStar.kt:17 | the maximum is an element and bounds every element |
| Buffers.OperationsKeepValid | src/main/kotlin/data/CircularBuffer.kt:24-81 | no operation makes a buffer hold more than its capacity |
| Buffers.SwapInvolution | src/main/kotlin/data/CircularBuffer.kt:41-47 | swapping twice restores the buffer |
| Buffers.RotateInverse | src/main/kotlin/data/CircularBuffer.kt:50-68 | rotate and reverse rotate undo each other |
| Buffers.PushInverse | src/main/kotlin/data/CircularBuffer.kt:73-81 | pushing back restores both buffers |
| Buffers.PushConserves | src/main/kotlin/data/CircularBuffer.kt:73-81 | a push keeps the combined multiset and moves exactly one element |
| Buffers.SwapPermutes | src/main/kotlin/data/CircularBuffer.kt:41-47 | a swap permutes the content |
| Buffers.RotatePermutes | src/main/kotlin/data/CircularBuffer.kt:50-68 | a rotation in either direction permutes the content |
| Ring.Value | src/main/kotlin/data/CircularBuffer.kt:93-94 | the logical content has `size` elements, read from the head slot onwards |
| Ring.SlotIsMod | src/main/kotlin/data/CircularBuffer.kt:116 | the source's slot expression `(head + i) % capacity` is the wrap-around slot |
| Ring.Enqueue | src/main/kotlin/data/CircularBuffer.kt:24-29 | the array operation keeps the representation valid and refines `Buffers.Enqueue` |
| Ring.Dequeue | src/main/kotlin/data/CircularBuffer.kt:32-39 | the array operation keeps the representation valid and refines `Buffers.Dequeue` |
| Ring.Get | src/main/kotlin/data/CircularBuffer.kt:114-117 | indexing the array agrees with `Buffers.Get` on the logical content |
| Ring.Peek | src/main/kotlin/data/CircularBuffer.kt:91 | peek yields the logical head exactly when non-empty |
| Ring.Put | src/main/kotlin/data/CircularBuffer.kt:120-123 | the indexed store changes exactly one logical position |
| Ring.Swap | src/main/kotlin/data/CircularBuffer.kt:41-47 | the array operation keeps the representation valid and refines `Buffers.Swap` |
| Ring.Rotate | src/main/kotlin/data/CircularBuffer.kt:50-54 | the array operation keeps the representation valid and refines `Buffers.Rotate` |
| Ring.ReverseRotate | src/main/kotlin/data/CircularBuffer.kt:60-68 | the array operation keeps the representation valid and refines `Buffers.ReverseRotate` |
| Ring.Push | src/main/kotlin/data/CircularBuffer.kt:73-81 | the array operation keeps both representations valid and refines `Buffers.Push` |
| Ring.Fill | src/main/kotlin/data/CircularBuffer.kt:13-16 | storing a list after the tail appends it to the logical content |
| Ring.New | src/main/kotlin/data/CircularBuffer.kt:3-18 | the constructor fails exactly when `Buffers.FromList` does and otherwise holds the list |
| Ring.Clone | src/main/kotlin/data/CircularBuffer.kt:83-89 | a clone has the same logical buffer |
| Ring.Equals | src/main/kotlin/data/CircularBuffer.kt:96-104 | two buffers are equal exactly when their logical contents are, whatever their head offsets |
| Ring.HashCode | src/main/kotlin/data/CircularBuffer.kt:106-112 | the hash depends only on the logical content |
| Ring.SortedAsWritten | newKotlin/utils/Utils.kt:14 | `sorted()` keeps the head and the size and sorts the whole backing array, cleared slots included |
| Ring.SortedLogical | src/main/kotlin/chunk/SmallSort.kt:49 | the intended `sorted()` holds the logical content in ascending order |
| Ring.SortedLogicalIffAscending | src/main/kotlin/chunk/SmallSort.kt:49 | with the intended `sorted()`, `buffer == buffer.sorted()` holds exactly when the content is ascending |
| Ring.SortedAsWrittenFullAtZero | src/main/kotlin/chunk/ChunkSort.kt:20 | on a full buffer whose head is slot 0, as A is built from the input, the two readings of `sorted()` agree |
| Ring.SortedAsWrittenAccepts | src/main/kotlin/chunk/SmallSort.kt:49 | after RA and PB from A = [-1, -5, 1, 2] (capacity 4), A reads [1, 2, -1], yet `buffer == buffer.sorted()` holds as written and fails as intended |
| VirtualView.Get | src/main/kotlin/data/VirtualRotatedBuffer.kt:16-20 | index 0 is the inserted value; an empty buffer fails; any other non-negative position reads the buffer |
| VirtualView.View | src/main/kotlin/data/VirtualRotatedBuffer.kt:11-16 | the view is one longer than the buffer |
| VirtualView.GetIsView | src/main/kotlin/data/VirtualRotatedBuffer.kt:16-20 | indexing agrees with the value followed by B rotated left `rotation` times |
| VirtualView.ViewUnrotated | src/main/kotlin/data/VirtualRotatedBuffer.kt:3-10 | with no rotation the view is the value pushed onto B |
| VirtualView.ViewPermutes | src/main/kotlin/data/VirtualRotatedBuffer.kt:3-10 | the view holds exactly the value and B's elements |
| Heap.HeapRootMin | src/main/kotlin/data/PriorityQueue.kt:3-10 | in a heap ordered by `currentCost` the root costs no more than any element |
| Heap.HeapRootMinAll | src/main/kotlin/data/PriorityQueue.kt:46-56 | the root is a minimum of the whole queue |
| Heap.SmallerChild | src/main/kotlin/data/PriorityQueue.kt:100-105 | the chosen child is a child of `i` and costs no more than any child of `i`, the left one winning a tie |
| Heap.UpStep | src/main/kotlin/data/PriorityQueue.kt:78-83 | one iteration of `siftUp` keeps the sift-up invariant with the hole moved to the parent |
| Heap.UpDone | src/main/kotlin/data/PriorityQueue.kt:84 | filling the hole when the loop stops leaves a heap |
| Heap.Push | src/main/kotlin/data/PriorityQueue.kt:41-44 | push keeps the heap order, adds exactly the new element and grows the queue by one |
| Heap.DownStep | src/main/kotlin/data/PriorityQueue.kt:99-109 | one iteration of `siftDown` keeps the sift-down invariant with the hole moved to the smaller child |
| Heap.DownDone | src/main/kotlin/data/PriorityQueue.kt:110 | filling the hole when the loop stops leaves a heap |
| Heap.SiftDown | src/main/kotlin/data/PriorityQueue.kt:96-111 | sifting the root down yields a heap holding the same elements with the hole filled |
| Heap.Pop | src/main/kotlin/data/PriorityQueue.kt:56-65 | pop fails exactly on an empty queue; otherwise it returns a cheapest element and a heap of the rest, same multiset |
| PackedMoves.DigitPositionsDistinct | src/main/kotlin/data/PackedMoveList.kt:19-20 | distinct move indices address distinct 4-bit digits |
| PackedMoves.OrDigit | src/main/kotlin/data/PackedMoveList.kt:21 | or-ing a code into place changes only that move's digit |
| PackedMoves.Code | src/main/kotlin/data/PackedMoveList.kt:11-13 | every move's ordinal fits a 4-bit digit |
| PackedMoves.Decode | src/main/kotlin/data/PackedMoveList.kt:42-43 | decoding a stored digit yields the move with that ordinal |
| PackedMoves.ToList | src/main/kotlin/data/PackedMoveList.kt:37-46 | `toList()` has `size` moves whose codes are the stored digits |
| PackedMoves.Empty | src/main/kotlin/data/PackedMoveList.kt:15 | the empty list is well formed and decodes to no moves |
| PackedMoves.From | src/main/kotlin/data/PackedMoveList.kt:16-24 | packing a list and decoding it gives back the same list |
| PackedMoves.Grow | src/main/kotlin/data/PackedMoveList.kt:29-30 | growing the array keeps every stored digit and adds zero digits |
| PackedMoves.Add | src/main/kotlin/data/PackedMoveList.kt:27-35 | adding a move appends it to the decoded list and keeps the list well formed |
| PackedMoves.AddKeepsList | src/main/kotlin/data/PackedMoveList.kt:31-34 | a word array that keeps the old digits, holds the new code next and zeros beyond decodes to the old list plus the move |
| PackedMoves.Clone | src/main/kotlin/data/PackedMoveList.kt:48 | a clone decodes to the same list |
| PackedMoves.Contains | src/main/kotlin/data/PackedMoveList.kt:49-57 | the scan finds a move exactly when it is in the decoded list |
| PackedMoves.ContainsAll | src/main/kotlin/data/PackedMoveList.kt:59-64 | the answer is true exactly when every given move is in the decoded list |
| PackedMoves.Next | src/main/kotlin/data/PackedMoveList.kt:68-79 | `next()` fails exactly when `hasNext()` is false and otherwise yields the move at the cursor and advances it |
| PackedMoves.DrainFrom | src/main/kotlin/data/PackedMoveList.kt:68-79 | a cursor yields the decoded list from its index on, in order |
| PackedMoves.IteratorYieldsList | src/main/kotlin/data/PackedMoveList.kt:68-79 | iteration yields exactly `toList()` and then fails |
| PackedMoves.AddAll | src/main/kotlin/data/PackedMoveList.kt:27-35 | adding moves one at a time keeps the list well formed and grows it by their number |
| PackedMoves.AddBuildsList | src/main/kotlin/data/PackedMoveList.kt:15-35 | starting from `empty()` and adding moves one at a time decodes back to exactly those moves |
| Machine.Apply | src/main/kotlin/data/Stack.kt:19-46 | `apply` reports the move's status, records the move exactly when the status is true, and leaves chunk, boundary and heuristic alone |
| Machine.PushMoves | src/main/kotlin/data/Stack.kt:28-29 | PA moves B's head onto A and PB moves A's head onto B, each failing exactly when its source is empty or its destination full |
| Machine.FailedStep | src/main/kotlin/data/Stack.kt:20-44 | a failed single-stack move changes nothing; a failed SS, RR or RRR still leaves the A-side operation applied |
| Machine.DuoFailureStillChangesA | src/main/kotlin/data/Stack.kt:23-26 | SS on A = [2, 1] with B empty swaps A yet reports failure and is not recorded |
| Machine.StepConserves | src/main/kotlin/data/Stack.kt:19-43 | every move keeps both capacity bounds and the combined multiset of the two stacks |
| Machine.StepInverse | src/main/kotlin/data/Move.kt:10-28 | every successful move is undone by its inverse, which succeeds too |
| Machine.PushesUndone | src/main/kotlin/data/Move.kt:10-28 | a successful PA is undone by PB and a successful PB by PA |
| Machine.RunSingle | src/main/kotlin/data/Stack.kt:19-46 | replaying one move is one step, failing when the step fails |
| Machine.RunPair | src/main/kotlin/data/Stack.kt:19-46 | replaying two moves is the first step followed by the second |
| Machine.RunAppend | src/main/kotlin/data/Stack.kt:19-46 | replaying one more move is replaying the prefix and then stepping |
| Machine.RunConcat | src/main/kotlin/data/Stack.kt:19-46 | replaying a concatenation is replaying the first part and then the second from where it ended |
| Machine.RunConserves | src/main/kotlin/data/Stack.kt:19-46 | a successful replay keeps the capacity bounds and the combined multiset |
| Machine.ReachesRefl | src/main/kotlin/data/Stack.kt:17 | a state descends from itself |
| Machine.ReachesApply | src/main/kotlin/data/Stack.kt:44 | applying a move to a descendant gives a descendant, the recorded move extending the replay |
| Machine.ReachesTrans | src/main/kotlin/data/Stack.kt:17 | descent is transitive: a clone that applies more moves still descends from the original |
| Machine.ReachesConserves | src/main/kotlin/data/Stack.kt:19-46 | a descendant keeps the capacities and the combined multiset of the stacks |
| Replay.Repeat | src/main/kotlin/chunk/SmallSort.kt:95-101 | `repeat(k)` of one move is a list of `k` copies of it |
| Replay.ApplyAllRun | src/main/kotlin/data/Stack.kt:19-46 | applying moves one by one after a successful replay records all of them, ends in the replay's buffers and descends from the start |
| Replay.RunRotations | src/main/kotlin/data/CircularBuffer.kt:50-54 | `k` rotations of A move its first `k` elements to the tail |
| Replay.RunReverseRotations | src/main/kotlin/data/CircularBuffer.kt:60-68 | `k` reverse rotations of A move its last `k` elements to the head |
| Replay.RotationMoves | src/main/kotlin/chunk/ChunkSort.kt:67-77 | the rotation takes the shorter direction: RA when the position is in the first half, otherwise RRA, never more than half the size |
| Replay.RotateToFront | src/main/kotlin/chunk/ChunkSort.kt:67-77 | the rotation moves bring the chosen position of A to its head, leave B alone and record the moves |
| Replay.ApplyAllPrefix | src/main/kotlin/data/Stack.kt:44 | the recorded history only grows |
| Replay.ApplyAllRecords | src/main/kotlin/data/Stack.kt:44 | every move the history gains is one of the moves applied |
| HeuristicUtil.Matches | src/main/kotlin/a_star/HeuristicUtil.kt:15 | the count of agreeing positions is at most the length and equals it exactly when the two lists are equal |
| HeuristicUtil.NoOfSorted | src/main/kotlin/a_star/HeuristicUtil.kt:13-16 | `noOfSorted` never exceeds the buffer's size |
| HeuristicUtil.NoOfSortedFull | src/main/kotlin/a_star/HeuristicUtil.kt:13-16 | every element is in place exactly when the buffer is ascending |
| HeuristicUtil.CountAfter | src/main/kotlin/a_star/HeuristicUtil.kt:35-38 | the inner count is 0 exactly when no later element is inverted with `x`, and the full length exactly when all are |
| HeuristicUtil.CountAfterCons | src/main/kotlin/a_star/HeuristicUtil.kt:35-38 | the inner count splits into the first element's contribution and the rest's |
| HeuristicUtil.InnerStep | src/main/kotlin/a_star/HeuristicUtil.kt:35-38 | one inner iteration adds exactly the pair `(i, j)` when it is inverted |
| HeuristicUtil.OuterStep | src/main/kotlin/a_star/HeuristicUtil.kt:34-39 | one outer iteration adds the inversions of element `i` with the elements after it |
| HeuristicUtil.SortednessScore | src/main/kotlin/a_star/HeuristicUtil.kt:32-41 | the double loop returns the number of inverted pairs `i < j` (descending pairs, or ascending ones when reversed) wrapped to an `Int`; on lists of at most 65536 elements that is the exact count |
| HeuristicUtil.CountedIsScore | src/main/kotlin/a_star/HeuristicUtil.kt:34-39 | after `i` rounds of the outer loop the counted inversions are exactly the inverted pairs whose first element lies before `i` |
| HeuristicUtil.ScoreFitsInt | src/main/kotlin/a_star/HeuristicUtil.kt:33 | on a list of at most 65536 elements the count of inverted pairs never exceeds `Int.MAX_VALUE`, so the `Int` counter does not wrap |
| HeuristicUtil.ScoreExceedsInt | src/main/kotlin/a_star/HeuristicUtil.kt:33 | a strictly descending list of 65537 elements has more inverted pairs than an `Int` holds, so the bound above is the point where the counter starts to wrap |
| HeuristicUtil.CountFrom | src/main/kotlin/a_star/HeuristicUtil.kt:35-38 | the inner loop counts the elements after `list[i]` that are inverted with it |
| HeuristicUtil.ScoreZeroIffOrdered | src/main/kotlin/a_star/HeuristicUtil.kt:18-24 | the score is 0 exactly when no pair is inverted |
| HeuristicUtil.ScoreZeroIffSorted | src/main/kotlin/a_star/HeuristicUtil.kt:18-24 | the plain score is 0 exactly on ascending lists and the reversed score exactly on descending ones |
| HeuristicUtil.ScoreBound | src/main/kotlin/a_star/HeuristicUtil.kt:26-27 | the score never exceeds (n² - n) / 2 |
| HeuristicUtil.ScoreMaximum | src/main/kotlin/a_star/HeuristicUtil.kt:26-27 | the bound is reached by a strictly descending list, or a strictly ascending one for the reversed score |
| HeuristicUtil.AllInvertedScore | src/main/kotlin/a_star/HeuristicUtil.kt:26-27 | a list in which every pair is inverted scores exactly (n * n - n) / 2 |
| HeuristicUtil.RotScores | src/main/kotlin/a_star/HeuristicUtil.kt:71-73 | one reversed score per rotation of B, in rotation order |
| HeuristicUtil.BestRotation | src/main/kotlin/a_star/HeuristicUtil.kt:68-79 | the scan returns a valid rotation index |
| HeuristicUtil.BestRotationStep | src/main/kotlin/a_star/HeuristicUtil.kt:71-79 | from any consistent scan state the scan returns the first rotation of least score, even with the early exit on 0 |
| HeuristicUtil.BestRotationIsFirstMinimum | src/main/kotlin/a_star/HeuristicUtil.kt:68-79 | on a non-empty B of at most 60000 elements, where no score reaches `Int.MAX_VALUE`, the scan returns the first rotation of least score |
| HeuristicUtil.MinRotIdxB | src/main/kotlin/a_star/HeuristicUtil.kt:63-83 | 0 for an empty B or `x >= b[0]`; otherwise the best rotation or its complement, never more than half of B |
| HeuristicUtil.MinRotIdxBCachedAsWritten | src/main/kotlin/a_star/HeuristicUtil.kt:63-83 | with the cache keyed by `(b.hashCode(), x)`, a cached entry is returned whatever B's content |
| HeuristicUtil.CollidingHashes | src/main/kotlin/data/CircularBuffer.kt:106-112 | B = [0, 31] and B = [1, 0] both hash to 1953 |
| HeuristicUtil.ScoreOfThree | src/main/kotlin/a_star/HeuristicUtil.kt:32-41 | the reversed score of three values counts their ascending pairs |
| HeuristicUtil.ScanOfTwo | src/main/kotlin/a_star/HeuristicUtil.kt:71-73 | the two rotation scores of a two-element B |
| HeuristicUtil.CacheCollision | src/main/kotlin/a_star/HeuristicUtil.kt:66-67 | after asking about B = [0, 31] with x = -1, the cached lookup for B = [1, 0] answers 1 where the scan gives 0 |
| HeuristicUtil.MinRotIdxBCached | src/main/kotlin/a_star/HeuristicUtil.kt:63-83 | with the cache keyed by B's content, the answer is always the scan's and the cache stays sound |
| Chunks.CountIn | src/main/kotlin/a_star/PushHeuristic.kt:35-37 | the number of eligible elements is 0 exactly when no element lies in the chunk's range |
| PushHeuristic.RotationCost | src/main/kotlin/a_star/PushHeuristic.kt:38-40 | rotA is the shorter way round A and rotB is `minRotIdxB`, so the cost is at most half of the two sizes together |
| PushHeuristic.MinRotationFrom | src/main/kotlin/a_star/PushHeuristic.kt:33-43 | the loop keeps the least rotation cost among the chunk's elements of A, or the start value when there is none |
| PushHeuristic.PushPhaseLB | src/main/kotlin/a_star/PushHeuristic.kt:27-48 | an empty A gives `Int.MIN_VALUE` or 0 by B's fullness; otherwise the bound is at least the number of chunk values in A, and 0 when there are none |
| PushHeuristic.Calculate | src/main/kotlin/a_star/PushHeuristic.kt:7-10 | `Int.MIN_VALUE` exactly for an empty A beside a B that is not full; otherwise never negative |
| PushHeuristic.CalculateIsBound | src/main/kotlin/a_star/PushHeuristic.kt:35-47 | with chunk values in A the estimate is their number plus the least rotation cost among them |
| PushHeuristic.CalculateDone | src/main/kotlin/a_star/PushHeuristic.kt:45 | with no chunk value left in A the estimate is 0 |
| MixedHeuristic.PrefixFrom | src/main/kotlin/a_star/MixedHeuristic.kt:47-53 | the loop only extends the prefix while the next element is in the chunk and not below the previous one, never past A or the chunk size |
| MixedHeuristic.PrefixLen | src/main/kotlin/a_star/MixedHeuristic.kt:44-55 | the prefix is at most min(|A|, chunkSize) long, made of chunk values in ascending order, and maximal: the next element is outside the chunk or below its predecessor |
| MixedHeuristic.PrefixLenOfSortedChunk | src/main/kotlin/a_star/MixedHeuristic.kt:44-55 | when A starts with the chunk's values in ascending order the prefix is the whole chunk |
| MixedHeuristic.PrefixInversionsVanish | src/main/kotlin/a_star/MixedHeuristic.kt:69-78 | the prefix inversion count of the measured prefix is always 0 |
| MixedHeuristic.ChunkAfterIsCount | src/main/kotlin/a_star/MixedHeuristic.kt:97-100 | the inner loop counts the later chunk values of B that exceed `b[i]` |
| MixedHeuristic.ChunkPairsIsScore | src/main/kotlin/a_star/MixedHeuristic.kt:95-101 | the double loop is the reversed inversion count of B's chunk values |
| MixedHeuristic.DescendingInversionsBIsScore | src/main/kotlin/a_star/MixedHeuristic.kt:92-103 | B's term counts the ascending pairs of B's chunk values and is 0 exactly when they are descending |
| MixedHeuristic.InsertPos | src/main/kotlin/a_star/MixedHeuristic.kt:128-132 | the target index in B is the first element below the value, or B's size |
| MixedHeuristic.PushCandidate | src/main/kotlin/a_star/MixedHeuristic.kt:133-136 | the candidate is one push plus no more than any of the four rotation plans |
| MixedHeuristic.MinPushFrom | src/main/kotlin/a_star/MixedHeuristic.kt:125-138 | the loop keeps the least candidate among the chunk values of A from `i` on |
| MixedHeuristic.CandidatePushCost | src/main/kotlin/a_star/MixedHeuristic.kt:123-140 | -1 once the prefix covers the chunk or when no chunk value lies past it, otherwise the least push cost among them, at least 1 |
| MixedHeuristic.MinPullFrom | src/main/kotlin/a_star/MixedHeuristic.kt:156-163 | the loop keeps the least pull cost among B's chunk values from `k` on |
| MixedHeuristic.CandidatePullCost | src/main/kotlin/a_star/MixedHeuristic.kt:154-165 | -1 when B holds no chunk value; otherwise the least pull cost among them, at least 1 |
| MixedHeuristic.NextCost | src/main/kotlin/a_star/MixedHeuristic.kt:176-182 | the least of the non-negative candidates, or 0 when neither is non-negative |
| MixedHeuristic.Calculate | src/main/kotlin/a_star/MixedHeuristic.kt:22-28 | the estimate is never negative and is 0 when B is empty and the prefix covers the chunk |
| MixedHeuristic.CalculateAtGoal | src/main/kotlin/a_star/MixedHeuristic.kt:22-28 | the goal state, B empty and A headed by the chunk's values in order, has estimate 0 |
| MixedHeuristic.CalculateZero | src/main/kotlin/a_star/MixedHeuristic.kt:22-28 | an estimate of 0 means B holds no chunk value and no chunk value lies past an incomplete prefix |
| BestStates.InvalidFast | src/main/kotlin/a_star/BestStates.kt:36-58 | rejects the inverse of the last recorded move, PB when A is empty or its head is outside the chunk, and SS when a[0] or a[1] is at most the previous chunk's boundary; fails exactly when that test reads a[1] of a one-element A |
| BestStates.ApplyMoveIfValid | src/main/kotlin/a_star/BestStates.kt:64-87 | fails exactly when the fast check does; yields `null` for a rejected or failed move; a returned successor has the move recorded and a non-negative heuristic computed on it, and the original is untouched; conversely, a move that passes the fast check, applies, does not spoil A's order through SS and scores non-negatively always yields that rescored state |
| BestStates.CanPull | src/main/kotlin/a_star/BestStates.kt:100-115 | PA is forced exactly in the pull phase, with B non-empty and headed by its maximum, and A ending with the previous chunk's boundary when both exist; the forced state descends from the input by at most one move |
| BestStates.MinCost | src/main/kotlin/a_star/BestStates.kt:117-131 | the least `currentCost` among the states is attained by one of them |
| BestStates.WithCostSpec | src/main/kotlin/a_star/BestStates.kt:117-131 | the cost filter keeps exactly the inputs of that cost |
| BestStates.NoneWithCost | src/main/kotlin/a_star/BestStates.kt:117-131 | when every state costs more, none is kept |
| BestStates.Snoc | src/main/kotlin/a_star/BestStates.kt:120-128 | one more state updates the minimum and the kept list as the loop body does |
| BestStates.First | src/main/kotlin/a_star/BestStates.kt:120-125 | after the first state, the minimum is its cost and the list holds it alone |
| BestStates.BestOfNonEmpty | src/main/kotlin/a_star/BestStates.kt:117-131 | a non-empty input always keeps at least one state |
| BestStates.FindBestStates | src/main/kotlin/a_star/BestStates.kt:117-131 | the single pass returns exactly the inputs of least cost, in input order, and is non-empty for a non-empty input |
| BestStates.FindStep | src/main/kotlin/a_star/BestStates.kt:117-131 | one iteration of the pass keeps the running minimum equal to the least cost seen so far and the result equal to exactly the states seen so far with that cost |
| BestStates.BestOfEqualCosts | src/main/kotlin/a_star/BestStates.kt:117-131 | when all inputs cost the same, all of them are kept |
| BestStates.Successors | src/main/kotlin/a_star/BestStates.kt:15-25 | every successor descends from the state by exactly one recorded move, keeps its chunk and boundary, and there is at most one per allowed move; it fails exactly when some allowed move makes the fast check fail |
| BestStates.SuccessorsComplete | src/main/kotlin/a_star/BestStates.kt:15-25 | every state `applyMoveIfValid` returns for an allowed move is among the successors: the loop drops only `null` |
| BestStates.GetBestStates | src/main/kotlin/a_star/BestStates.kt:10-27 | the result is the successor list, all one move longer; it fails exactly when some allowed move makes the fast check fail |
| AStar.CanExitIgnoresHistory | src/main/kotlin/a_star/AStar.kt:75-81 | the exit test reads only B and the chunk, never the heuristic or the move history |
| AStar.CanExitPhases | src/main/kotlin/a_star/AStar.kt:75-81 | in the push phase the exit test holds exactly when B holds every chunk value; in the pull phase exactly when B is empty |
| AStar.HasVisited | src/main/kotlin/a_star/AStar.kt:83-89 | the answer is whether the state was seen before; afterwards the state counts as seen, nothing seen is forgotten and no other state is added (the once-only property is `HasVisitedOnce`) |
| AStar.HasVisitedOnce | src/main/kotlin/a_star/AStar.kt:83-89 | a key is reported new only when absent, is reported visited on every later lookup, and no earlier key is forgotten |
| AStar.VisitKeyContents | newKotlin/data/Stack.kt:68-73 | the visited key tells states apart by both buffers, the chunk, `prevChunkNum` and `heuristic`, and ignores the move history |
| AStar.ForcedPullIsNew | src/main/kotlin/a_star/BestStates.kt:110-113 | the state the forced PA re-pushes has a different key from the popped state, so it is not skipped when popped again |
| AStar.InSortedOrderIsAscending | src/main/kotlin/a_star/AStar.kt:99-102 | `inSortedOrder` holds exactly when the chunk values of A, in stack order, are ascending |
| AStar.PushAll | src/main/kotlin/a_star/AStar.kt:64 | pushing the best states keeps the heap order and adds exactly those states |
| AStar.Search | src/main/kotlin/a_star/AStar.kt:38-81 | a returned state passes the exit test, descends from the start by recorded moves with the chunk and boundary kept, costs at most one move per round, and carries the heuristic recomputed on the state as it passed the exit test; a start that already passes is returned with only its heuristic recomputed |
| AStar.Sort | src/main/kotlin/a_star/AStar.kt:16-36 | an in-order chunk is left alone unless its maximum is A's maximum, and an empty A fails; otherwise the result descends from the input, ends with B empty and carries the pull heuristic recomputed at the exit |
| SmallSort.Succ | src/main/kotlin/chunk/SmallSort.kt:59-64 | the range bound `v + 1` is exact below `Int.MAX_VALUE`; with `Int` addition it wraps to `Int.MIN_VALUE` at the top |
| SmallSort.ThreeCases | src/main/kotlin/chunk/SmallSort.kt:55-66 | every answer of the case table is at most two moves drawn from SA, RA and RRA |
| SmallSort.SortThreeWith | src/main/kotlin/chunk/SmallSort.kt:48-67 | an ascending buffer gets no moves, and every answer is at most two moves drawn from SA, RA and RRA |
| SmallSort.SortThree | src/main/kotlin/chunk/SmallSort.kt:48-67 | with the intended range bounds: no moves for an ascending buffer, at most two moves, and never the `error` branch for up to three distinct values |
| SmallSort.SortThreeAsWritten | src/main/kotlin/chunk/SmallSort.kt:48-67 | with the source's wrapping `a + 1`: no moves for an ascending buffer and at most two moves |
| SmallSort.SortThreeOverflow | src/main/kotlin/chunk/SmallSort.kt:59 | A = [Int.MAX_VALUE, 1, 2] is out of order, yet the source's table returns no moves; the intended table returns RA, which sorts it |
| SmallSort.SortThreeOverflowFamily | src/main/kotlin/chunk/SmallSort.kt:59 | the same holds for every A = [Int.MAX_VALUE, b, c] with b < c |
| SmallSort.SortThreeAgrees | src/main/kotlin/chunk/SmallSort.kt:55-66 | on distinct values the two tables agree unless the first value is `Int.MAX_VALUE` |
| SmallSort.IsSorted | src/main/kotlin/chunk/SmallSort.kt:27 | an ascending arrangement of the same values is the sorted list |
| SmallSort.ToTable | src/main/kotlin/chunk/SmallSort.kt:49-58 | three distinct values out of order reach the case table |
| SmallSort.SortTwoSorts | src/main/kotlin/chunk/SmallSort.kt:50-53 | for two distinct values the answer is SA exactly when they are inverted, and its replay sorts A |
| SmallSort.RowSa | src/main/kotlin/chunk/SmallSort.kt:60 | the row for b < a < c replays to an ascending A with the same values |
| SmallSort.RowSaRra | src/main/kotlin/chunk/SmallSort.kt:61 | the row for c < b < a replays to an ascending A with the same values |
| SmallSort.RowRa | src/main/kotlin/chunk/SmallSort.kt:62 | the row for b < c < a replays to an ascending A with the same values |
| SmallSort.RowSaRa | src/main/kotlin/chunk/SmallSort.kt:63 | the row for a < c < b replays to an ascending A with the same values |
| SmallSort.RowRra | src/main/kotlin/chunk/SmallSort.kt:64 | the row for c < a < b replays to an ascending A with the same values |
| SmallSort.SortThreeSorts | src/main/kotlin/chunk/SmallSort.kt:55-66 | for every arrangement of three distinct values the table's moves replay to the sorted list on A and leave B alone |
| SmallSort.MinIndex | src/main/kotlin/chunk/SmallSort.kt:85 | `minByOrNull` picks the first position of the least value, or 0 for an empty A |
| SmallSort.RestAfterMin | src/main/kotlin/chunk/SmallSort.kt:85-95 | after the least value leaves A, the rest are distinct, all above it, and with it make up the original values |
| SmallSort.PushMinSpec | src/main/kotlin/chunk/SmallSort.kt:83-96 | one round rotates the least value of A to the head the short way and pushes it onto B; the rest of A stays in rotated order |
| SmallSort.PushMinPrefix | src/main/kotlin/chunk/SmallSort.kt:83-96 | a round only appends to the recorded history |
| SmallSort.SortFourFive | src/main/kotlin/chunk/SmallSort.kt:80-102 | the result is the whole recorded history, extending the moves the stack already had |
| SmallSort.FourFiveSingleStack | src/main/kotlin/chunk/SmallSort.kt:80-102 | sorting four or five values records no combined rotation RR or RRR |
| SmallSort.ParkFirst | src/main/kotlin/chunk/SmallSort.kt:83-96 | the first round parks A's least value on B, below everything left on A |
| SmallSort.ParkSecond | src/main/kotlin/chunk/SmallSort.kt:83-96 | the second round parks the least remaining value on top of the first, B staying strictly descending |
| SmallSort.Park | src/main/kotlin/chunk/SmallSort.kt:81-96 | one minimum is parked for four values and two for five, each below everything left on A |
| SmallSort.PullOne | src/main/kotlin/chunk/SmallSort.kt:98-100 | one PA moves B's head onto A |
| SmallSort.PullTwo | src/main/kotlin/chunk/SmallSort.kt:98-100 | two PAs move B's two values onto A, emptying B |
| SmallSort.PullBack | src/main/kotlin/chunk/SmallSort.kt:98-100 | `numToPush` PAs put the parked values back on A in reverse order of B and empty B |
| SmallSort.PulledBack | src/main/kotlin/chunk/SmallSort.kt:98-100 | the values pulled back are the parked values |
| SmallSort.BackInFront | src/main/kotlin/chunk/SmallSort.kt:97-100 | the parked minima pulled back in front of the sorted rest form an ascending list |
| SmallSort.FinishRun | src/main/kotlin/chunk/SmallSort.kt:97-101 | from a parked state, the table and the PAs end with the parked values in front of the sorted rest and B empty |
| SmallSort.FinishFourFive | src/main/kotlin/chunk/SmallSort.kt:97-101 | from the parked state the replay from the start ends with A sorted |
| SmallSort.SortFourFiveSorts | src/main/kotlin/chunk/SmallSort.kt:80-102 | for four or five distinct values the replay of the returned moves ends with A sorted and B empty |
| SmallSort.Sort | src/main/kotlin/chunk/SmallSort.kt:26-34 | a sorted A gets no moves; more than five values is an error exactly when A is unsorted; up to three distinct values never fail |
| SmallSort.SortSorts | src/main/kotlin/chunk/SmallSort.kt:26-34 | for at most five distinct values on a fresh stack, the returned moves replay to A sorted and B empty |
| SmallSort.SmallTableSorts | src/main/kotlin/chunk/SmallSort.kt:28-30 | for two or three distinct values the table's moves replay to A sorted |
| SmallSort.PushMinSingle | src/main/kotlin/chunk/SmallSort.kt:83-96 | a round records only rotations of A and a PB, never a move on both stacks |
| SmallSort.SortSingleStack | src/main/kotlin/chunk/SmallSort.kt:26-102 | the answer never contains RR or RRR, so it means the same to the checker as to the engine |
| ChunkSort.CountCovers | src/main/kotlin/chunk/ChunkSort.kt:44-45 | the chunk count is the rounded-up quotient: that many chunks of `chunkSize` cover the input and one fewer does not |
| ChunkSort.SpanIsProduct | src/main/kotlin/chunk/ChunkSort.kt:45-55 | `k` full chunks hold `k * chunkSize` values |
| ChunkSort.TakeOne | src/main/kotlin/chunk/ChunkSort.kt:50 | `min(chunkSize, size - startIdx)` is a full chunk while more chunks follow and the whole remainder for the last one |
| ChunkSort.AppendChunk | src/main/kotlin/chunk/ChunkSort.kt:51-55 | cutting the next values after those already covered extends the covered prefix of the sorted list |
| ChunkSort.Cut | src/main/kotlin/chunk/ChunkSort.kt:48-56 | the loop cuts the sorted list into `count` chunks whose values concatenate back to it, each bounded by its first and last value, all but the last full |
| ChunkSort.CutStep | src/main/kotlin/chunk/ChunkSort.kt:48-56 | one round takes the next min(size, remaining) values, never zero while rounds remain, as a well-formed chunk; the chunks so far still concatenate to the sorted prefix consumed and all but the last hold `size` values |
| ChunkSort.DefineChunkValues | src/main/kotlin/chunk/ChunkSort.kt:42-58 | the chunks' values concatenate to the sorted input; there are ceil(n / min(7, n)) of them, all but the last holding exactly `chunkSize` values, each bounded by its first and last value; for an input without repeats the chunks are strictly increasing |
| ChunkSort.ChunksOrdered | src/main/kotlin/chunk/ChunkSort.kt:51-54 | chunks cut from a sorted list follow each other in value order and each chunk's bounds enclose its values |
| ChunkSort.ChunksStrictlyOrdered | src/main/kotlin/chunk/ChunkSort.kt:51-54 | when the sorted values are strictly ascending, consecutive chunks are strictly increasing: an earlier chunk's maximum lies below every later chunk's minimum |
| ChunkSort.DistinctChunksIncrease | src/main/kotlin/chunk/ChunkSort.kt:44-57 | the chunks cut from the sorted values of an input without repeats, the only input the driver accepts, are strictly increasing |
| ChunkSort.FlattenHolds | src/main/kotlin/chunk/ChunkSort.kt:51 | every value of a chunk is one of the input's values |
| ChunkSort.FlattenPrefix | src/main/kotlin/chunk/ChunkSort.kt:48-56 | the first chunks' values start the flattened list |
| ChunkSort.ShiftSmallestToTop | src/main/kotlin/chunk/ChunkSort.kt:67-77 | fails exactly when the value is missing from A; otherwise A is rotated so the value is at its head, B is unchanged, at most half of A's size in moves is added, and the result descends from the input |
| ChunkSort.Initial | src/main/kotlin/chunk/ChunkSort.kt:20 | the starting state holds the input on A, an empty B and no history |
| ChunkSort.SpanGrows | src/main/kotlin/chunk/ChunkSort.kt:24-36 | more chunks allow a longer history |
| ChunkSort.FuelBound | src/main/kotlin/chunk/ChunkSort.kt:24-36 | with two bounded searches per chunk, the history over all chunks stays inside `Int` range |
| ChunkSort.SortOne | src/main/kotlin/chunk/ChunkSort.kt:25-32 | one round makes the chunk active and searches; the result descends from the start, costing at most two search budgets more |
| ChunkSort.SortChunks | src/main/kotlin/chunk/ChunkSort.kt:23-36 | the loop sorts each chunk in turn; its result descends from the starting state |
| ChunkSort.SmallPathSorts | src/main/kotlin/chunk/ChunkSort.kt:20-22 | for at most five distinct values the small sort answers, and its moves replay from the input to the sorted list with B empty |
| ChunkSort.EndsWithLeast | src/main/kotlin/chunk/ChunkSort.kt:37-39 | a descendant of the starting state headed by the first chunk's minimum replays from the input without a failing move, keeps every value and has the least value at A's head |
| ChunkSort.ShiftEnds | src/main/kotlin/chunk/ChunkSort.kt:37-39 | shifting after any descent from the starting state ends with the least value at A's head |
| ChunkSort.Finish | src/main/kotlin/chunk/ChunkSort.kt:37-39 | the answer after the shift replays from the input, keeps every value and ends with the least value at A's head |
| ChunkSort.SortLarge | src/main/kotlin/chunk/ChunkSort.kt:23-39 | the path for more than five values answers a history that replays from the input and ends with the least value at A's head |
| ChunkSort.ChunkSort | src/main/kotlin/chunk/ChunkSort.kt:16-40 | sorted input gives no moves; at most five distinct values give moves that replay to the sorted list with B empty; a larger input's answer replays, keeps every value and starts A with its least value |
| Sorting.Sort | src/main/kotlin/chunk/ChunkSort.kt:43 | `sorted()` returns an ascending list with the same elements |
| Sorting.SortOfAscending | src/main/kotlin/chunk/ChunkSort.kt:17 | sorting an ascending list returns it unchanged |
| Sorting.SortedIffAscending | src/main/kotlin/chunk/ChunkSort.kt:17 | `list == list.sorted()` holds exactly when the list is ascending |
| Sorting.AscendingUnique | src/main/kotlin/chunk/ChunkSort.kt:43 | two ascending lists with the same elements are equal, so the sorted order is unique |
| Sorting.RotationPermutes | src/main/kotlin/chunk/ChunkSort.kt:72-76 | rotating a list keeps its elements |
| Sorting.DistinctRotation | src/main/kotlin/chunk/SmallSort.kt:86-94 | rotating a list keeps it free of repeats |
| Checker.Exec | src/test/kotlin/Checker.kt:8-20 | the operations match the engine's moves except RR and RRR, which succeed exactly when both sides hold more than one value |
| Checker.KnownMoves | src/test/kotlin/Checker.kt:23-27 | the move list is accepted exactly when every entry has an operation, and then it is the list of those moves |
| Checker.Wrap | src/test/kotlin/Checker.kt:5 | a list of moves is passed entry by entry |
| Checker.KnownWrap | src/test/kotlin/Checker.kt:23-27 | a list of known moves is always accepted unchanged |
| Checker.Check | src/test/kotlin/Checker.kt:22-48 | an unknown move or a repeated value in either list is `null`; the `error` arises only with no moves and both lists unsorted |
| Checker.PassMeans | src/test/kotlin/Checker.kt:33-47 | with at least one move on well-formed lists, the verdict is `true` exactly when every move succeeds, B ends empty and A ends equal to the expected list |
| Checker.Output | src/test/kotlin/Checker.kt:54-60 | prints `OK` exactly for `true`, `KO` exactly for `false` and `Error` exactly for `null` |
| Checker.BoolOutput | src/test/kotlin/Checker.kt:50-52 | the boolean answer is true exactly for a `true` verdict |
| Checker.ReplayAgrees | src/test/kotlin/Checker.kt:8-20 | without RR and RRR the checker replays exactly as `Stack.apply` does |
| Checker.ReplayRefines | src/test/kotlin/Checker.kt:16-19 | whatever the checker's replay accepts, the engine's replay accepts too, with the same end state |
| Checker.RotateBothDiverges | src/main/kotlin/data/CircularBuffer.kt:57 | RR with one value on A and two on B: the engine rotates B and succeeds while `rotateBoth` fails |
| Checker.ReplayHead | src/test/kotlin/Checker.kt:33-38 | the replay runs the first operation and stops when it reports failure |
| Checker.RejectsMalformed | src/test/kotlin/tests/CheckerTest.kt:36-39 | an unknown move, or a repeated value, gives `Error` |
| Checker.NoMovesUnsorted | src/test/kotlin/tests/CheckerTest.kt:41 | no moves on an unsorted input with a sorted expected list gives `KO` |
| Checker.IllegalPermutation | src/test/kotlin/tests/CheckerTest.kt:74-82 | no moves with both lists unsorted raises the error |
| Checker.NoMovesSorted | src/test/kotlin/tests/CheckerTest.kt:46 | no moves on a sorted input gives `OK` |
| Checker.FailingReplays | src/test/kotlin/tests/CheckerTest.kt:42-43 | PA on an empty B gives `KO`, and so does an SA that misses the expected list |
| Checker.SwapPasses | src/test/kotlin/tests/CheckerTest.kt:48 | SA on [4, 3, 5] reaches [3, 4, 5] |
| Checker.RotatePasses | src/test/kotlin/tests/CheckerTest.kt:49 | RA on [4, 5, 6] reaches [5, 6, 4] |
| Checker.ReverseRotatePasses | src/test/kotlin/tests/CheckerTest.kt:50 | RRA on [5, 6, 7] reaches [7, 5, 6] |
| Checker.PushStep | src/test/kotlin/Checker.kt:12-13 | PA and PB succeed and move the head across when the source is non-empty and the destination not full |
| Checker.ThroughBReplay | src/test/kotlin/tests/CheckerTest.kt:53-58 | PB, PB, SB, PA, PA on [1, 2, 3, 4] ends with A = [2, 1, 3, 4] and B empty |
| Checker.ThroughBPasses | src/test/kotlin/tests/CheckerTest.kt:53-58 | the checker accepts that answer |
| Checker.ReverseBothReplay | src/test/kotlin/tests/CheckerTest.kt:65-70 | PB, PB, PB, RRR, PA, PA, PA on [1, ..., 6] ends with A = [2, 3, 1, 6, 4, 5] and B empty |
| Checker.ReverseBothPasses | src/test/kotlin/tests/CheckerTest.kt:65-70 | the checker accepts that answer |
| Sorting.DistinctCount | src/test/kotlin/Checker.kt:28 | a list without repeats, the `size == toSet().size` test, holds each value at most once |
| Sorting.DistinctPermutation | src/test/kotlin/Checker.kt:28 | a rearrangement of a list without repeats has none either, so the sorted input passes the same test |
| SmallSortTest.SmallSortAccepted | src/test/kotlin/tests/SmallSortTest.kt:29-37 | for every input of at most five distinct values, the small sort answers and the checker, given the input and its sorted order, returns OK |

## Left out

- I/O, the command line and logging are not modelled. This covers `Main.kt`, `processNumList`, `Debug.kt`, stderr output and the info/debug string builders.
- `Settings.kt` is not part of this model. `MAX_CHUNK_SIZE` is the constant 7 in `ChunkSort`.
- The Python tree `src/pushswap` and the older `newKotlin` tree are not modelled. The one exception: `newKotlin/data/Move.kt:24-30` supplies `pushAllowed`, `pullAllowed`, `isPush` and `isPull`, which the search in `src/main/kotlin` calls but the `src` version of `Move.kt` does not define.
- `PullHeuristic.kt` is not part of this model. The search and `ChunkSort` take the pull-phase heuristic as a parameter (`pullH`).
- `HeuristicUtil.doubleOpsBonus` is left out. It clones stacks to score RR/RRR and SS bonuses, and nothing in the modelled core calls it.
- HeuristicUtil.MinRotIdxB: the rest of the model uses the uncached scan. The process-wide `minRotIdxBCache` is modelled only as the pure functions `MinRotIdxBCachedAsWritten` and `MinRotIdxBCached`, which take the cache as a parameter (see Findings).
- HeuristicUtil.RotScores: the scores are exact counts, while the source's `sortednessScore` returns an `Int` that wraps past `Int.MAX_VALUE`. The two agree while each rotated list has at most 65536 elements, that is for a B of at most 65535 elements (`ScoreFitsInt`). For larger B a score can wrap (`ScoreExceedsInt` gives a list of 65537 elements that does), and the model does not follow the wrapped value.
- HeuristicUtil.MinRotIdxB: it scans the exact scores of `RotScores`, so it matches the source only for a B of at most 65535 elements, where no score wraps; `BestRotationIsFirstMinimum` is stated for B of at most 60000 elements.
- AStar.HasVisited: `src/main/kotlin/data/Stack.kt` declares no `equals` or `hashCode`, so there `currentStack.hashCode()` is the identity hash. The model follows the content `hashCode` of `newKotlin/data/Stack.kt:68-73` (both buffers, the chunk, `prevChunkNum` and `heuristic`), as it follows the `Stack` the callers are written against for `prevChunkNum` and the settable `heuristic`. It keys by those contents, so hash collisions are not modelled either.
- AStar.Search: under the identity hash every clone is a new key, and the one state popped twice is the one `canPull` mutates and re-pushes (`BestStates.kt:110-113`), which is then skipped. With B = [3, 2, 1] and no `prevChunkNum` in the pull phase, the identity-hash search forces PA, skips the re-popped state, empties the open list and fails with "Failed to find a solution"; the model's search sees a new key (`AStar.ForcedPullIsNew`) and keeps pulling.
- AStar.Search: the source loops until the open list is empty or a state passes the exit test. The model pops at most `fuel` states and reports an exhausted budget as an error. Its precondition keeps `currentCost` inside `Int`, since `moves.size` is an `Int`.
- ChunkSort.ChunkSort: for more than five values the contract promises only that the replay succeeds, keeps every value and ends with the least value at A's head. Full sortedness depends on what the searches return, and the search's result is not characterised beyond its exit test.
- ChunkSort.ChunkSort: the `2 * fuel * (|list| + 1) < INT_MAX` precondition bounds the model's fuel, not the source's input. It keeps `currentCost` inside `Int` across all chunks.
- ChunkSort.ChunkSort: for five or fewer values with repeats, the contract says nothing about the replay. The source assumes distinct input.
- ChunkSort.SortChunks: `src/main/kotlin/chunk/ChunkSort.kt` assigns a `Pair` of the current and next chunk to `stack.chunk` and never sets `prevChunkNum`. The model keeps one chunk per stack and `prevChunkNum` stays `None`.
- Machine: `Stack.heuristic` is a stored field. The `src` getter recomputes it while its callers assign it, and the model follows the callers.
- Machine: `clone()` of `Stack`, `CircularBuffer` and `PackedMoveList` is the value itself, because states are immutable. Independence of the copy holds by construction.
- PackedMoves: the JVM `Long` words are modelled as sequences of 4-bit digits, with explicit digit positions, instead of shifts and masks on 64-bit words.
- SmallSort.SortFourFive: the source returns the stack's whole recorded history, not only the moves it added. The model does the same, so `SmallSort.SortSorts` requires a stack with no history, as `ChunkSort` builds it.
- Checker.Check: `numList == numList.sorted()` is written with the ascending test. `Sorting.SortedIffAscending` proves the two are the same.
- Checker: the remaining `CheckerTest.kt` cases are covered by the general lemmas (`Checker.PassMeans`, `Checker.ReplayAgrees`) rather than one lemma each.
- Ring: `CircularBuffer` equality and `hashCode` are modelled on the logical contents. Reference identity is not modelled.
- SmallSort.Sort: runs the corrected three-value table `SmallSort.SortThree`, not the wrapping one at `SmallSort.kt:59` (see Findings). On [2147483647, 1, 2] the source returns no moves; the model returns [RA]. It also reads `stack.a == stack.a.sorted()` on the logical contents; on the freshly built A the two readings agree (`Ring.SortedAsWrittenFullAtZero`).
- SmallSort.SortFourFive: runs the corrected table and the logical `sorted()` for the last three values (see Findings). On [1, 2147483647, 2, 3] the source answers [PB, PA] and leaves A unsorted; on [-1, -5, 1, 2] it answers [RA, PB, PA]. The model answers [PB, RA, PA] and [RA, PB, RRA, PA].
- SmallSort.SortThreeWith: `buffer == buffer.sorted()` is read on the logical contents, not on the raw array of `newKotlin/utils/Utils.kt:14` (see Findings).
- SmallSort.FinishRun: runs the corrected table and the logical `sorted()`, so its sortedness is a property of the corrected code. The source can leave the three values unsorted when the first is Int.MAX_VALUE, or when the raw array of the partly emptied A happens to be in order.
- SmallSort.FinishFourFive: runs the corrected table and the logical `sorted()`, for the same reason as SmallSort.FinishRun.
- SmallSort.SortFourFiveSorts: proves sorting for the corrected table and the logical `sorted()`. The source's `sortFourFive` fails it on [1, 2147483647, 2, 3] and [-1, -5, 1, 2].
- SmallSort.SortSorts: proves sorting for the corrected table and the logical `sorted()`. The source fails it on [2147483647, 1, 2].
- SmallSort.SmallTableSorts: proves sorting for the corrected table. The source fails it on [2147483647, 1, 2].
- ChunkSort.SmallPathSorts: the path for five or fewer values runs the corrected `SmallSort.Sort`, so its sortedness is a property of the corrected code.
- ChunkSort.ChunkSort: for five or fewer values it runs the corrected `SmallSort.Sort`, so its contract for that path describes the corrected code.
- SmallSortTest.SmallSortAccepted: holds for the corrected `SmallSort.Sort`. The source's answer on [2147483647, 1, 2] is judged KO by the checker.
- HeuristicUtil.NoOfSorted: `buffer.sorted()` is the logical sort. The raw-array `sorted()` of `newKotlin/utils/Utils.kt:14` would compare the content with a rotated view of the sorted array (see Findings).

## Findings

| source | as written | input that shows it | evidently intended | confidence | as-written member | corrected member |
|---|---|---|---|---|---|---|
| src/main/kotlin/chunk/SmallSort.kt:59 | `b in (a + 1)..<c` computes `a + 1` in 32-bit `Int`; for `a == Int.MAX_VALUE` it wraps to `Int.MIN_VALUE`, so the "already sorted" row matches | A = [2147483647, 1, 2]: `sortThree` returns no moves and A stays unsorted | the row should match only `a < b < c`; the input needs RA | not executed | SmallSort.SortThreeAsWritten, SmallSort.SortThreeOverflow | SmallSort.SortThree (proved to sort by SmallSort.SortThreeSorts) |
| src/main/kotlin/a_star/HeuristicUtil.kt:66-67 | the `minRotIdxB` cache is keyed by `(b.hashCode(), x)`, and different B contents can share a hash code | B = [0, 31] then B = [1, 0] with x = -1: both hash to 1953, so the second lookup returns the first B's rotation, 1, instead of 0 | the cache should answer what the scan computes for the current B | not executed | HeuristicUtil.MinRotIdxBCachedAsWritten, HeuristicUtil.CacheCollision | HeuristicUtil.MinRotIdxBCached |
| newKotlin/utils/Utils.kt:14 | `CircularBuffer.sorted()` clones the buffer and sorts its whole backing array, keeping the head and the size; the slots `dequeue` cleared to 0 take part, and the head still points where it did | A = [-1, -5, 1, 2] with capacity 4 in `sortFourFive`: RA and PB leave the array [-1, 0, 1, 2] with the head at slot 2, so A reads [1, 2, -1]; the array is already in order, so `buffer == buffer.sorted()` holds at `SmallSort.kt:49`, `sortThree` returns no moves and the answer [RA, PB, PA] leaves A = [-5, 1, 2, -1] | `sorted()` should sort the logical content, so the comparison holds exactly when A is ascending | not executed; this is the definition in `newKotlin/utils/Utils.kt`; the `src` tree imports its own `src/main/kotlin/utils/Utils.kt`, which is not part of this model and may define `sorted()` differently | Ring.SortedAsWritten, Ring.SortedAsWrittenAccepts | Ring.SortedLogical (proved by Ring.SortedLogicalIffAscending); the rest of the model reads `sorted()` this way |

=== FILE: astar.dfy ===
/** `AStar`: the per-chunk search. A push-phase search moves the chunk's values from A to B, then
    a pull-phase search brings them back onto A in order. The open list is the binary heap of
    module Heap, ordered by `currentCost`. */
module AStar {
  import opened Wrappers
  import opened Ints
  import opened Sorting
  import opened Moves
  import opened Chunks
  import opened Machine
  import Buffers
  import Heap
  import BestStates
  import PushHeuristic

  /** A state the search may hand back for `start`: it descends from `start` by recorded moves and
      keeps `start`'s chunk and previous-chunk boundary. */
  predicate Descends(start: Stack, t: Stack) {
    Reaches(start, t) && t.chunk == start.chunk && t.prevChunkNum == start.prevChunkNum
  }

  /** `canExit` without its side effect: in the push phase every chunk value sits in B; in the
      pull phase B is empty. */
  predicate CanExit(s: Stack, allowed: seq<Move>)
    requires |allowed| > 0
  {
    || (IsPush(allowed) && forall v :: v in s.chunk.values ==> v in s.b.items)
    || (IsPull(allowed) && |s.b.items| == 0)
  }

  /** The exit test reads only B and the chunk, so it does not depend on the heuristic field or
      the move history. */
  lemma CanExitIgnoresHistory(s: Stack, allowed: seq<Move>, h: int, ms: seq<Move>)
    requires |allowed| > 0
    ensures CanExit(s, allowed) <==> CanExit(s.(heuristic := h, moves := ms), allowed)
  {
  }

  /** In the push phase the exit test holds exactly when B holds all the chunk's values; in the
      pull phase exactly when B is empty. */
  lemma CanExitPhases(s: Stack)
    ensures CanExit(s, PushAllowed) <==> forall v :: v in s.chunk.values ==> v in s.b.items
    ensures CanExit(s, PullAllowed) <==> |s.b.items| == 0
  {
    PhaseLists();
  }

  /** The key the visited set records for a state: the content `hashCode` of the `Stack` the
      callers are written against, which combines the two buffers, the chunk, `prevChunkNum` and
      `heuristic` and leaves out the move history. Equal keys stand for equal hash codes;
      collisions between different keys are not modelled. */
  function VisitKey(s: Stack): (seq<Int32>, seq<Int32>, Chunk, Option<Int32>, int) {
    (s.a.items, s.b.items, s.chunk, s.prevChunkNum, s.heuristic)
  }

  /** Between states with the same buffer capacities, two share a key exactly when they differ at
      most in their move histories. */
  lemma VisitKeyContents(s: Stack, t: Stack)
    requires s.a.capacity == t.a.capacity && s.b.capacity == t.b.capacity
    ensures VisitKey(s) == VisitKey(t) <==> s.(moves := t.moves) == t
  {
  }

  /** The state the forced PA re-pushes holds one value fewer in B, so under the content key it
      is a new state when it is popped again. */
  lemma ForcedPullIsNew(s: Stack, allowed: seq<Move>, h: Stack -> int)
    requires |allowed| > 0 && BestStates.CanPull(s, allowed, h).Some? && |s.a.items| < s.a.capacity
    ensures VisitKey(BestStates.CanPull(s, allowed, h).value) != VisitKey(s)
  {
  }

  /** `hasVisited`: `visited.add(key)` reports whether the key was new; the result is whether it
      was already there, and the set afterwards holds it. */
  function HasVisited<K>(key: K, visited: set<K>): (r: (bool, set<K>))
    ensures r.0 <==> key in visited
    ensures key in r.1 && visited <= r.1 && |r.1 - visited| <= 1
  {
    (key in visited, visited + {key})
  }

  /** A key is reported as new exactly once: the second lookup of the same key says visited, and
      a lookup never forgets an earlier key. */
  lemma HasVisitedOnce<K>(key: K, other: K, visited: set<K>)
    ensures !HasVisited(key, visited).0 ==> key !in visited
    ensures HasVisited(key, HasVisited(key, visited).1).0
    ensures HasVisited(other, visited).0 ==> HasVisited(other, HasVisited(key, visited).1).0
  {
  }

  /** `canExit`'s side effect: the heuristic field is set to the heuristic of the state as it
      stands. */
  function Rescore(s: Stack, h: Stack -> int): Stack {
    s.(heuristic := h(s))
  }

  /** `inSortedOrder`: the chunk's values in A, read from the head, equal their sorted order. */
  predicate InSortedOrder(s: Stack) {
    var values := Filter(s.a.items, s.chunk);
    values == Sorting.Sort(values)
  }

  /** The sorted-order test is the ascending test on the chunk's values in A; a corollary of
      `Sorting.SortedIffAscending`. */
  lemma InSortedOrderIsAscending(s: Stack)
    ensures InSortedOrder(s) <==> Ascending(Filter(s.a.items, s.chunk))
  {
    SortedIffAscending(Filter(s.a.items, s.chunk));
  }

  /** Pushes each state in turn (`bestStates.forEach { openList.push(it) }`). */
  method PushAll(open: seq<Stack>, xs: seq<Stack>) returns (r: seq<Stack>)
    requires Heap.IsHeap(open)
    ensures Heap.IsHeap(r)
    ensures multiset(r) == multiset(open) + multiset(xs)
  {
    r := open;
    var i := 0;
    while i < |xs|
      invariant 0 <= i <= |xs|
      invariant Heap.IsHeap(r)
      invariant multiset(r) == multiset(open) + multiset(xs[..i])
    {
      assert xs[..i + 1] == xs[..i] + [xs[i]];
      r := Heap.Push(r, xs[i]);
      i := i + 1;
    }
    assert xs[..i] == xs;
  }

  /** When `whole` holds exactly the elements of `part` and `extra`, each element of one side is
      an element of the other. */
  lemma FromParts(whole: seq<Stack>, part: seq<Stack>, extra: seq<Stack>)
    requires multiset(whole) == multiset(part) + multiset(extra)
    ensures forall t :: t in whole ==> t in part || t in extra
    ensures forall t :: t in part ==> t in whole
    ensures forall t :: t in extra ==> t in whole
  {
    forall t | t in whole
      ensures t in part || t in extra
    {
      assert t in multiset(whole);
    }
    forall t | t in part
      ensures t in whole
    {
      assert t in multiset(part);
      assert t in multiset(whole);
    }
    forall t | t in extra
      ensures t in whole
    {
      assert t in multiset(extra);
      assert t in multiset(whole);
    }
  }

  /** `aStar`. The open list starts with `start` alone; each round pops the cheapest state,
      returns it (with its heuristic recomputed) when it passes the exit test, skips it when its
      stack contents were seen before, pushes the forced PA state when there is one, and otherwise
      pushes the successors. An exhausted open list is the source's `error`. The source loops
      without bound; here at most `fuel` states are popped. */
  method Search(start: Stack, allowed: seq<Move>, h: Stack -> int, fuel: nat) returns (r: Result<Stack>)
    requires |allowed| > 0
    requires CurrentCost(start) + fuel < INT_MAX
    ensures r.Ok? ==> CanExit(r.value, allowed) && Descends(start, r.value)
    ensures r.Ok? ==> exists c :: CanExit(c, allowed) && Descends(start, c) && r.value == Rescore(c, h)
    ensures r.Ok? ==> CurrentCost(r.value) <= CurrentCost(start) + fuel
    ensures r.Ok? && CanExit(start, allowed) ==> r.value == start.(heuristic := h(start))
  {
    ReachesRefl(start);
    var open := Heap.Push([], start);
    assert open[0] in multiset(open);
    var visited: set<(seq<Int32>, seq<Int32>, Chunk, Option<Int32>, int)> := {};
    var steps := 0;
    while steps < fuel && |open| > 0
      invariant steps <= fuel
      invariant Heap.IsHeap(open)
      invariant forall t :: t in open ==> Descends(start, t) && CurrentCost(t) <= CurrentCost(start) + steps
      invariant steps == 0 ==> open == [start]
      invariant steps > 0 ==> !CanExit(start, allowed)
    {
      var popped := Heap.Pop(open);
      var cur := popped.value.0;
      var rest := popped.value.1;
      FromParts(open, rest, [cur]);
      assert cur in [cur];
      open := rest;
      steps := steps + 1;
      if CanExit(cur, allowed) {
        var exit := Rescore(cur, h);
        return Ok(exit);
      }
      var seen;
      seen, visited := HasVisited(VisitKey(cur), visited).0, HasVisited(VisitKey(cur), visited).1;
      if seen {
        continue;
      }
      var pulled := BestStates.CanPull(cur, allowed, h);
      if pulled.Some? {
        ReachesTrans(start, cur, pulled.value);
        var next := Heap.Push(open, pulled.value);
        FromParts(next, open, [pulled.value]);
        open := next;
        continue;
      }
      var best := BestStates.GetBestStates(cur, allowed, h);
      if best.Err? {
        return Err(best.msg);
      }
      forall t | t in best.value
        ensures Descends(start, t)
      {
        ReachesTrans(start, cur, t);
      }
      var next := PushAll(open, best.value);
      FromParts(next, open, best.value);
      open := next;
    }
    if |open| == 0 {
      return Err("Failed to find a solution");
    }
    return Err("Search budget exhausted");
  }

  /** `sort`: a chunk whose values in A are already in order is left alone unless the chunk's
      maximum is A's maximum (`maxOrNull()!!` throws on an empty A); otherwise a push-phase search
      is followed, after recomputing the pull heuristic, by a pull-phase search. */
  method Sort(s: Stack, pullH: Stack -> int, fuel: nat) returns (r: Result<Stack>)
    requires CurrentCost(s) + 2 * fuel < INT_MAX
    ensures r.Ok? ==> Descends(s, r.value) && CurrentCost(r.value) <= CurrentCost(s) + 2 * fuel
    ensures r.Ok? ==> || (r.value == s && InSortedOrder(s))
                      || (|r.value.b.items| == 0 && exists c :: r.value == Rescore(c, pullH))
    ensures InSortedOrder(s) && |s.a.items| == 0 ==> r.Err?
    ensures InSortedOrder(s) && |s.a.items| > 0 && s.chunk.maxValue != Buffers.MaxOf(s.a.items) ==> r == Ok(s)
  {
    if InSortedOrder(s) {
      if |s.a.items| == 0 {
        return Err("maxOrNull of an empty buffer");
      }
      if s.chunk.maxValue != Buffers.MaxOf(s.a.items) {
        return Ok(s);
      }
    }
    PhaseLists();
    var pushed := Search(s, PushAllowed, PushHeuristic.Calculate, fuel);
    if pushed.Err? {
      return Err(pushed.msg);
    }
    var mid := pushed.value.(heuristic := pullH(pushed.value));
    var pulled := Search(mid, PullAllowed, pullH, fuel);
    if pulled.Err? {
      return Err(pulled.msg);
    }
    ReachesTrans(s, mid, pulled.value);
    CanExitPhases(pulled.value);
    return Ok(pulled.value);
  }
}

=== FILE: best_states.dfy ===
/** `BestStates`: successor generation for the search — the cheap rejection tests, applying a move
    to a copy of the state, the forced PA of the pull phase, and keeping the cheapest successors. */
module BestStates {
  import opened Wrappers
  import opened Ints
  import opened Moves
  import opened Chunks
  import opened Machine
  import Buffers

  /** `invalidFast`. The SS test reads `a[1]` once `a[0]` passes, which throws on a one-element
      A; that exception is the `Err` result. */
  function InvalidFast(s: Stack, m: Move): (r: Result<bool>)
    ensures |s.moves| > 0 && s.moves[|s.moves| - 1] == Inverse(m) ==> r == Ok(true)
    ensures m == PB && (|s.a.items| == 0 || !Contains(s.chunk, s.a.items[0])) ==> r == Ok(true)
    ensures m == SS && s.prevChunkNum.Some? && |s.a.items| > 0 && s.a.items[0] <= s.prevChunkNum.value
            ==> r == Ok(true)
    ensures m == SS && s.prevChunkNum.Some? && |s.a.items| > 1 && s.a.items[1] <= s.prevChunkNum.value
            ==> r == Ok(true)
    ensures r.Err? <==>
      && !(|s.moves| > 0 && s.moves[|s.moves| - 1] == Inverse(m))
      && m == SS && s.prevChunkNum.Some? && |s.a.items| == 1 && s.a.items[0] > s.prevChunkNum.value
    ensures r == Ok(true) && !(|s.moves| > 0 && s.moves[|s.moves| - 1] == Inverse(m)) ==> m == SS || m == PB
  {
    var a := s.a.items;
    if |s.moves| > 0 && s.moves[|s.moves| - 1] == Inverse(m) then Ok(true)
    else if m == SS && s.prevChunkNum.Some? && |a| > 0 then
      var prev := s.prevChunkNum.value;
      if a[0] <= prev then Ok(true)
      else if |a| < 2 then Err("Index 1 out of bounds")
      else Ok(a[1] <= prev)
    else if m == PB && (|a| == 0 || !Contains(s.chunk, a[0])) then Ok(true)
    else Ok(false)
  }

  /** `applyMoveIfValid`: `Ok(None)` is the source's `null`. The original state is a value and
      cannot be changed. */
  function ApplyMoveIfValid(s: Stack, m: Move, h: Stack -> int): (r: Result<Option<Stack>>)
    ensures r.Err? <==> InvalidFast(s, m).Err?
    ensures InvalidFast(s, m) == Ok(true) ==> r == Ok(None)
    ensures InvalidFast(s, m) == Ok(false) && !Step(s.a, s.b, m).0 ==> r == Ok(None)
    ensures r.Ok? && r.value.Some? ==> var t := r.value.value;
      && InvalidFast(s, m) == Ok(false)
      && Step(s.a, s.b, m) == (true, t.a, t.b)
      && t.moves == s.moves + [m]
      && t.chunk == s.chunk && t.prevChunkNum == s.prevChunkNum
      && t.heuristic == h(t.(heuristic := s.heuristic)) && t.heuristic >= 0
      && !(m == SS && |t.a.items| > 3 && t.a.items[0] > t.a.items[1])
      && Reaches(s, t)
    ensures
      var (ok, t) := Apply(s, m);
      InvalidFast(s, m) == Ok(false) && ok
      && !(m == SS && |t.a.items| > 3 && t.a.items[0] > t.a.items[1])
      && h(t) >= 0
      ==> r == Ok(Some(t.(heuristic := h(t))))
  {
    match InvalidFast(s, m)
    case Err(e) => Err(e)
    case Ok(invalid) =>
      if invalid then Ok(None)
      else
        var (ok, t) := Apply(s, m);
        if !ok then Ok(None)
        else if m == SS && |t.a.items| > 3 && t.a.items[0] > t.a.items[1] then Ok(None)
        else
          var scored := t.(heuristic := h(t));
          ReachesRefl(s);
          ReachesApply(s, s, m);
          if scored.heuristic < 0 then Ok(None) else Ok(Some(scored))
  }

  /** `canPull`: in the pull phase, when B's head is B's maximum and A ends with the previous
      chunk's boundary value (or A is empty, or there is no previous chunk), PA is forced; the
      state after PA, with its heuristic recomputed, is what the caller pushes onto the open list. */
  function CanPull(s: Stack, allowed: seq<Move>, h: Stack -> int): (r: Option<Stack>)
    requires |allowed| > 0
    ensures r.Some? <==>
      && IsPull(allowed)
      && |s.b.items| > 0
      && (forall k :: 0 <= k < |s.b.items| ==> s.b.items[k] <= s.b.items[0])
      && (|s.a.items| > 0 && s.prevChunkNum.Some? ==> s.a.items[|s.a.items| - 1] == s.prevChunkNum.value)
    ensures r.Some? ==> Reaches(s, r.value) && r.value.heuristic == h(Apply(s, PA).1)
    ensures r.Some? ==> CurrentCost(r.value) <= CurrentCost(s) + 1
                        && r.value.chunk == s.chunk && r.value.prevChunkNum == s.prevChunkNum
    ensures r.Some? && |s.a.items| < s.a.capacity ==>
      && r.value.a.items == [s.b.items[0]] + s.a.items
      && r.value.b.items == s.b.items[1..]
      && r.value.moves == s.moves + [PA]
  {
    var a := s.a.items;
    var b := s.b.items;
    if !IsPull(allowed) || |b| == 0 || b[0] != Buffers.MaxOf(b)
       || (|a| > 0 && s.prevChunkNum.Some? && a[|a| - 1] != s.prevChunkNum.value)
    then None
    else
      var t := Apply(s, PA).1;
      ReachesRefl(s);
      ReachesApply(s, s, PA);
      Some(t.(heuristic := h(t)))
  }

  /** The least `currentCost` among the states. */
  function MinCost(states: seq<Stack>): (m: nat)
    requires |states| > 0
    ensures forall k :: 0 <= k < |states| ==> m <= CurrentCost(states[k])
    ensures exists k :: 0 <= k < |states| && m == CurrentCost(states[k])
    decreases |states|
  {
    if |states| == 1 then CurrentCost(states[0])
    else
      var rest := MinCost(states[..|states| - 1]);
      var last := CurrentCost(states[|states| - 1]);
      if last < rest then last else rest
  }

  /** The states whose cost is `c`, in their original order. */
  function WithCost(states: seq<Stack>, c: int): seq<Stack>
    decreases |states|
  {
    if |states| == 0 then []
    else
      var init := states[..|states| - 1];
      var last := states[|states| - 1];
      WithCost(init, c) + (if CurrentCost(last) == c then [last] else [])
  }

  /** The filter keeps exactly the states of cost `c`: each kept state is an input of that cost,
      each input of that cost is kept, and when all inputs have that cost nothing is dropped. */
  lemma {:induction false} WithCostSpec(states: seq<Stack>, c: int)
    ensures forall t :: t in WithCost(states, c) ==> t in states && CurrentCost(t) == c
    ensures forall k :: 0 <= k < |states| && CurrentCost(states[k]) == c ==> states[k] in WithCost(states, c)
    ensures (forall k :: 0 <= k < |states| ==> CurrentCost(states[k]) == c) ==> WithCost(states, c) == states
    decreases |states|
  {
    if |states| > 0 {
      var init := states[..|states| - 1];
      var last := states[|states| - 1];
      assert states == init + [last];
      WithCostSpec(init, c);
      forall k | 0 <= k < |states| && CurrentCost(states[k]) == c
        ensures states[k] in WithCost(states, c)
      {
        if k < |init| {
          assert states[k] == init[k];
        }
      }
    }
  }

  /** The reference for `findBestStates`: all states of least cost, in order. */
  function BestOf(states: seq<Stack>): seq<Stack> {
    if |states| == 0 then [] else WithCost(states, MinCost(states))
  }

  lemma NoneWithCost(states: seq<Stack>, c: int)
    requires forall k :: 0 <= k < |states| ==> CurrentCost(states[k]) > c
    ensures WithCost(states, c) == []
  {
    WithCostSpec(states, c);
  }

  lemma Snoc(states: seq<Stack>, i: nat, c: int)
    requires 0 < i < |states|
    ensures MinCost(states[..i + 1]) == Min(MinCost(states[..i]), CurrentCost(states[i]))
    ensures WithCost(states[..i + 1], c)
         == WithCost(states[..i], c) + (if CurrentCost(states[i]) == c then [states[i]] else [])
  {
    assert states[..i + 1][..i] == states[..i];
  }

  lemma First(states: seq<Stack>)
    requires 0 < |states|
    ensures MinCost(states[..1]) == CurrentCost(states[0])
    ensures WithCost(states[..1], CurrentCost(states[0])) == [states[0]]
  {
    assert states[..1] == [states[0]];
    assert states[..1][..0] == [];
  }

  /** Some state always has the least cost. */
  lemma BestOfNonEmpty(states: seq<Stack>)
    ensures |states| > 0 ==> |BestOf(states)| > 0
  {
    if |states| > 0 {
      var k :| 0 <= k < |states| && CurrentCost(states[k]) == MinCost(states);
      WithCostSpec(states, MinCost(states));
      assert states[k] in BestOf(states);
    }
  }

  /** One round of `findBestStates`: the running minimum and the states kept so far, extended by
      the next state, are the minimum and the kept states of the longer prefix. */
  lemma FindStep(states: seq<Stack>, i: nat, minScore: int, result: seq<Stack>)
    requires i < |states| && CurrentCost(states[i]) <= INT_MAX
    requires i == 0 ==> minScore == INT_MAX && result == []
    requires i > 0 ==> minScore == MinCost(states[..i]) && result == WithCost(states[..i], minScore)
    ensures var c := CurrentCost(states[i]);
            var m := if c < minScore then c else minScore;
            && m == MinCost(states[..i + 1])
            && WithCost(states[..i + 1], m)
               == if c < minScore then [states[i]] else if c == minScore then result + [states[i]] else result
  {
    var c := CurrentCost(states[i]);
    if i == 0 {
      First(states);
    } else {
      Snoc(states, i, c);
      Snoc(states, i, minScore);
      if c < minScore {
        NoneWithCost(states[..i], c);
      }
    }
  }

  /** `findBestStates`: a single pass with an `Int.MAX_VALUE` start, restarting the result list at
      each strictly smaller cost. Costs are JVM `Int`s. */
  method FindBestStates(states: seq<Stack>) returns (result: seq<Stack>)
    requires forall k :: 0 <= k < |states| ==> CurrentCost(states[k]) <= INT_MAX
    ensures result == BestOf(states)
    ensures |states| > 0 ==> |result| > 0
  {
    var minScore := INT_MAX;
    result := [];
    var i := 0;
    while i < |states|
      invariant 0 <= i <= |states|
      invariant i == 0 ==> minScore == INT_MAX && result == []
      invariant i > 0 ==> minScore == MinCost(states[..i]) && result == WithCost(states[..i], minScore)
    {
      var s := states[i];
      var cost := CurrentCost(s);
      FindStep(states, i, minScore, result);
      if cost < minScore {
        minScore := cost;
        result := [s];
      } else if cost == minScore {
        result := result + [s];
      }
      i := i + 1;
    }
    assert states[..|states|] == states;
    BestOfNonEmpty(states);
  }

  /** Every successor costs one more move than its parent, so the filter keeps them all. */
  lemma BestOfEqualCosts(states: seq<Stack>, c: nat)
    requires forall k :: 0 <= k < |states| ==> CurrentCost(states[k]) == c
    ensures BestOf(states) == states
  {
    if |states| > 0 {
      WithCostSpec(states, c);
    }
  }

  /** The successors of `s`, one per allowed move that passes `applyMoveIfValid`, in the order of
      the allowed list; the first exception ends the loop. */
  function Successors(s: Stack, allowed: seq<Move>, h: Stack -> int): (r: Result<seq<Stack>>)
    ensures r.Ok? ==> forall t :: t in r.value ==> Reaches(s, t) && CurrentCost(t) == CurrentCost(s) + 1
    ensures r.Ok? ==> forall t :: t in r.value ==> t.chunk == s.chunk && t.prevChunkNum == s.prevChunkNum
    ensures r.Ok? ==> |r.value| <= |allowed|
    ensures r.Err? <==> exists k :: 0 <= k < |allowed| && InvalidFast(s, allowed[k]).Err?
    decreases |allowed|
  {
    if |allowed| == 0 then Ok([])
    else
      var init := allowed[..|allowed| - 1];
      var m := allowed[|allowed| - 1];
      assert forall k :: 0 <= k < |init| ==> init[k] == allowed[k];
      match Successors(s, init, h)
      case Err(e) => Err(e)
      case Ok(xs) =>
        match ApplyMoveIfValid(s, m, h)
        case Err(e) => Err(e)
        case Ok(None) => Ok(xs)
        case Ok(Some(t)) => Ok(xs + [t])
  }

  /** Every move `applyMoveIfValid` accepts contributes its state: nothing accepted is dropped. */
  lemma {:induction false} SuccessorsComplete(s: Stack, allowed: seq<Move>, h: Stack -> int, k: nat)
    requires k < |allowed| && Successors(s, allowed, h).Ok?
    requires ApplyMoveIfValid(s, allowed[k], h).Ok? && ApplyMoveIfValid(s, allowed[k], h).value.Some?
    ensures ApplyMoveIfValid(s, allowed[k], h).value.value in Successors(s, allowed, h).value
    decreases |allowed|
  {
    var init := allowed[..|allowed| - 1];
    if k < |allowed| - 1 {
      assert init[k] == allowed[k];
      SuccessorsComplete(s, init, h, k);
    }
  }

  /** One more allowed move extends the successors by that move's outcome. */
  lemma SuccessorsStep(s: Stack, allowed: seq<Move>, i: nat, h: Stack -> int)
    requires i < |allowed| && Successors(s, allowed[..i], h).Ok?
    ensures var xs := Successors(s, allowed[..i], h).value;
            Successors(s, allowed[..i + 1], h) ==
              match ApplyMoveIfValid(s, allowed[i], h)
              case Err(e) => Err(e)
              case Ok(None) => Ok(xs)
              case Ok(Some(t)) => Ok(xs + [t])
  {
    assert allowed[..i + 1][..i] == allowed[..i];
  }

  /** An exception on a prefix of the allowed moves is an exception on the whole list. */
  lemma PrefixError(s: Stack, allowed: seq<Move>, i: nat, h: Stack -> int)
    requires i <= |allowed| && Successors(s, allowed[..i], h).Err?
    ensures exists k :: 0 <= k < |allowed| && InvalidFast(s, allowed[k]).Err?
  {
    var k :| 0 <= k < i && InvalidFast(s, allowed[..i][k]).Err?;
    assert allowed[..i][k] == allowed[k];
  }

  /** `getBestStates`. */
  method GetBestStates(s: Stack, allowed: seq<Move>, h: Stack -> int) returns (r: Result<seq<Stack>>)
    requires CurrentCost(s) < INT_MAX
    ensures r.Err? <==> exists k :: 0 <= k < |allowed| && InvalidFast(s, allowed[k]).Err?
    ensures r.Ok? ==> r == Successors(s, allowed, h)
    ensures r.Ok? ==> forall t :: t in r.value ==> Reaches(s, t) && CurrentCost(t) == CurrentCost(s) + 1
    ensures r.Ok? ==> forall t :: t in r.value ==> t.chunk == s.chunk && t.prevChunkNum == s.prevChunkNum
  {
    var possible: seq<Stack> := [];
    var i := 0;
    while i < |allowed|
      invariant 0 <= i <= |allowed|
      invariant Successors(s, allowed[..i], h) == Ok(possible)
    {
      SuccessorsStep(s, allowed, i, h);
      var next := ApplyMoveIfValid(s, allowed[i], h);
      if next.Err? {
        PrefixError(s, allowed, i + 1, h);
        return Err(next.msg);
      }
      if next.value.Some? {
        possible := possible + [next.value.value];
      }
      i := i + 1;
    }
    assert allowed[..|allowed|] == allowed;
    forall k | 0 <= k < |possible|
      ensures CurrentCost(possible[k]) == CurrentCost(s) + 1
    {
      assert possible[k] in possible;
    }
    var best := FindBestStates(possible);
    BestOfEqualCosts(possible, CurrentCost(s) + 1);
    r := Ok(best);
  }
}

=== FILE: buffers.dfy ===
/** The logical content of a `CircularBuffer`: a capacity and the elements from head to tail.
    Every operation reports success the way the source's `Boolean` results do and leaves the
    buffer untouched when it fails. The ring representation is in module Ring, which is proved
    to implement these operations. */
module Buffers {
  import opened Wrappers
  import opened Ints

  datatype Buffer = Buffer(capacity: nat, items: seq<Int32>)

  /** The class invariant: never more elements than slots. */
  predicate Valid(b: Buffer) { |b.items| <= b.capacity }

  function Size(b: Buffer): nat { |b.items| }
  predicate IsEmpty(b: Buffer) { |b.items| == 0 }
  predicate IsFull(b: Buffer) { |b.items| == b.capacity }

  function Empty(capacity: nat): (r: Buffer)
    ensures Valid(r) && IsEmpty(r) && r.capacity == capacity
  {
    Buffer(capacity, [])
  }

  /** The constructor: a list longer than the capacity is rejected (`require` throws), otherwise
      the buffer holds the list. */
  function FromList(capacity: nat, list: seq<Int32>): (r: Option<Buffer>)
    ensures r.None? <==> |list| > capacity
    ensures r.Some? ==> Valid(r.value) && r.value.capacity == capacity && r.value.items == list
  {
    if |list| > 0 && |list| > capacity then None else Some(Buffer(capacity, list))
  }

  /** `enqueue`: appends at the logical tail unless full. */
  function Enqueue(b: Buffer, v: Int32): (r: (bool, Buffer))
    ensures r.0 <==> !IsFull(b)
    ensures r.0 ==> r.1 == Buffer(b.capacity, b.items + [v])
    ensures !r.0 ==> r.1 == b
  {
    if IsFull(b) then (false, b) else (true, Buffer(b.capacity, b.items + [v]))
  }

  /** `dequeue`: removes the logical head, `null` when empty. */
  function Dequeue(b: Buffer): (r: Option<(Int32, Buffer)>)
    ensures r.None? <==> IsEmpty(b)
    ensures r.Some? ==> [r.value.0] + r.value.1.items == b.items && r.value.1.capacity == b.capacity
  {
    if IsEmpty(b) then None else Some((b.items[0], Buffer(b.capacity, b.items[1..])))
  }

  /** `swap`: fails below two elements; otherwise positions 0 and 1 trade places and the rest
      stays put. */
  function Swap(b: Buffer): (r: (bool, Buffer))
    ensures r.0 <==> |b.items| >= 2
    ensures r.1.capacity == b.capacity && |r.1.items| == |b.items|
    ensures r.0 ==> r.1.items[0] == b.items[1] && r.1.items[1] == b.items[0]
                    && r.1.items[2..] == b.items[2..]
    ensures !r.0 ==> r.1 == b
  {
    if |b.items| < 2 then (false, b)
    else (true, Buffer(b.capacity, [b.items[1], b.items[0]] + b.items[2..]))
  }

  /** `rotate`: fails at one element or fewer; otherwise the head moves to the tail. */
  function Rotate(b: Buffer): (r: (bool, Buffer))
    ensures r.0 <==> |b.items| > 1
    ensures r.0 ==> r.1 == Buffer(b.capacity, b.items[1..] + [b.items[0]])
    ensures !r.0 ==> r.1 == b
  {
    if |b.items| <= 1 then (false, b)
    else (true, Buffer(b.capacity, b.items[1..] + [b.items[0]]))
  }

  /** `reverseRotate`: fails at one element or fewer; otherwise the tail moves to the head. */
  function ReverseRotate(b: Buffer): (r: (bool, Buffer))
    ensures r.0 <==> |b.items| > 1
    ensures r.0 ==> r.1 == Buffer(b.capacity, [b.items[|b.items| - 1]] + b.items[..|b.items| - 1])
    ensures !r.0 ==> r.1 == b
  {
    if |b.items| <= 1 then (false, b)
    else (true, Buffer(b.capacity, [b.items[|b.items| - 1]] + b.items[..|b.items| - 1]))
  }

  /** `src.push(dest)`: fails when the source is empty or the destination full; otherwise the
      source's head becomes the destination's head. */
  function Push(src: Buffer, dst: Buffer): (r: (bool, Buffer, Buffer))
    ensures r.0 <==> !IsEmpty(src) && !IsFull(dst)
    ensures r.0 ==> r.1 == Buffer(src.capacity, src.items[1..])
                    && r.2 == Buffer(dst.capacity, [src.items[0]] + dst.items)
    ensures !r.0 ==> r.1 == src && r.2 == dst
  {
    if IsEmpty(src) || IsFull(dst) then (false, src, dst)
    else (true, Buffer(src.capacity, src.items[1..]), Buffer(dst.capacity, [src.items[0]] + dst.items))
  }

  /** `get(i)`: `require(i in 0 until size)`, so an index outside the content is an error. */
  function Get(b: Buffer, i: int): (r: Option<Int32>)
    ensures r.Some? <==> 0 <= i < |b.items|
    ensures r.Some? ==> r.value == b.items[i]
  {
    if 0 <= i < |b.items| then Some(b.items[i]) else None
  }

  /** `indexOf(x)`: the first position of `x`, or -1. */
  function IndexOf(s: seq<Int32>, x: int): (r: int)
    ensures -1 <= r < |s|
    ensures r == -1 <==> x !in s
    ensures r >= 0 ==> s[r] == x && x !in s[..r]
  {
    if |s| == 0 then -1
    else if s[0] == x then 0
    else
      var k := IndexOf(s[1..], x);
      assert s == [s[0]] + s[1..];
      if k == -1 then -1
      else
        assert s[..k + 1] == [s[0]] + s[1..][..k];
        k + 1
  }

  /** `maxOrNull()!!` on a non-empty content. */
  function MaxOf(s: seq<Int32>): (r: Int32)
    requires |s| > 0
    ensures r in s
    ensures forall k :: 0 <= k < |s| ==> s[k] <= r
  {
    if |s| == 1 then s[0]
    else
      var m := MaxOf(s[1..]);
      assert s == [s[0]] + s[1..];
      if s[0] >= m then s[0] else m
  }

  /** One step of `hashCode`: `31 * result + value` in `Int` arithmetic. */
  function HashStep(acc: Int32, x: Int32): Int32 {
    Wrap32(Wrap32(31 * acc) + x)
  }

  function HashFrom(acc: Int32, s: seq<Int32>): Int32
    decreases |s|
  {
    if |s| == 0 then acc else HashFrom(HashStep(acc, s[0]), s[1..])
  }

  /** `hashCode`: seeded with the size, folded over the content from the head. */
  function Hash(s: seq<Int32>): Int32 {
    HashFrom(Wrap32(|s|), s)
  }

  // ---------------------------------------------------------------- laws

  /** Every operation keeps the capacity bound. */
  lemma OperationsKeepValid(b: Buffer, other: Buffer, v: Int32)
    requires Valid(b) && Valid(other)
    ensures Valid(Enqueue(b, v).1) && Valid(Swap(b).1) && Valid(Rotate(b).1)
    ensures Valid(ReverseRotate(b).1)
    ensures Dequeue(b).Some? ==> Valid(Dequeue(b).value.1)
    ensures Valid(Push(b, other).1) && Valid(Push(b, other).2)
  {
  }

  /** Swapping twice restores the buffer. */
  lemma {:induction false} SwapInvolution(b: Buffer)
    ensures Swap(Swap(b).1).1 == b
  {
    if |b.items| >= 2 {
      var s := Swap(b).1;
      assert Swap(s).1.items == b.items by {
        assert [b.items[0], b.items[1]] + b.items[2..] == b.items;
      }
    }
  }

  /** `reverseRotate` undoes `rotate` and the other way round. */
  lemma RotateInverse(b: Buffer)
    ensures ReverseRotate(Rotate(b).1).1 == b
    ensures Rotate(ReverseRotate(b).1).1 == b
  {
    if |b.items| > 1 {
      var n := |b.items|;
      assert [b.items[0]] + b.items[1..] == b.items;
      assert b.items[..n - 1] + [b.items[n - 1]] == b.items;
    }
  }

  /** Pushing from `x` to `y` and back restores both buffers. */
  lemma PushInverse(x: Buffer, y: Buffer)
    requires Valid(x) && Push(x, y).0
    ensures var (_, x', y') := Push(x, y);
            Push(y', x').0 && Push(y', x').1 == y && Push(y', x').2 == x
  {
    assert [x.items[0]] + x.items[1..] == x.items;
  }

  /** A push keeps the combined multiset of the two buffers and moves one element. */
  lemma PushConserves(x: Buffer, y: Buffer)
    ensures var (ok, x', y') := Push(x, y);
            multiset(x'.items) + multiset(y'.items) == multiset(x.items) + multiset(y.items)
            && (ok ==> |x'.items| == |x.items| - 1 && |y'.items| == |y.items| + 1)
  {
    if Push(x, y).0 {
      assert x.items == [x.items[0]] + x.items[1..];
    }
  }

  /** A swap permutes the buffer's content. */
  lemma SwapPermutes(b: Buffer)
    ensures multiset(Swap(b).1.items) == multiset(b.items)
  {
    var s := b.items;
    if |s| >= 2 {
      assert Swap(b).1.items == [s[1]] + [s[0]] + s[2..];
      assert s == [s[0]] + [s[1]] + s[2..];
    }
  }

  /** A rotation in either direction permutes the buffer's content. */
  lemma RotatePermutes(b: Buffer)
    ensures multiset(Rotate(b).1.items) == multiset(b.items)
    ensures multiset(ReverseRotate(b).1.items) == multiset(b.items)
  {
    var s := b.items;
    if |s| >= 2 {
      assert s == [s[0]] + s[1..];
      assert s == s[..|s| - 1] + [s[|s| - 1]];
    }
  }
}

=== FILE: checker.dfy ===
/** The reference checker used by the tests (`Checker`): it replays a move list on a fresh pair of
    buffers and compares the result with the expected list. Its verdict is three-valued: OK, KO,
    or Error for malformed input; one malformed case raises an exception instead. */
module Checker {
  import opened Wrappers
  import opened Ints
  import opened Sorting
  import opened Moves
  import opened Machine
  import Buffers

  /** An entry of the move list: one of the eleven moves, or a value the checker has no
      operation for (the tests' `Move.DONOTUSEONLYFORTESTING`). */
  datatype Instruction = Known(move: Move) | Unknown

  /** `checker()`'s result: `true`, `false` or `null`. */
  datatype Verdict = Pass | Fail | Invalid

  /** The operations of `opsMap`. They match `Stack.apply` except for RR and RRR, which run
      `rotateBoth` / `reverseRotateBoth`: the B side only runs, and the move only succeeds, when
      the A side succeeded. */
  function Exec(a: Buffer, b: Buffer, m: Move): (r: (bool, Buffer, Buffer))
    ensures m != RR && m != RRR ==> r == Step(a, b, m)
    ensures m == RR ==> (r.0 <==> |a.items| > 1 && |b.items| > 1)
    ensures m == RRR ==> (r.0 <==> |a.items| > 1 && |b.items| > 1)
  {
    match m
    case RR =>
      if Buffers.Rotate(a).0 then (Buffers.Rotate(b).0, Buffers.Rotate(a).1, Buffers.Rotate(b).1)
      else (false, a, b)
    case RRR =>
      if Buffers.ReverseRotate(a).0 then (Buffers.ReverseRotate(b).0, Buffers.ReverseRotate(a).1, Buffers.ReverseRotate(b).1)
      else (false, a, b)
    case _ => Step(a, b, m)
  }

  /** The `moves.forEach` loop: runs each operation and stops at the first that reports failure. */
  function Replay(a: Buffer, b: Buffer, moves: seq<Move>): Option<(Buffer, Buffer)>
    decreases |moves|
  {
    if |moves| == 0 then Some((a, b))
    else
      var (ok, a', b') := Exec(a, b, moves[0]);
      if !ok then None else Replay(a', b', moves[1..])
  }

  /** The move list without its wrappers, when every entry is a known move. */
  function KnownMoves(moves: seq<Instruction>): (r: Option<seq<Move>>)
    ensures r.Some? <==> forall k :: 0 <= k < |moves| ==> moves[k].Known?
    ensures r.Some? ==> |r.value| == |moves| && forall k :: 0 <= k < |moves| ==> r.value[k] == moves[k].move
    decreases |moves|
  {
    if |moves| == 0 then Some([])
    else if moves[0].Unknown? then None
    else match KnownMoves(moves[1..])
      case None => None
      case Some(rest) => Some([moves[0].move] + rest)
  }

  /** Wraps a move list for the checker. */
  function Wrap(moves: seq<Move>): (r: seq<Instruction>)
    ensures |r| == |moves| && forall k :: 0 <= k < |moves| ==> r[k] == Known(moves[k])
  {
    seq(|moves|, k requires 0 <= k < |moves| => Known(moves[k]))
  }

  /** `checker()`. An unknown move or a repeated value in either list is `null`; with no moves a
      sorted (or empty) input passes, while an unsorted input whose expected list is not sorted
      either raises `error` (`Err`). The source's test `s == s.sorted()` is written `Ascending(s)`,
      its equivalent by `Sorting.SortedIffAscending`. Otherwise the moves are replayed on A holding the input and
      an empty B, both of the input's capacity: a failing move or a non-empty B is `false`, and
      the verdict is whether A equals the expected list. */
  function Check(moves: seq<Instruction>, numList: seq<Int32>, expected: seq<Int32>): (r: Result<Verdict>)
    ensures KnownMoves(moves).None? ==> r == Ok(Invalid)
    ensures !Distinct(numList) || !Distinct(expected) ==> r == Ok(Invalid)
    ensures r.Err? ==> |moves| == 0 && !Ascending(numList) && !Ascending(expected)
  {
    match KnownMoves(moves)
    case None => Ok(Invalid)
    case Some(ms) =>
      if !Distinct(numList) || !Distinct(expected) then Ok(Invalid)
      else if |ms| == 0 && (|numList| == 0 || Ascending(numList)) then Ok(Pass)
      else if |ms| == 0 && !Ascending(expected) then Err("This permutation is never possible.")
      else
        var n := |numList|;
        match Replay(Buffers.Buffer(n, numList), Buffers.Buffer(n, []), ms)
        case None => Ok(Fail)
        case Some((a, b)) =>
          if |b.items| > 0 then Ok(Fail)
          else Ok(if a.items == expected then Pass else Fail)
  }

  /** `output()`: the line the checker prints for each verdict. */
  function Output(r: Verdict): (s: string)
    ensures s == "OK" <==> r == Pass
    ensures s == "KO" <==> r == Fail
    ensures s == "Error" <==> r == Invalid
  {
    match r
    case Pass => "OK"
    case Fail => "KO"
    case Invalid => "Error"
  }

  /** `boolOutput()`: `null` counts as a failure. */
  function BoolOutput(r: Verdict): (ok: bool)
    ensures ok <==> r == Pass
  {
    r == Pass
  }

  /** With at least one move, on well-formed input, the checker passes exactly when every move
      succeeds, B ends empty and A ends equal to the expected list. */
  lemma PassMeans(moves: seq<Move>, numList: seq<Int32>, expected: seq<Int32>)
    requires |moves| > 0 && Distinct(numList) && Distinct(expected)
    ensures var n := |numList|;
            var end := Replay(Buffers.Buffer(n, numList), Buffers.Buffer(n, []), moves);
            Check(Wrap(moves), numList, expected) == Ok(Pass)
            <==> end.Some? && end.value.1.items == [] && end.value.0.items == expected
  {
    assert KnownMoves(Wrap(moves)) == Some(moves) by {
      KnownWrap(moves);
    }
  }

  /** Unwrapping a wrapped list gives it back. */
  lemma {:induction false} KnownWrap(moves: seq<Move>)
    ensures KnownMoves(Wrap(moves)) == Some(moves)
    decreases |moves|
  {
    if |moves| > 0 {
      KnownWrap(moves[1..]);
      assert Wrap(moves)[1..] == Wrap(moves[1..]);
      assert [moves[0]] + moves[1..] == moves;
    }
  }

  /** Away from RR and RRR the checker replays exactly as the engine does. */
  lemma {:induction false} ReplayAgrees(a: Buffer, b: Buffer, moves: seq<Move>)
    requires forall k :: 0 <= k < |moves| ==> moves[k] != RR && moves[k] != RRR
    ensures Replay(a, b, moves) == Run(a, b, moves)
    decreases |moves|
  {
    if |moves| > 0 {
      var (ok, a', b') := Step(a, b, moves[0]);
      if ok {
        ReplayAgrees(a', b', moves[1..]);
      }
    }
  }

  /** Whatever the checker accepts, the engine's replay accepts too, ending in the same buffers:
      the checker is the stricter of the two. */
  lemma {:induction false} ReplayRefines(a: Buffer, b: Buffer, moves: seq<Move>)
    requires Replay(a, b, moves).Some?
    ensures Run(a, b, moves) == Replay(a, b, moves)
    decreases |moves|
  {
    if |moves| > 0 {
      var (ok, a', b') := Exec(a, b, moves[0]);
      assert Step(a, b, moves[0]) == (ok, a', b');
      ReplayRefines(a', b', moves[1..]);
    }
  }

  /** The two differ on RR (and likewise RRR) with at most one value on A and two on B: the engine
      rotates B and records the move, since its status is B's alone, while the checker fails. */
  lemma RotateBothDiverges()
    ensures var a, b := Buffers.Buffer(3, [1]), Buffers.Buffer(3, [2, 3]);
            && Run(a, b, [RR]) == Some((a, Buffers.Buffer(3, [3, 2])))
            && Replay(a, b, [RR]) == None
  {
    var a, b := Buffers.Buffer(3, [1]), Buffers.Buffer(3, [2, 3]);
    RunSingle(a, b, RR);
    assert [RR][1..] == [];
    assert b.items[1..] + [b.items[0]] == [3, 2];
  }

  /** One step of the checker's replay. */
  lemma ReplayHead(a: Buffer, b: Buffer, m: Move, rest: seq<Move>)
    ensures Replay(a, b, [m] + rest) ==
            if Exec(a, b, m).0 then Replay(Exec(a, b, m).1, Exec(a, b, m).2, rest) else None
  {
    assert ([m] + rest)[1..] == rest;
  }

  /** Entries the checker has no operation for, and repeated values, are `Error`. */
  lemma RejectsMalformed()
    ensures Check([Unknown], [3, 2, 1], [3, 2, 1]) == Ok(Invalid)
    ensures Check([], [2, 2, 3, 4], [2, 2, 3, 4]) == Ok(Invalid)
    ensures Check([Known(PA)], [1, 1, 2, 3], [1, 1, 2, 3]) == Ok(Invalid)
  {
    var d: seq<Int32> := [2, 2, 3, 4];
    assert d[0] == d[1];
    var e: seq<Int32> := [1, 1, 2, 3];
    assert e[0] == e[1];
  }

  /** An unsorted input with no moves is `KO`. */
  lemma NoMovesUnsorted()
    ensures Check([], [-2, -3, -1], [-3, -2, -1]) == Ok(Fail)
  {
    var x: seq<Int32> := [-2, -3, -1];
    assert x[0] > x[1];
    var y: seq<Int32> := [-3, -2, -1];
    AscendingThreeValues(-3, -2, -1);
  }

  lemma AscendingThreeValues(p: Int32, q: Int32, r: Int32)
    requires p <= q <= r
    ensures Ascending([p, q, r])
  {
  }

  /** The illegal-permutation test: no moves, an unsorted input and an unsorted expected list
      raise the error. */
  lemma IllegalPermutation()
    ensures Check([], [2, 1, 3], [2, 1, 3]).Err?
  {
    var x: seq<Int32> := [2, 1, 3];
    assert x[0] > x[1];
  }

  /** A sorted input with no moves is `OK`. */
  lemma NoMovesSorted()
    ensures Check([], [2, 3, 4], [2, 3, 4]) == Ok(Pass)
  {
    AscendingThreeValues(2, 3, 4);
  }

  /** A PA on an empty B fails, and so does a swap that does not reach the expected list. */
  lemma FailingReplays()
    ensures Check([Known(PA)], [1, 2, 3], [1, 2, 3]) == Ok(Fail)
    ensures Check([Known(SA)], [-3, -2, -1], [-3, -2, -1]) == Ok(Fail)
  {
    var a, b := Buffers.Buffer(3, [1, 2, 3]), Buffers.Buffer(3, []);
    ReplayHead(a, b, PA, []);
    var c: seq<Int32> := [-3, -2, -1];
    ReplayHead(Buffers.Buffer(3, c), b, SA, []);
    assert [c[1], c[0]] + c[2..] == [-2, -3, -1];
  }

  /** A single SA on A reaches the expected list. */
  lemma SwapPasses()
    ensures Check([Known(SA)], [4, 3, 5], [3, 4, 5]) == Ok(Pass)
  {
    var x: seq<Int32> := [4, 3, 5];
    ReplayHead(Buffers.Buffer(3, x), Buffers.Buffer(3, []), SA, []);
    assert [x[1], x[0]] + x[2..] == [3, 4, 5];
  }

  /** A single RA or RRA on A reaches the expected list. */
  lemma RotatePasses()
    ensures Check([Known(RA)], [4, 5, 6], [5, 6, 4]) == Ok(Pass)
  {
    var y: seq<Int32> := [4, 5, 6];
    ReplayHead(Buffers.Buffer(3, y), Buffers.Buffer(3, []), RA, []);
    assert y[1..] + [y[0]] == [5, 6, 4];
  }

  lemma ReverseRotatePasses()
    ensures Check([Known(RRA)], [5, 6, 7], [7, 5, 6]) == Ok(Pass)
  {
    var z: seq<Int32> := [5, 6, 7];
    ReplayHead(Buffers.Buffer(3, z), Buffers.Buffer(3, []), RRA, []);
    assert [z[2]] + z[..2] == [7, 5, 6];
  }

  /** A PB or PA between two given states. */
  lemma PushStep(a: Buffer, b: Buffer, m: Move, a': Buffer, b': Buffer)
    requires m == PB ==> |a.items| > 0 && |b.items| < b.capacity
                         && a' == Buffers.Buffer(a.capacity, a.items[1..])
                         && b' == Buffers.Buffer(b.capacity, [a.items[0]] + b.items)
    requires m == PA ==> |b.items| > 0 && |a.items| < a.capacity
                         && b' == Buffers.Buffer(b.capacity, b.items[1..])
                         && a' == Buffers.Buffer(a.capacity, [b.items[0]] + a.items)
    requires m == PA || m == PB
    ensures Exec(a, b, m) == (true, a', b')
  {
  }

  /** The replay of PB, PB, SB, PA, PA on `[1, 2, 3, 4]`. */
  lemma ThroughBReplay()
    ensures Replay(Buffers.Buffer(4, [1, 2, 3, 4]), Buffers.Buffer(4, []), [PB, PB, SB, PA, PA])
            == Some((Buffers.Buffer(4, [2, 1, 3, 4]), Buffers.Buffer(4, [])))
  {
    var a0, b0 := Buffers.Buffer(4, [1, 2, 3, 4]), Buffers.Buffer(4, []);
    var a1, b1 := Buffers.Buffer(4, [2, 3, 4]), Buffers.Buffer(4, [1]);
    var a2, b2 := Buffers.Buffer(4, [3, 4]), Buffers.Buffer(4, [2, 1]);
    var b3 := Buffers.Buffer(4, [1, 2]);
    var a4, b4 := Buffers.Buffer(4, [1, 3, 4]), Buffers.Buffer(4, [2]);
    var a5, b5 := Buffers.Buffer(4, [2, 1, 3, 4]), Buffers.Buffer(4, []);
    PushStep(a0, b0, PB, a1, b1);
    PushStep(a1, b1, PB, a2, b2);
    assert Exec(a2, b2, SB) == (true, a2, b3) by {
      assert [b2.items[1], b2.items[0]] + b2.items[2..] == b3.items;
    }
    PushStep(a2, b3, PA, a4, b4);
    PushStep(a4, b4, PA, a5, b5);
    ReplayHead(a4, b4, PA, []);
    ReplayHead(a2, b3, PA, [PA]);
    ReplayHead(a2, b2, SB, [PA, PA]);
    ReplayHead(a1, b1, PB, [SB, PA, PA]);
    ReplayHead(a0, b0, PB, [PB, SB, PA, PA]);
  }

  /** Values parked on B, swapped there and pulled back: `[1, 2, 3, 4]` becomes `[2, 1, 3, 4]`. */
  lemma ThroughBPasses()
    ensures Check(Wrap([PB, PB, SB, PA, PA]), [1, 2, 3, 4], [2, 1, 3, 4]) == Ok(Pass)
  {
    ThroughBReplay();
    PassMeans([PB, PB, SB, PA, PA], [1, 2, 3, 4], [2, 1, 3, 4]);
  }

  /** The replay of PB, PB, PB, RRR, PA, PA, PA on `[1, ..., 6]`. */
  lemma ReverseBothReplay()
    ensures Replay(Buffers.Buffer(6, [1, 2, 3, 4, 5, 6]), Buffers.Buffer(6, []), [PB, PB, PB, RRR, PA, PA, PA])
            == Some((Buffers.Buffer(6, [2, 3, 1, 6, 4, 5]), Buffers.Buffer(6, [])))
  {
    ParkThree();
    ReverseBothTail();
  }

  /** The three PBs park `[1, 2, 3]` on B, in reverse order. */
  lemma ParkThree()
    ensures Replay(Buffers.Buffer(6, [1, 2, 3, 4, 5, 6]), Buffers.Buffer(6, []), [PB, PB, PB, RRR, PA, PA, PA])
            == Replay(Buffers.Buffer(6, [4, 5, 6]), Buffers.Buffer(6, [3, 2, 1]), [RRR, PA, PA, PA])
  {
    var a0, b0 := Buffers.Buffer(6, [1, 2, 3, 4, 5, 6]), Buffers.Buffer(6, []);
    var a1, b1 := Buffers.Buffer(6, [2, 3, 4, 5, 6]), Buffers.Buffer(6, [1]);
    var a2, b2 := Buffers.Buffer(6, [3, 4, 5, 6]), Buffers.Buffer(6, [2, 1]);
    var a3, b3 := Buffers.Buffer(6, [4, 5, 6]), Buffers.Buffer(6, [3, 2, 1]);
    PushStep(a0, b0, PB, a1, b1);
    PushStep(a1, b1, PB, a2, b2);
    PushStep(a2, b2, PB, a3, b3);
    ReplayHead(a2, b2, PB, [RRR, PA, PA, PA]);
    ReplayHead(a1, b1, PB, [PB, RRR, PA, PA, PA]);
    ReplayHead(a0, b0, PB, [PB, PB, RRR, PA, PA, PA]);
  }

  /** RRR moves each stack's last value to its head, and the three PAs bring B back onto A. */
  lemma ReverseBothTail()
    ensures Replay(Buffers.Buffer(6, [4, 5, 6]), Buffers.Buffer(6, [3, 2, 1]), [RRR, PA, PA, PA])
            == Some((Buffers.Buffer(6, [2, 3, 1, 6, 4, 5]), Buffers.Buffer(6, [])))
  {
    var a3, b3 := Buffers.Buffer(6, [4, 5, 6]), Buffers.Buffer(6, [3, 2, 1]);
    var a4, b4 := Buffers.Buffer(6, [6, 4, 5]), Buffers.Buffer(6, [1, 3, 2]);
    var a5, b5 := Buffers.Buffer(6, [1, 6, 4, 5]), Buffers.Buffer(6, [3, 2]);
    var a6, b6 := Buffers.Buffer(6, [3, 1, 6, 4, 5]), Buffers.Buffer(6, [2]);
    var a7, b7 := Buffers.Buffer(6, [2, 3, 1, 6, 4, 5]), Buffers.Buffer(6, []);
    assert Exec(a3, b3, RRR) == (true, a4, b4) by {
      assert [a3.items[2]] + a3.items[..2] == a4.items;
      assert [b3.items[2]] + b3.items[..2] == b4.items;
    }
    PushStep(a4, b4, PA, a5, b5);
    PushStep(a5, b5, PA, a6, b6);
    PushStep(a6, b6, PA, a7, b7);
    ReplayHead(a6, b6, PA, []);
    ReplayHead(a5, b5, PA, [PA]);
    ReplayHead(a4, b4, PA, [PA, PA]);
    ReplayHead(a3, b3, RRR, [PA, PA, PA]);
  }

  /** RRR with three values on each side: `[1, ..., 6]` becomes `[2, 3, 1, 6, 4, 5]`. */
  lemma ReverseBothPasses()
    ensures Check(Wrap([PB, PB, PB, RRR, PA, PA, PA]), [1, 2, 3, 4, 5, 6], [2, 3, 1, 6, 4, 5]) == Ok(Pass)
  {
    var x: seq<Int32> := [1, 2, 3, 4, 5, 6];
    var y: seq<Int32> := [2, 3, 1, 6, 4, 5];
    assert Distinct(x) && Distinct(y) by {
      SixDistinct(1, 2, 3, 4, 5, 6);
      SixDistinct(2, 3, 1, 6, 4, 5);
    }
    ReverseBothReplay();
    PassMeans([PB, PB, PB, RRR, PA, PA, PA], x, y);
  }

  lemma SixDistinct(p: Int32, q: Int32, r: Int32, s: Int32, t: Int32, u: Int32)
    requires p != q && p != r && p != s && p != t && p != u
    requires q != r && q != s && q != t && q != u
    requires r != s && r != t && r != u && s != t && s != u && t != u
    ensures Distinct([p, q, r, s, t, u])
  {
  }
}

=== FILE: chunk_sort.dfy ===
/** `ChunkSort`: the driver. A sorted input needs no moves; otherwise the sorted values are cut
    into chunks of at most `MAX_CHUNK_SIZE`, inputs of at most five values go to `SmallSort`, and
    larger ones are sorted chunk by chunk with the search of module AStar, after which the least
    value is rotated to the head of A. */
module ChunkSort {
  import opened Wrappers
  import opened Ints
  import opened Sorting
  import opened Moves
  import opened Chunks
  import opened Machine
  import opened Replay
  import Buffers
  import AStar
  import SmallSort

  /** `Settings.MAX_CHUNK_SIZE`. */
  const MAX_CHUNK_SIZE: nat := 7

  /** `min(MAX_CHUNK_SIZE, size)`. */
  function ChunkSize(n: nat): nat {
    Min(MAX_CHUNK_SIZE, n)
  }

  /** `(size + chunkSize - 1) / chunkSize`: the number of chunks, rounding up. */
  function ChunkCount(n: nat): nat
    requires n > 0
  {
    (n + ChunkSize(n) - 1) / ChunkSize(n)
  }

  /** The values of the chunks, one after the other. */
  function Flatten(cs: seq<Chunk>): seq<Int32> {
    if |cs| == 0 then [] else Flatten(cs[..|cs| - 1]) + cs[|cs| - 1].values
  }

  /** A chunk as `defineChunkValues` builds it: a non-empty run of values no longer than the
      chunk size, bounded by its first and last value. */
  predicate WellFormed(c: Chunk) {
    && 0 < |c.values| <= MAX_CHUNK_SIZE
    && c.minValue == c.values[0]
    && c.maxValue == c.values[|c.values| - 1]
  }

  /** The chunk count covers the input with full chunks and nothing to spare: `count` chunks of
      `size` reach `n`, one fewer does not. */
  lemma CountCovers(n: nat)
    requires n > 0
    ensures var size, count := ChunkSize(n), ChunkCount(n);
            && 0 < count <= n
            && (count - 1) * size < n <= count * size
  {
    var size := ChunkSize(n);
    var q := (n + size - 1) / size;
    var m := (n + size - 1) % size;
    assert q * size + m == n + size - 1;
    assert (q - 1) * size == q * size - size;
  }

  /** `k` chunks of `size` values hold `Span(k, size)` values (`k * size`, counted out so that the
      loop below needs no products). */
  function Span(k: nat, size: nat): nat {
    if k == 0 then 0 else Span(k - 1, size) + size
  }

  lemma {:induction false} SpanIsProduct(k: nat, size: nat)
    ensures Span(k, size) == k * size
  {
    if k > 0 {
      SpanIsProduct(k - 1, size);
      assert k * size == (k - 1) * size + size;
    }
  }

  /** With `k` chunks of `size` still to cut from `left` values, the next chunk is a full one
      when more chunks follow and takes everything when it is the last. */
  lemma TakeOne(k: nat, size: nat, left: int)
    requires k >= 1 && size > 0
    requires Span(k - 1, size) < left <= Span(k, size)
    ensures k >= 2 ==> size < left && Span(k - 2, size) < left - size <= Span(k - 1, size)
    ensures k == 1 ==> 0 < left <= size
  {
  }

  /** Cutting the next `sz` values after the ones already covered extends the covered prefix. */
  lemma AppendChunk(r: seq<Chunk>, sorted: seq<Int32>, start: nat, sz: nat)
    requires 0 < sz && start + sz <= |sorted| && Flatten(r) == sorted[..start]
    ensures var values := sorted[start..start + sz];
            Flatten(r + [Chunk(values[0], values[sz - 1], values)]) == sorted[..start + sz]
  {
    var values := sorted[start..start + sz];
    var c := Chunk(values[0], values[sz - 1], values);
    assert (r + [c])[..|r|] == r;
    assert sorted[..start] + values == sorted[..start + sz];
  }

  /** The chunk of the `sz` sorted values from `start` on. */
  function NextChunk(sorted: seq<Int32>, start: nat, sz: nat): (c: Chunk)
    requires 0 < sz && start + sz <= |sorted|
    ensures c.values == sorted[start..start + sz]
    ensures c.minValue == sorted[start] && c.maxValue == sorted[start + sz - 1]
  {
    var values := sorted[start..start + sz];
    Chunk(values[0], values[sz - 1], values)
  }

  /** After `i` of `count` rounds the chunks cover the first `start` sorted values, each is well
      formed, all but the last one are full, and the values left fit the rounds left. */
  predicate CutSoFar(sorted: seq<Int32>, size: nat, count: nat, i: nat, start: nat, r: seq<Chunk>) {
    var n := |sorted|;
    && i <= count && start <= n
    && (i < count ==> Span(count - i - 1, size) < n - start <= Span(count - i, size))
    && (i == count ==> start == n)
    && |r| == i
    && Flatten(r) == sorted[..start]
    && (forall j :: 0 <= j < i ==> WellFormed(r[j]))
    && (forall j :: 0 <= j < i && j < count - 1 ==> |r[j].values| == size)
  }

  /** One round of the loop keeps CutSoFar. */
  lemma CutStep(sorted: seq<Int32>, size: nat, count: nat, i: nat, start: nat, r: seq<Chunk>)
    requires 0 < size <= MAX_CHUNK_SIZE && i < count && CutSoFar(sorted, size, count, i, start, r)
    ensures var sz := Min(size, |sorted| - start);
            && 0 < sz && start + sz <= |sorted|
            && CutSoFar(sorted, size, count, i + 1, start + sz, r + [NextChunk(sorted, start, sz)])
  {
    var n := |sorted|;
    TakeOne(count - i, size, n - start);
    var sz := Min(size, n - start);
    AppendChunk(r, sorted, start, sz);
    var c := NextChunk(sorted, start, sz);
    assert WellFormed(c);
    var r' := r + [c];
    assert forall j :: 0 <= j < i ==> r'[j] == r[j];
  }

  /** After the last round the chunks cover all the sorted values. */
  lemma CutDone(sorted: seq<Int32>, size: nat, count: nat, start: nat, r: seq<Chunk>)
    requires CutSoFar(sorted, size, count, count, start, r)
    ensures Flatten(r) == sorted && |r| == count
    ensures forall i :: 0 <= i < |r| ==> WellFormed(r[i])
    ensures forall i :: 0 <= i < |r| - 1 ==> |r[i].values| == size
  {
    assert sorted[..|sorted|] == sorted;
  }

  /** The loop of `defineChunkValues`: `count` rounds, each cutting the next
      `min(chunkSize, size - startIdx)` values. */
  method Cut(sorted: seq<Int32>, size: nat, count: nat) returns (r: seq<Chunk>)
    requires 0 < size <= MAX_CHUNK_SIZE && count > 0
    requires Span(count - 1, size) < |sorted| <= Span(count, size)
    ensures Flatten(r) == sorted
    ensures |r| == count
    ensures forall i :: 0 <= i < |r| ==> WellFormed(r[i])
    ensures forall i :: 0 <= i < |r| - 1 ==> |r[i].values| == size
  {
    var n := |sorted|;
    r := [];
    var start: nat := 0;
    for i := 0 to count
      invariant CutSoFar(sorted, size, count, i, start, r)
    {
      CutStep(sorted, size, count, i, start, r);
      var sz := Min(size, n - start);
      r := r + [NextChunk(sorted, start, sz)];
      start := start + sz;
    }
    CutDone(sorted, size, count, start, r);
  }

  /** `defineChunkValues`: the sorted input cut into consecutive chunks of `chunkSize` values,
      the last one taking what remains. The source divides by `chunkSize`, which is zero for an
      empty input; the driver never gets here with one, since an empty list is sorted. */
  method DefineChunkValues(list: seq<Int32>) returns (r: seq<Chunk>)
    requires |list| > 0
    ensures Flatten(r) == Sorting.Sort(list)
    ensures |r| == ChunkCount(|list|) && 0 < |r| <= |list|
    ensures forall i :: 0 <= i < |r| ==> WellFormed(r[i])
    ensures forall i :: 0 <= i < |r| - 1 ==> |r[i].values| == ChunkSize(|list|)
    ensures Sorting.Distinct(list) ==> forall i, j :: 0 <= i < j < |r| ==> r[i].maxValue < r[j].minValue
  {
    var sorted := Sorting.Sort(list);
    var n := |sorted|;
    CountCovers(n);
    SpanIsProduct(ChunkCount(n), ChunkSize(n));
    SpanIsProduct(ChunkCount(n) - 1, ChunkSize(n));
    r := Cut(sorted, ChunkSize(n), ChunkCount(n));
    if Sorting.Distinct(list) {
      DistinctChunksIncrease(list, r);
    }
  }

  /** The chunks follow each other in value order: every value of an earlier chunk is at most
      every value of a later one, and each chunk's bounds enclose its values. */
  lemma {:induction false} ChunksOrdered(cs: seq<Chunk>)
    requires Ascending(Flatten(cs))
    requires forall i :: 0 <= i < |cs| ==> WellFormed(cs[i])
    ensures forall i, j :: 0 <= i < j < |cs| ==> cs[i].maxValue <= cs[j].minValue
    ensures forall i, x :: 0 <= i < |cs| && x in cs[i].values ==> cs[i].minValue <= x <= cs[i].maxValue
    decreases |cs|
  {
    if |cs| > 0 {
      var init := cs[..|cs| - 1];
      var last := cs[|cs| - 1];
      var f := Flatten(cs);
      var fi := Flatten(init);
      assert f == fi + last.values;
      assert Ascending(fi) by {
        forall p, q | 0 <= p < q < |fi| ensures fi[p] <= fi[q] {
          assert fi[p] == f[p] && fi[q] == f[q];
        }
      }
      ChunksOrdered(init);
      forall x | x in last.values
        ensures last.minValue <= x <= last.maxValue
      {
        var k :| 0 <= k < |last.values| && last.values[k] == x;
        assert f[|fi|] == last.minValue && f[|fi| + k] == x;
        assert f[|f| - 1] == last.maxValue;
      }
      forall i | 0 <= i < |init|
        ensures init[i].maxValue <= last.minValue
      {
        assert init[i].maxValue in init[i].values;
        FlattenHolds(init, i, init[i].maxValue);
        var p :| 0 <= p < |fi| && fi[p] == init[i].maxValue;
        assert f[p] == fi[p] && f[|fi|] == last.minValue;
      }
    }
  }

  /** Over strictly ascending values the chunks increase strictly: an earlier chunk's maximum
      lies below a later chunk's minimum. */
  lemma {:induction false} ChunksStrictlyOrdered(cs: seq<Chunk>)
    requires StrictlyAscending(Flatten(cs))
    requires forall i :: 0 <= i < |cs| ==> WellFormed(cs[i])
    ensures forall i, j :: 0 <= i < j < |cs| ==> cs[i].maxValue < cs[j].minValue
    decreases |cs|
  {
    if |cs| > 0 {
      var init := cs[..|cs| - 1];
      var last := cs[|cs| - 1];
      var f := Flatten(cs);
      var fi := Flatten(init);
      assert f == fi + last.values;
      assert StrictlyAscending(fi) by {
        forall p, q | 0 <= p < q < |fi| ensures fi[p] < fi[q] {
          assert fi[p] == f[p] && fi[q] == f[q];
        }
      }
      ChunksStrictlyOrdered(init);
      forall i | 0 <= i < |init|
        ensures init[i].maxValue < last.minValue
      {
        assert init[i].maxValue in init[i].values;
        FlattenHolds(init, i, init[i].maxValue);
        var p :| 0 <= p < |fi| && fi[p] == init[i].maxValue;
        assert f[p] == fi[p] && f[|fi|] == last.minValue;
      }
    }
  }

  /** The chunks cut from the sorted values of an input without repeats, the input the driver
      and the checker accept, are strictly increasing. */
  lemma DistinctChunksIncrease(list: seq<Int32>, cs: seq<Chunk>)
    requires Sorting.Distinct(list) && Flatten(cs) == Sorting.Sort(list)
    requires forall i :: 0 <= i < |cs| ==> WellFormed(cs[i])
    ensures forall i, j :: 0 <= i < j < |cs| ==> cs[i].maxValue < cs[j].minValue
  {
    Sorting.DistinctPermutation(list, Sorting.Sort(list));
    Sorting.AscendingDistinctIsStrict(Sorting.Sort(list));
    ChunksStrictlyOrdered(cs);
  }

  /** A value of one chunk appears in the flattened values. */
  lemma {:induction false} FlattenHolds(cs: seq<Chunk>, i: nat, x: Int32)
    requires i < |cs| && x in cs[i].values
    ensures x in Flatten(cs)
    decreases |cs|
  {
    if i < |cs| - 1 {
      FlattenHolds(cs[..|cs| - 1], i, x);
    }
  }

  /** `shiftSmallestToTop`: rotate A the short way until `minValue` is at its head. The source
      reports a value missing from A with `error`. */
  function ShiftSmallestToTop(s: Stack, minValue: Int32): (r: Result<Stack>)
    ensures r.Err? <==> minValue !in s.a.items
    ensures r.Ok? ==> var n, i := |s.a.items|, Buffers.IndexOf(s.a.items, minValue);
            && r.value.a == Buffers.Buffer(s.a.capacity, s.a.items[i..] + s.a.items[..i])
            && r.value.a.items[0] == minValue
            && r.value.b == s.b
            && r.value.chunk == s.chunk && r.value.prevChunkNum == s.prevChunkNum
            && |r.value.moves| <= |s.moves| + n / 2
            && Reaches(s, r.value)
  {
    var i := Buffers.IndexOf(s.a.items, minValue);
    if i == -1 then Err("minimum not found in A")
    else if i == 0 then
      assert s.a.items[0..] + s.a.items[..0] == s.a.items;
      ReachesRefl(s);
      Ok(s)
    else
      RotateToFront(s, i);
      Ok(ApplyAll(s, RotationMoves(|s.a.items|, i)))
  }

  /** The state `chunkSort` starts from: the input on A, an empty B of the same capacity, the
      first chunk active and no history. */
  function Initial(list: seq<Int32>, first: Chunk): (r: Stack)
    ensures Valid(r) && r.a.items == list && r.b.items == [] && r.moves == []
  {
    Stack(Buffers.Buffer(|list|, list), Buffers.Buffer(|list|, []), first, None, [], 0)
  }

  /** The replay of `moves` from the input on A and an empty B: the buffers it ends in, if every
      move succeeds. */
  function ReplayFrom(list: seq<Int32>, moves: seq<Move>): Option<(Buffer, Buffer)> {
    Run(Buffers.Buffer(|list|, list), Buffers.Buffer(|list|, []), moves)
  }

  /** Longer runs of chunks hold more values. */
  lemma {:induction false} SpanGrows(j: nat, k: nat, size: nat)
    requires j <= k
    ensures Span(j, size) <= Span(k, size)
    decreases k
  {
    if j < k {
      SpanGrows(j, k - 1, size);
    }
  }

  /** The bound on the input length bounds the history over all chunks. */
  lemma FuelBound(c: nat, n: nat, fuel: nat)
    requires c <= n && 2 * fuel * (n + 1) < INT_MAX
    ensures Span(c + 1, 2 * fuel) < INT_MAX
  {
    SpanIsProduct(n + 1, 2 * fuel);
    assert (n + 1) * (2 * fuel) == 2 * fuel * (n + 1);
    SpanGrows(c + 1, n + 1, 2 * fuel);
  }

  /** One round of the loop: make `chunk` the active one and run the search on it. */
  method SortOne(start: Stack, stack: Stack, chunk: Chunk, pullH: Stack -> int, fuel: nat) returns (r: Result<Stack>)
    requires Reaches(start, stack) && CurrentCost(stack) + 2 * fuel < INT_MAX
    ensures r.Ok? ==> Reaches(start, r.value) && r.value.prevChunkNum == stack.prevChunkNum
    ensures r.Ok? ==> CurrentCost(r.value) <= CurrentCost(stack) + 2 * fuel
  {
    var current := stack.(chunk := chunk);
    r := AStar.Sort(current, pullH, fuel);
    if r.Ok? {
      ReachesTrans(start, current, r.value);
    }
  }

  /** The `while (chunks.size > i)` loop: each chunk in turn becomes the active one and is sorted
      by the search; a failing search ends the run. */
  method SortChunks(start: Stack, chunks: seq<Chunk>, pullH: Stack -> int, fuel: nat) returns (r: Result<Stack>)
    requires CurrentCost(start) + Span(|chunks| + 1, 2 * fuel) < INT_MAX
    ensures r.Ok? ==> Reaches(start, r.value) && r.value.prevChunkNum == start.prevChunkNum
  {
    var stack := start;
    ReachesRefl(start);
    for i := 0 to |chunks|
      invariant Reaches(start, stack) && stack.prevChunkNum == start.prevChunkNum
      invariant CurrentCost(stack) <= CurrentCost(start) + Span(i, 2 * fuel)
    {
      SpanGrows(i + 1, |chunks| + 1, 2 * fuel);
      var sorted := SortOne(start, stack, chunks[i], pullH, fuel);
      if sorted.Err? {
        return Err(sorted.msg);
      }
      stack := sorted.value;
    }
    return Ok(stack);
  }

  /** The small-input path sorts: for at most five distinct values, `smallSort` on the initial
      state answers, and its moves replay to the sorted input with B empty. */
  lemma SmallPathSorts(list: seq<Int32>, first: Chunk)
    requires |list| <= 5 && Distinct(list)
    ensures var r := SmallSort.Sort(Initial(list, first));
            && r.Ok?
            && ReplayFrom(list, r.value) == Some((Buffers.Buffer(|list|, Sorting.Sort(list)), Buffers.Buffer(|list|, [])))
  {
    var s := Initial(list, first);
    SmallSort.SortSorts(s);
    var ms := SmallSort.Sort(s).value;
    assert ms[0..] == ms;
  }

  /** The moves replay from the input without a failing move, keep every value, and leave the
      least value at the head of A. */
  predicate EndsWithLeastFirst(list: seq<Int32>, moves: seq<Move>)
    requires |list| > 0
  {
    && ReplayFrom(list, moves).Some?
    && var (a, b) := ReplayFrom(list, moves).value;
    && multiset(a.items) + multiset(b.items) == multiset(list)
    && |a.items| > 0 && a.items[0] == Sorting.Sort(list)[0]
  }

  /** After the shift, the replay from the input ends with the least value at the head of A, and
      no value is lost or gained. */
  lemma EndsWithLeast(list: seq<Int32>, chunks: seq<Chunk>, t: Stack)
    requires |chunks| > 0 && Flatten(chunks) == Sorting.Sort(list) && WellFormed(chunks[0])
    requires Reaches(Initial(list, chunks[0]), t)
    requires |t.a.items| > 0 && t.a.items[0] == chunks[0].minValue
    ensures EndsWithLeastFirst(list, t.moves)
  {
    var start := Initial(list, chunks[0]);
    ReachesConserves(start, t);
    assert t.moves[0..] == t.moves;
    FlattenPrefix(chunks, 1);
    assert Flatten(chunks[..1]) == chunks[0].values by {
      assert chunks[..1][..0] == [];
    }
  }

  /** Shifting after any descent from the initial state ends with the least value first. */
  lemma ShiftEnds(list: seq<Int32>, chunks: seq<Chunk>, t: Stack)
    requires |chunks| > 0 && Flatten(chunks) == Sorting.Sort(list) && WellFormed(chunks[0])
    requires Reaches(Initial(list, chunks[0]), t)
    requires ShiftSmallestToTop(t, chunks[0].minValue).Ok?
    ensures EndsWithLeastFirst(list, ShiftSmallestToTop(t, chunks[0].minValue).value.moves)
  {
    var u := ShiftSmallestToTop(t, chunks[0].minValue).value;
    ReachesTrans(Initial(list, chunks[0]), t, u);
    EndsWithLeast(list, chunks, u);
  }

  /** The last step of `chunkSort`: shift the least value to the head of A and answer the whole
      recorded history. */
  function Finish(list: seq<Int32>, chunks: seq<Chunk>, t: Stack): (r: Result<seq<Move>>)
    requires 0 < |chunks| <= |list| && Flatten(chunks) == Sorting.Sort(list) && WellFormed(chunks[0])
    requires Reaches(Initial(list, chunks[0]), t)
    ensures r.Ok? ==> EndsWithLeastFirst(list, r.value)
  {
    match ShiftSmallestToTop(t, chunks[0].minValue)
    case Err(e) => Err(e)
    case Ok(u) =>
      ShiftEnds(list, chunks, t);
      Ok(u.moves)
  }

  /** The path for more than five values: sort chunk by chunk, then rotate the least value to
      the head of A; the answer is the whole recorded history. */
  method SortLarge(list: seq<Int32>, chunks: seq<Chunk>, pullH: Stack -> int, fuel: nat) returns (r: Result<seq<Move>>)
    requires 0 < |chunks| <= |list| && Flatten(chunks) == Sorting.Sort(list) && WellFormed(chunks[0])
    requires 2 * fuel * (|list| + 1) < INT_MAX
    ensures r.Ok? ==> EndsWithLeastFirst(list, r.value)
  {
    var start := Initial(list, chunks[0]);
    assert CurrentCost(start) == 0;
    FuelBound(|chunks|, |list|, fuel);
    var sorted := SortChunks(start, chunks, pullH, fuel);
    if sorted.Err? {
      return Err(sorted.msg);
    }
    var t := sorted.value;
    assert Reaches(Initial(list, chunks[0]), t);
    r := Finish(list, chunks, t);
  }

  /** `chunkSort`. The source's search loops without bound; here each chunk's two searches pop at
      most `fuel` states each, which bounds the history and keeps it inside `Int` range. */
  method ChunkSort(list: seq<Int32>, pullH: Stack -> int, fuel: nat) returns (r: Result<seq<Move>>)
    requires 2 * fuel * (|list| + 1) < INT_MAX
    ensures Ascending(list) ==> r == Ok([])
    ensures |list| <= 5 && Distinct(list) ==>
              r.Ok? && ReplayFrom(list, r.value) == Some((Buffers.Buffer(|list|, Sorting.Sort(list)), Buffers.Buffer(|list|, [])))
    ensures |list| > 5 && r.Ok? ==> EndsWithLeastFirst(list, r.value)
  {
    SortedIffAscending(list);
    if list == Sorting.Sort(list) {
      return Ok([]);
    }
    var chunks := DefineChunkValues(list);
    var start := Initial(list, chunks[0]);
    if |list| <= 5 {
      if Distinct(list) {
        SmallPathSorts(list, chunks[0]);
      }
      return SmallSort.Sort(start);
    }
    r := SortLarge(list, chunks, pullH, fuel);
  }

  /** The values of the first `k` chunks start the flattened values. */
  lemma {:induction false} FlattenPrefix(cs: seq<Chunk>, k: nat)
    requires k <= |cs|
    ensures Flatten(cs[..k]) <= Flatten(cs)
    decreases |cs|
  {
    if k < |cs| {
      assert cs[..|cs| - 1][..k] == cs[..k];
      FlattenPrefix(cs[..|cs| - 1], k);
      assert cs[..|cs|] == cs;
    } else {
      assert cs[..k] == cs;
    }
  }
}

=== FILE: chunks.dfy ===
/** A chunk: an inclusive value range together with the sorted values it was cut from. */
module Chunks {
  import opened Ints

  datatype Chunk = Chunk(minValue: Int32, maxValue: Int32, values: seq<Int32>)

  /** `x in chunk`: the range test `x in minValue..maxValue`; the `values` list plays no part. */
  predicate Contains(c: Chunk, x: int) {
    c.minValue <= x <= c.maxValue
  }

  /** Both ends of a non-empty range are members. */
  lemma ContainsEnds(c: Chunk)
    ensures Contains(c, c.minValue) <==> c.minValue <= c.maxValue
    ensures Contains(c, c.maxValue) <==> c.minValue <= c.maxValue
  {
  }

  /** Nothing outside the range is a member. */
  lemma ContainsOutside(c: Chunk, x: int)
    requires x < c.minValue || x > c.maxValue
    ensures !Contains(c, x)
  {
  }

  /** Membership depends on the two bounds only, never on `values`. */
  lemma ContainsIgnoresValues(c: Chunk, vs: seq<Int32>, x: int)
    ensures Contains(c, x) == Contains(Chunk(c.minValue, c.maxValue, vs), x)
  {
  }

  /** The elements of `s` that belong to `c`, in their order in `s` (`s.filter { it in chunk }`). */
  function Filter(s: seq<Int32>, c: Chunk): (r: seq<Int32>)
    ensures |r| <= |s|
    ensures forall k :: 0 <= k < |r| ==> Contains(c, r[k])
    ensures forall x :: x in r <==> x in s && Contains(c, x)
  {
    if |s| == 0 then []
    else if Contains(c, s[0]) then [s[0]] + Filter(s[1..], c)
    else Filter(s[1..], c)
  }

  /** How many elements of `s` belong to `c`. */
  function CountIn(s: seq<Int32>, c: Chunk): (r: nat)
    ensures r <= |s|
    ensures r == 0 <==> forall k :: 0 <= k < |s| ==> !Contains(c, s[k])
  {
    if |s| == 0 then 0
    else (if Contains(c, s[0]) then 1 else 0) + CountIn(s[1..], c)
  }
}

=== FILE: heap.dfy ===
/** The open list of the search: a binary min-heap of states stored level by level in a sequence,
    ordered by `currentCost`. Both sift loops move a hole instead of swapping, as the source does. */
module Heap {
  import opened Wrappers
  import Machine

  type Stack = Machine.Stack

  function Key(s: Stack): nat { Machine.CurrentCost(s) }

  function Parent(k: nat): nat
    requires k > 0
  {
    (k - 1) / 2
  }

  /** Every element costs no less than its parent. */
  predicate IsHeap(h: seq<Stack>) {
    forall k :: 0 < k < |h| ==> Key(h[Parent(k)]) <= Key(h[k])
  }

  /** The root of a heap is a minimum. */
  lemma {:induction false} HeapRootMin(h: seq<Stack>, k: nat)
    requires IsHeap(h) && k < |h|
    ensures Key(h[0]) <= Key(h[k])
    decreases k
  {
    if k > 0 {
      HeapRootMin(h, Parent(k));
    }
  }

  lemma HeapRootMinAll(h: seq<Stack>)
    requires IsHeap(h) && |h| > 0
    ensures forall y :: y in h ==> Key(h[0]) <= Key(y)
  {
    forall y | y in h
      ensures Key(h[0]) <= Key(y)
    {
      var k :| 0 <= k < |h| && h[k] == y;
      HeapRootMin(h, k);
    }
  }

  /** Swapping the contents of two positions keeps the multiset. */
  lemma MoveHole(a: seq<Stack>, i: nat, p: nat, v: Stack)
    requires i < |a| && p < |a| && i != p
    ensures multiset(a[i := a[p]][p := v]) == multiset(a[i := v])
  {
  }

  /** The heap order on every edge except the one into `i`, and the parent of `i` no larger than
      its children: the state of `siftUp` with its hole at `i`. */
  predicate UpOrder(a: seq<Stack>, i: nat) {
    && i < |a|
    && (forall k :: 0 < k < |a| && k != i ==> Key(a[Parent(k)]) <= Key(a[k]))
    && (i > 0 ==> forall k :: 0 < k < |a| && Parent(k) == i ==> Key(a[Parent(i)]) <= Key(a[k]))
  }

  /** One iteration of `siftUp`: the parent slides down into the hole. */
  lemma UpStep(a: seq<Stack>, i: nat, x: Stack)
    requires UpOrder(a, i) && i > 0 && Key(x) <= Key(a[i]) && Key(x) < Key(a[Parent(i)])
    ensures UpOrder(a[i := a[Parent(i)]], Parent(i))
    ensures Key(x) <= Key(a[i := a[Parent(i)]][Parent(i)])
  {
    var p := Parent(i);
    var b := a[i := a[p]];
    forall k | 0 < k < |b| && k != p
      ensures Key(b[Parent(k)]) <= Key(b[k])
    {
      if k == i {
      } else if Parent(k) == i {
        assert Key(a[p]) <= Key(a[k]);
      }
    }
    if p > 0 {
      forall k | 0 < k < |b| && Parent(k) == p
        ensures Key(b[Parent(p)]) <= Key(b[k])
      {
        assert Key(a[Parent(p)]) <= Key(a[p]);
        if k != i {
          assert Key(a[p]) <= Key(a[k]);
        }
      }
    }
  }

  /** Filling the hole ends `siftUp` with a heap. */
  lemma UpDone(a: seq<Stack>, i: nat, x: Stack)
    requires UpOrder(a, i) && Key(x) <= Key(a[i])
    requires i > 0 ==> Key(a[Parent(i)]) <= Key(x)
    ensures IsHeap(a[i := x])
  {
    var b := a[i := x];
    forall k | 0 < k < |b|
      ensures Key(b[Parent(k)]) <= Key(b[k])
    {
      if k != i && Parent(k) == i {
        assert Key(a[i]) <= Key(a[k]);
      }
    }
  }

  /** `push`: appends and sifts the new element up. */
  method Push(h: seq<Stack>, x: Stack) returns (r: seq<Stack>)
    requires IsHeap(h)
    ensures IsHeap(r)
    ensures multiset(r) == multiset(h) + multiset{x}
    ensures |r| == |h| + 1
  {
    var a := h + [x];
    var i := |h|;
    assert a[i := x] == a;
    while i > 0
      invariant |a| == |h| + 1
      invariant UpOrder(a, i)
      invariant multiset(a[i := x]) == multiset(h) + multiset{x}
      invariant Key(x) <= Key(a[i])
    {
      var p := Parent(i);
      if Key(x) >= Key(a[p]) {
        break;
      }
      UpStep(a, i, x);
      MoveHole(a, i, p, x);
      a := a[i := a[p]];
      i := p;
    }
    UpDone(a, i, x);
    r := a[i := x];
  }

  /** The heap order on every edge except those out of `i`, the parent of `i` no larger than `v`
      nor than `i`'s children: the state of `siftDown` with its hole at `i`. */
  predicate DownOrder(a: seq<Stack>, i: nat, v: Stack) {
    && i < |a|
    && (forall k :: 0 < k < |a| && Parent(k) != i ==> Key(a[Parent(k)]) <= Key(a[k]))
    && (i > 0 ==> Key(a[Parent(i)]) <= Key(v))
    && (i > 0 ==> forall k :: 0 < k < |a| && Parent(k) == i ==> Key(a[Parent(i)]) <= Key(a[k]))
  }

  /** The smaller child of `i` (the left one on a tie). */
  function SmallerChild(a: seq<Stack>, i: nat): (c: nat)
    requires 2 * i + 1 < |a|
    ensures c < |a| && c > 0 && Parent(c) == i
    ensures forall k :: 0 < k < |a| && Parent(k) == i ==> Key(a[c]) <= Key(a[k])
  {
    if 2 * i + 2 < |a| && Key(a[2 * i + 2]) < Key(a[2 * i + 1]) then 2 * i + 2 else 2 * i + 1
  }

  /** One iteration of `siftDown`: the smaller child slides up into the hole. */
  lemma DownStep(a: seq<Stack>, i: nat, v: Stack)
    requires DownOrder(a, i, v) && 2 * i + 1 < |a| && Key(a[SmallerChild(a, i)]) < Key(v)
    ensures DownOrder(a[i := a[SmallerChild(a, i)]], SmallerChild(a, i), v)
  {
    var c := SmallerChild(a, i);
    var b := a[i := a[c]];
    forall k | 0 < k < |b| && Parent(k) != c
      ensures Key(b[Parent(k)]) <= Key(b[k])
    {
      if k == i {
      } else if Parent(k) == i {
      }
    }
    forall k | 0 < k < |b| && Parent(k) == c
      ensures Key(b[Parent(c)]) <= Key(b[k])
    {
      assert k != i;
    }
  }

  /** Filling the hole ends `siftDown` with a heap. */
  lemma DownDone(a: seq<Stack>, i: nat, v: Stack)
    requires DownOrder(a, i, v)
    requires 2 * i + 1 < |a| ==> Key(a[SmallerChild(a, i)]) >= Key(v)
    ensures IsHeap(a[i := v])
  {
    var b := a[i := v];
    forall k | 0 < k < |b|
      ensures Key(b[Parent(k)]) <= Key(b[k])
    {
      if Parent(k) == i && k != i {
        assert 2 * i + 1 < |a|;
      }
    }
  }

  /** `siftDown` from the root of `a0`, whose root slot is a hole to be filled with `v`. */
  method SiftDown(a0: seq<Stack>, v: Stack) returns (r: seq<Stack>)
    requires DownOrder(a0, 0, v)
    ensures IsHeap(r)
    ensures multiset(r) == multiset(a0[0 := v])
    ensures |r| == |a0|
  {
    var a := a0;
    var i := 0;
    while 2 * i + 1 < |a|
      invariant |a| == |a0|
      invariant DownOrder(a, i, v)
      invariant multiset(a[i := v]) == multiset(a0[0 := v])
      decreases |a| - i
    {
      var smallest := SmallerChild(a, i);
      if Key(a[smallest]) >= Key(v) {
        break;
      }
      DownStep(a, i, v);
      MoveHole(a, i, smallest, v);
      a := a[i := a[smallest]];
      i := smallest;
    }
    DownDone(a, i, v);
    r := a[i := v];
  }

  /** `pop`: the error of an empty heap, or the root together with the re-heaped rest. */
  method Pop(h: seq<Stack>) returns (res: Result<(Stack, seq<Stack>)>)
    requires IsHeap(h)
    ensures res.Err? <==> |h| == 0
    ensures res.Ok? ==> var (top, rest) := res.value;
      && top == h[0]
      && (forall y :: y in h ==> Key(top) <= Key(y))
      && IsHeap(rest)
      && multiset(rest) + multiset{top} == multiset(h)
      && |rest| == |h| - 1
  {
    if |h| == 0 {
      return Err("Stack is empty");
    }
    HeapRootMinAll(h);
    var top := h[0];
    var last := h[|h| - 1];
    var rest := h[..|h| - 1];
    assert h == rest + [last];
    if |rest| > 0 {
      rest := SiftDown(rest, last);
      assert multiset(h[..|h| - 1][0 := last]) + multiset{top} == multiset(h);
    }
    return Ok((top, rest));
  }
}

=== FILE: heuristic_util.dfy ===
/** `HeuristicUtil`: the measures the heuristics are built from — how many elements already sit
    at their sorted position, the inversion count, and the cheapest rotation of B before a push. */
module HeuristicUtil {
  import opened Ints
  import opened Sorting
  import VirtualView
  import Buffers

  /** The number of positions at which two equally long sequences agree. */
  function Matches(s: seq<Int32>, t: seq<Int32>): (r: nat)
    requires |s| == |t|
    ensures r <= |s|
    ensures r == |s| <==> s == t
    decreases |s|
  {
    if |s| == 0 then 0
    else
      assert s == s[..|s| - 1] + [s[|s| - 1]] && t == t[..|t| - 1] + [t[|t| - 1]];
      Matches(s[..|s| - 1], t[..|t| - 1]) + (if s[|s| - 1] == t[|t| - 1] then 1 else 0)
  }

  /** `noOfSorted`: how many elements already stand where sorting would put them. */
  function NoOfSorted(b: seq<Int32>): (r: nat)
    ensures r <= |b|
  {
    Matches(b, Sort(b))
  }

  /** Every element is in place exactly when the buffer is ascending. */
  lemma NoOfSortedFull(b: seq<Int32>)
    ensures NoOfSorted(b) == |b| <==> Ascending(b)
  {
    SortedIffAscending(b);
  }

  /** The pair `(x, y)`, with `x` first, counts as an inversion: descending for the plain score,
      ascending for the reversed one. */
  predicate Inverted(x: int, y: int, reverse: bool) {
    if reverse then x < y else x > y
  }

  /** No pair of the sequence is an inversion. */
  predicate Ordered(s: seq<Int32>, reverse: bool) {
    forall i, j :: 0 <= i < j < |s| ==> !Inverted(s[i], s[j], reverse)
  }

  /** The number of elements of `t` that form an inversion with `x` placed before them. */
  function CountAfter(x: int, t: seq<Int32>, reverse: bool): (r: nat)
    ensures r <= |t|
    ensures r == 0 <==> forall k :: 0 <= k < |t| ==> !Inverted(x, t[k], reverse)
    ensures r == |t| <==> forall k :: 0 <= k < |t| ==> Inverted(x, t[k], reverse)
    decreases |t|
  {
    if |t| == 0 then 0
    else CountAfter(x, t[..|t| - 1], reverse) + (if Inverted(x, t[|t| - 1], reverse) then 1 else 0)
  }

  /** Counting from the front: the first element's contribution, then the rest. */
  lemma {:induction false} CountAfterCons(x: int, y: Int32, t: seq<Int32>, reverse: bool)
    ensures CountAfter(x, [y] + t, reverse)
         == (if Inverted(x, y, reverse) then 1 else 0) + CountAfter(x, t, reverse)
    decreases |t|
  {
    if |t| > 0 {
      assert ([y] + t)[..|t|] == [y] + t[..|t| - 1];
      CountAfterCons(x, y, t[..|t| - 1], reverse);
    } else {
      assert [y] + t == [y];
      assert [y][..0] == [];
    }
  }

  /** The number of inverted pairs `i < j` of `s`. */
  function Score(s: seq<Int32>, reverse: bool): nat
    decreases |s|
  {
    if |s| == 0 then 0 else CountAfter(s[0], s[1..], reverse) + Score(s[1..], reverse)
  }

  lemma InnerStep(list: seq<Int32>, i: nat, j: nat, reverse: bool)
    requires i < j < |list|
    ensures CountAfter(list[i], list[i + 1..j + 1], reverse)
         == CountAfter(list[i], list[i + 1..j], reverse) + if Inverted(list[i], list[j], reverse) then 1 else 0
  {
    assert list[i + 1..j + 1][..j - i - 1] == list[i + 1..j];
  }

  lemma OuterStep(list: seq<Int32>, i: nat, reverse: bool)
    requires i < |list|
    ensures Score(list[i..], reverse) == CountAfter(list[i], list[i + 1..|list|], reverse) + Score(list[i + 1..], reverse)
  {
    assert list[i..][1..] == list[i + 1..] == list[i + 1..|list|];
  }

  /** `sortednessScore`: the double loop over all pairs `i < j`; the inner loop is `CountFrom`.
      `inversions` is an `Int`, so the total wraps once it passes `Int.MAX_VALUE`; it is exact
      for lists of at most 65536 elements. */
  method SortednessScore(list: seq<Int32>, reverse: bool) returns (inversions: Int32)
    ensures inversions == Wrap32(Score(list, reverse))
    ensures |list| <= 65536 ==> inversions == Score(list, reverse)
  {
    inversions := 0;
    var i := 0;
    while i < |list|
      invariant 0 <= i <= |list|
      invariant inversions == Wrap32(Counted(list, i, reverse))
      decreases |list| - i
    {
      var count := CountFrom(list, i, reverse);
      WrapAdd(Counted(list, i, reverse), inversions, count, Counted(list, i + 1, reverse));
      inversions := Wrap32(inversions + count);
      i := i + 1;
    }
    CountedIsScore(list, i, reverse);
    assert list[i..] == [];
    if |list| <= 65536 {
      ScoreFitsInt(list, reverse);
    }
  }

  /** The inversions the first `i` rounds of the outer loop count. */
  ghost function Counted(list: seq<Int32>, i: nat, reverse: bool): nat
    requires i <= |list|
    decreases i
  {
    if i == 0 then 0 else Counted(list, i - 1, reverse) + CountAfter(list[i - 1], list[i..|list|], reverse)
  }

  /** The first `i` rounds count exactly the inverted pairs whose first element lies before `i`. */
  lemma {:induction false} CountedIsScore(list: seq<Int32>, i: nat, reverse: bool)
    requires i <= |list|
    ensures Counted(list, i, reverse) == Score(list, reverse) - Score(list[i..], reverse)
    decreases i
  {
    if i > 0 {
      CountedIsScore(list, i - 1, reverse);
      OuterStep(list, i - 1, reverse);
    } else {
      assert list[0..] == list;
    }
  }

  /** The inner loop of `sortednessScore`: the inversions that `list[i]` forms with the elements
      after it. */
  method CountFrom(list: seq<Int32>, i: nat, reverse: bool) returns (count: int)
    requires i < |list|
    ensures count == CountAfter(list[i], list[i + 1..|list|], reverse)
  {
    count := 0;
    var j := i + 1;
    while j < |list|
      invariant i + 1 <= j <= |list|
      invariant count == CountAfter(list[i], list[i + 1..j], reverse)
    {
      if !reverse && list[i] > list[j] {
        count := count + 1;
      } else if reverse && list[i] < list[j] {
        count := count + 1;
      }
      InnerStep(list, i, j, reverse);
      j := j + 1;
    }
  }

  /** A score of zero means the list is in order: ascending for the plain score, descending for
      the reversed one. */
  lemma {:induction false} ScoreZeroIffOrdered(s: seq<Int32>, reverse: bool)
    ensures Score(s, reverse) == 0 <==> Ordered(s, reverse)
    decreases |s|
  {
    if |s| > 0 {
      var t := s[1..];
      ScoreZeroIffOrdered(t, reverse);
      if Ordered(s, reverse) {
        assert forall k :: 0 <= k < |t| ==> !Inverted(s[0], t[k], reverse) by {
          forall k | 0 <= k < |t| ensures !Inverted(s[0], t[k], reverse) {
            assert t[k] == s[k + 1];
          }
        }
        assert Ordered(t, reverse) by {
          forall i, j | 0 <= i < j < |t| ensures !Inverted(t[i], t[j], reverse) {
            assert t[i] == s[i + 1] && t[j] == s[j + 1];
          }
        }
      }
      if Score(s, reverse) == 0 {
        forall i, j | 0 <= i < j < |s| ensures !Inverted(s[i], s[j], reverse) {
          if i == 0 {
            assert s[j] == t[j - 1];
          } else {
            assert s[i] == t[i - 1] && s[j] == t[j - 1];
          }
        }
      }
    }
  }

  lemma ScoreZeroIffSorted(s: seq<Int32>)
    ensures Score(s, false) == 0 <==> Ascending(s)
    ensures Score(s, true) == 0 <==> Descending(s)
  {
    ScoreZeroIffOrdered(s, false);
    ScoreZeroIffOrdered(s, true);
  }

  /** The score never exceeds `(n² - n) / 2`, the number of pairs. */
  lemma {:induction false} ScoreBound(s: seq<Int32>, reverse: bool)
    ensures 2 * Score(s, reverse) <= |s| * (|s| - 1)
    decreases |s|
  {
    if |s| > 0 {
      var p := |s| - 1;
      var c := CountAfter(s[0], s[1..], reverse);
      var rest := Score(s[1..], reverse);
      ScoreBound(s[1..], reverse);
      assert Score(s, reverse) == c + rest;
      assert c <= p;
      assert 2 * rest <= p * (p - 1);
      Distribute(p);
    }
  }

  lemma Distribute(p: int)
    ensures (p + 1) * p == p * (p - 1) + 2 * p
  {
  }

  /** Every pair of the sequence is an inversion. */
  predicate AllInverted(s: seq<Int32>, reverse: bool) {
    forall i, j :: 0 <= i < j < |s| ==> Inverted(s[i], s[j], reverse)
  }

  /** When every pair is an inversion, the head inverts with all of the tail, and every pair of
      the tail is an inversion too. */
  lemma InvertedTail(s: seq<Int32>, reverse: bool)
    requires |s| > 0 && AllInverted(s, reverse)
    ensures AllInverted(s[1..], reverse)
    ensures CountAfter(s[0], s[1..], reverse) == |s| - 1
  {
    var t := s[1..];
    forall k | 0 <= k < |t|
      ensures Inverted(s[0], t[k], reverse)
    {
      assert t[k] == s[k + 1];
    }
    forall i, j | 0 <= i < j < |t|
      ensures Inverted(t[i], t[j], reverse)
    {
      assert t[i] == s[i + 1] && t[j] == s[j + 1];
    }
  }

  /** The maximum score is reached exactly when every pair is an inversion. */
  lemma {:induction false} AllInvertedScore(s: seq<Int32>, reverse: bool)
    requires AllInverted(s, reverse)
    ensures 2 * Score(s, reverse) == |s| * (|s| - 1)
    decreases |s|
  {
    if |s| > 0 {
      var n := |s|;
      InvertedTail(s, reverse);
      AllInvertedScore(s[1..], reverse);
      assert Score(s, reverse) == (n - 1) + Score(s[1..], reverse);
      Distribute(n - 1);
    }
  }

  /** The bound is reached by a strictly descending list (plain score) and a strictly ascending
      one (reversed score). */
  lemma ScoreMaximum(s: seq<Int32>, reverse: bool)
    requires if reverse then StrictlyAscending(s) else StrictlyDescending(s)
    ensures 2 * Score(s, reverse) == |s| * (|s| - 1)
  {
    assert AllInverted(s, reverse);
    AllInvertedScore(s, reverse);
  }

  /** The reversed score of B after pushing `x` onto it rotated left `i` times. */
  function RotScore(b: seq<Int32>, x: Int32, i: nat): nat
    requires i <= |b|
  {
    Score(VirtualView.View(b, x, i), true)
  }

  /** The reversed score of every rotation `0 <= i < |b|`, in order. */
  function RotScores(b: seq<Int32>, x: Int32): (r: seq<nat>)
    ensures |r| == |b|
    ensures forall i :: 0 <= i < |b| ==> r[i] == RotScore(b, x, i)
  {
    seq(|b|, i requires 0 <= i < |b| => RotScore(b, x, i))
  }

  /** The scan of `minRotIdxB` from rotation `i` over the rotations' scores: a score strictly
      below the best so far replaces it, and a score of 0 ends the scan. Evaluating the scores
      past an early exit does not change the result. */
  function BestRotation(scores: seq<int>, i: nat, bestScore: int, bestRot: nat): (r: nat)
    requires i <= |scores| && bestRot < |scores|
    ensures r < |scores|
    decreases |scores| - i
  {
    if i == |scores| then bestRot
    else
      var score := scores[i];
      if score < bestScore then
        if score == 0 then i else BestRotation(scores, i + 1, score, i)
      else BestRotation(scores, i + 1, bestScore, bestRot)
  }

  /** `minRotIdxB` without its cache: 0 for an empty B or a value no smaller than B's head,
      otherwise the rotation count, forward or backward, to the first best-scoring rotation. */
  function MinRotIdxB(b: seq<Int32>, x: Int32): (r: nat)
    ensures |b| == 0 || x >= b[0] ==> r == 0
    ensures 2 * r <= |b|
    ensures |b| > 0 && x < b[0] ==>
      var best := BestRotation(RotScores(b, x), 0, INT_MAX, 0);
      r == best || r == |b| - best
  {
    if |b| == 0 || x >= b[0] then 0
    else
      var best := BestRotation(RotScores(b, x), 0, INT_MAX, 0);
      Min(best, |b| - best)
  }

  /** What the scan has established once it reaches position `i`. */
  predicate ScanState(scores: seq<int>, i: nat, bestScore: int, bestRot: nat)
    requires i <= |scores| && bestRot < |scores|
  {
    && (i == 0 ==> bestScore == INT_MAX && bestRot == 0)
    && (i > 0 ==> bestRot < i && bestScore == scores[bestRot])
    && (forall j :: 0 <= j < i ==> scores[j] >= bestScore)
    && (forall j :: 0 <= j < bestRot ==> scores[j] > bestScore)
  }

  lemma {:induction false} BestRotationStep(scores: seq<int>, i: nat, bestScore: int, bestRot: nat)
    requires i <= |scores| && bestRot < |scores|
    requires ScanState(scores, i, bestScore, bestRot)
    requires forall j :: 0 <= j < |scores| ==> 0 <= scores[j] < INT_MAX
    ensures var r := BestRotation(scores, i, bestScore, bestRot);
      && (forall j :: 0 <= j < |scores| ==> scores[r] <= scores[j])
      && (forall j :: 0 <= j < r ==> scores[r] < scores[j])
    decreases |scores| - i
  {
    if i < |scores| {
      var score := scores[i];
      if score < bestScore {
        if score != 0 {
          BestRotationStep(scores, i + 1, score, i);
        }
      } else {
        BestRotationStep(scores, i + 1, bestScore, bestRot);
      }
    }
  }

  /** For at most 65536 elements the number of inverted pairs, at most (n² - n) / 2, fits in an
      `Int`. */
  lemma ScoreFitsInt(s: seq<Int32>, reverse: bool)
    requires |s| <= 65536
    ensures Score(s, reverse) <= INT_MAX
  {
    ScoreBound(s, reverse);
    var n := |s|;
    if n > 0 {
      MulLe(n, n - 1, 65535);
      MulLe(65535, n, 65536);
    }
  }

  /** A strictly descending list of 65537 elements has more inverted pairs than an `Int` holds,
      so the source's count wraps from that length on. */
  lemma ScoreExceedsInt()
    ensures var s := seq(65537, i => 65537 - i);
            Score(s, false) > INT_MAX
  {
    var s: seq<Int32> := seq(65537, i => 65537 - i);
    assert AllInverted(s, false);
    AllInvertedScore(s, false);
  }

  lemma MulLe(x: nat, y: nat, z: nat)
    requires y <= z
    ensures x * y <= x * z
  {
  }

  lemma PairsBound(m: nat)
    requires m <= 60001
    ensures m * (m - 1) < 2 * INT_MAX
  {
    if m > 0 {
      MulLe(m, m - 1, 60000);
      MulLe(60000, m, 60001);
    }
  }

  /** On a non-empty B every score fits below `Int.MAX_VALUE` once B has at most 60000 elements,
      and the scan then returns the first rotation of least score. */
  lemma BestRotationIsFirstMinimum(b: seq<Int32>, x: Int32)
    requires 0 < |b| <= 60000
    ensures var r := BestRotation(RotScores(b, x), 0, INT_MAX, 0);
      && (forall j :: 0 <= j < |b| ==> RotScore(b, x, r) <= RotScore(b, x, j))
      && (forall j :: 0 <= j < r ==> RotScore(b, x, r) < RotScore(b, x, j))
  {
    forall j | 0 <= j < |b|
      ensures RotScore(b, x, j) < INT_MAX
    {
      var v := VirtualView.View(b, x, j);
      ScoreBound(v, true);
      PairsBound(|v|);
    }
    BestRotationStep(RotScores(b, x), 0, INT_MAX, 0);
  }

  /** The source's `minRotIdxB` with its process-wide cache keyed by `(b.hashCode(), x)`. */
  function MinRotIdxBCachedAsWritten(cache: map<(Int32, Int32), nat>, b: seq<Int32>, x: Int32)
    : (r: (nat, map<(Int32, Int32), nat>))
    ensures (|b| == 0 || x >= b[0]) ==> r == (0, cache)
    ensures (Buffers.Hash(b), x) in cache && |b| > 0 && x < b[0] ==>
      r == (cache[(Buffers.Hash(b), x)], cache)
  {
    if |b| == 0 || x >= b[0] then (0, cache)
    else
      var key := (Buffers.Hash(b), x);
      if key in cache then (cache[key], cache)
      else
        var result := MinRotIdxB(b, x);
        (result, cache[key := result])
  }

  /** B = [0, 31] and B = [1, 0] have the same hash code, 1953. */
  lemma CollidingHashes()
    ensures Buffers.Hash([0, 31]) == 1953 && Buffers.Hash([1, 0]) == 1953
  {
    assert Wrap32(2) == 2;
    assert Buffers.HashStep(2, 0) == 62 && Buffers.HashStep(62, 31) == 1953;
    assert Buffers.HashStep(2, 1) == 63 && Buffers.HashStep(63, 0) == 1953;
    assert Buffers.HashFrom(1953, []) == 1953;
    assert [0, 31][1..] == [31] && [1, 0][1..] == [0] && [31][1..] == [] && [0][1..] == [];
  }

  /** The reversed score of three elements `[p, q, r]`. */
  lemma ScoreOfThree(p: Int32, q: Int32, r: Int32)
    ensures Score([p, q, r], true)
         == (if p < q then 1 else 0) + (if p < r then 1 else 0) + (if q < r then 1 else 0)
  {
    var s := [p, q, r];
    assert s[1..] == [q, r] && s[1..][1..] == [r] && s[1..][1..][1..] == [];
    assert [q, r][..1] == [q] && [q][..0] == [];
    assert CountAfter(p, [q, r], true) == (if p < q then 1 else 0) + (if p < r then 1 else 0);
    assert CountAfter(q, [r], true) == if q < r then 1 else 0;
    assert Score([r], true) == 0;
    assert Score([q, r], true) == CountAfter(q, [r], true);
    assert Score(s, true) == CountAfter(p, [q, r], true) + Score([q, r], true);
  }

  lemma ScanOfTwo(b: seq<Int32>, x: Int32)
    requires |b| == 2 && x < b[0]
    ensures RotScore(b, x, 0) == (if x < b[0] then 1 else 0) + (if x < b[1] then 1 else 0) + (if b[0] < b[1] then 1 else 0)
    ensures RotScore(b, x, 1) == (if x < b[1] then 1 else 0) + (if x < b[0] then 1 else 0) + (if b[1] < b[0] then 1 else 0)
  {
    assert VirtualView.View(b, x, 0) == [x, b[0], b[1]];
    assert VirtualView.View(b, x, 1) == [x, b[1], b[0]];
    ScoreOfThree(x, b[0], b[1]);
    ScoreOfThree(x, b[1], b[0]);
  }

  /** For B = [0, 31] and x = -1 the scores are 3 and 2, so the scan answers one rotation. */
  lemma ScanFirst()
    ensures MinRotIdxB([0, 31], -1) == 1
  {
    var b: seq<Int32> := [0, 31];
    ScanOfTwo(b, -1);
    var sc := RotScores(b, -1);
    assert sc[0] == 3 && sc[1] == 2;
    assert BestRotation(sc, 2, 2, 1) == 1;
    assert BestRotation(sc, 1, 3, 0) == 1;
  }

  /** For B = [1, 0] and x = -1 the scores are 2 and 3, so the scan answers no rotation. */
  lemma ScanSecond()
    ensures MinRotIdxB([1, 0], -1) == 0
  {
    var b: seq<Int32> := [1, 0];
    ScanOfTwo(b, -1);
    var sc := RotScores(b, -1);
    assert sc[0] == 2 && sc[1] == 3;
    assert BestRotation(sc, 2, 2, 0) == 0;
    assert BestRotation(sc, 1, 2, 0) == 0;
  }

  /** Two buffers with equal hash codes share a cache entry: after asking about B = [0, 31], the
      question about B = [1, 0] with the same value gets the first answer, 1, where the scan gives 0. */
  lemma CacheCollision()
    ensures Buffers.Hash([0, 31]) == Buffers.Hash([1, 0])
    ensures MinRotIdxB([0, 31], -1) == 1 && MinRotIdxB([1, 0], -1) == 0
    ensures var (_, cache) := MinRotIdxBCachedAsWritten(map[], [0, 31], -1);
      MinRotIdxBCachedAsWritten(cache, [1, 0], -1).0 == 1
  {
    CollidingHashes();
    ScanFirst();
    ScanSecond();
  }

  /** Every cached answer is the scan's answer for its key. */
  predicate CacheSound(cache: map<(seq<Int32>, Int32), nat>) {
    forall key :: key in cache ==> cache[key] == MinRotIdxB(key.0, key.1)
  }

  /** The cache keyed by B's content instead of its hash code: it always answers what the scan
      answers and stays sound. */
  function MinRotIdxBCached(cache: map<(seq<Int32>, Int32), nat>, b: seq<Int32>, x: Int32)
    : (r: (nat, map<(seq<Int32>, Int32), nat>))
    requires CacheSound(cache)
    ensures r.0 == MinRotIdxB(b, x)
    ensures CacheSound(r.1)
  {
    if |b| == 0 || x >= b[0] then (0, cache)
    else if (b, x) in cache then (cache[(b, x)], cache)
    else
      var result := MinRotIdxB(b, x);
      (result, cache[(b, x) := result])
  }
}

=== FILE: ints.dfy ===
/** The 32-bit integers of the JVM and the wrap-around of Kotlin `Int` arithmetic. */
module Ints {

  const INT_MIN: int := -0x8000_0000
  const INT_MAX: int := 0x7fff_ffff
  const TWO_32: int := 0x1_0000_0000

  /** A Kotlin `Int`. */
  type Int32 = x: int | INT_MIN <= x <= INT_MAX

  /** The value Kotlin `Int` arithmetic yields for the mathematical result `x`: two's-complement
      wrap-around modulo 2^32. */
  function Wrap32(x: int): (r: Int32)
    ensures (x - r) % TWO_32 == 0
    ensures INT_MIN <= x <= INT_MAX ==> r == x
  {
    var m := x % TWO_32;
    if m <= INT_MAX then m else m - TWO_32
  }

  /** Two values that differ by a multiple of 2^32 wrap to the same `Int`. */
  lemma WrapCongruent(x: int, y: int)
    requires (x - y) % TWO_32 == 0
    ensures Wrap32(x) == Wrap32(y)
  {
    var k := (x - y) / TWO_32;
    assert x == y + k * TWO_32;
    assert x % TWO_32 == y % TWO_32;
  }

  /** Adding to a wrapped sum and wrapping again is wrapping the exact sum once. */
  lemma WrapAdd(x: int, w: int, c: int, sum: int)
    requires w == Wrap32(x)
    requires sum == x + c
    ensures Wrap32(w + c) == Wrap32(sum)
  {
    assert (x - w) % TWO_32 == 0;
    assert sum - (w + c) == x - w;
    WrapCongruent(sum, w + c);
  }

  /** Kotlin's `%`: the remainder of division truncated toward zero, so it takes the sign of `x`. */
  function Rem(x: int, n: int): (r: int)
    requires n != 0
    ensures x >= 0 && n > 0 ==> r == x % n
    ensures x < 0 && n > 0 ==> -n < r <= 0
  {
    if x >= 0 then x % n else -((-x) % n)
  }

  function Min(x: int, y: int): int { if x <= y then x else y }
  function Max(x: int, y: int): int { if x >= y then x else y }
}

=== FILE: machine.dfy ===
/** The two-stack machine state of the search (`Stack`): stacks A and B, the active chunk, the
    boundary of the previous chunk, the move history and the heuristic estimate. Cloning is a deep
    copy in the source; here states are values, so a clone is the state itself and no two states
    share storage. */
module Machine {
  import opened Wrappers
  import opened Ints
  import opened Moves
  import opened Chunks
  import Buffers

  type Buffer = Buffers.Buffer

  datatype Stack = Stack(
    a: Buffer,
    b: Buffer,
    chunk: Chunk,
    prevChunkNum: Option<Int32>,
    moves: seq<Move>,
    heuristic: int)

  predicate Valid(s: Stack) {
    Buffers.Valid(s.a) && Buffers.Valid(s.b)
  }

  /** `currentCost`: the number of recorded moves, which is also the heap's ordering key. */
  function CurrentCost(s: Stack): nat { |s.moves| }

  /** The `when (move)` dispatch of `apply` on the two buffers. For SS, RR and RRR both sides run
      and the reported status is the B side's result alone. */
  function Step(a: Buffer, b: Buffer, m: Move): (res: (bool, Buffer, Buffer))
  {
    match m
    case SA => (Buffers.Swap(a).0, Buffers.Swap(a).1, b)
    case SB => (Buffers.Swap(b).0, a, Buffers.Swap(b).1)
    case SS => (Buffers.Swap(b).0, Buffers.Swap(a).1, Buffers.Swap(b).1)
    case PA => (Buffers.Push(b, a).0, Buffers.Push(b, a).2, Buffers.Push(b, a).1)
    case PB => Buffers.Push(a, b)
    case RA => (Buffers.Rotate(a).0, Buffers.Rotate(a).1, b)
    case RB => (Buffers.Rotate(b).0, a, Buffers.Rotate(b).1)
    case RR => (Buffers.Rotate(b).0, Buffers.Rotate(a).1, Buffers.Rotate(b).1)
    case RRA => (Buffers.ReverseRotate(a).0, Buffers.ReverseRotate(a).1, b)
    case RRB => (Buffers.ReverseRotate(b).0, a, Buffers.ReverseRotate(b).1)
    case RRR => (Buffers.ReverseRotate(b).0, Buffers.ReverseRotate(a).1, Buffers.ReverseRotate(b).1)
  }

  /** `apply(move)`: runs the move and records it exactly when its status is true. */
  function Apply(s: Stack, m: Move): (res: (bool, Stack))
    ensures var (ok, a', b') := Step(s.a, s.b, m);
            res.0 == ok && res.1.a == a' && res.1.b == b'
            && res.1.moves == (if ok then s.moves + [m] else s.moves)
            && res.1.chunk == s.chunk && res.1.prevChunkNum == s.prevChunkNum
            && res.1.heuristic == s.heuristic
  {
    var (ok, a', b') := Step(s.a, s.b, m);
    (ok, s.(a := a', b := b', moves := if ok then s.moves + [m] else s.moves))
  }

  /** PA moves B's head onto A and PB moves A's head onto B, failing exactly when the source is
      empty or the destination full. */
  lemma PushMoves(a: Buffer, b: Buffer)
    requires Buffers.Valid(a) && Buffers.Valid(b)
    ensures var (ok, a', b') := Step(a, b, PA);
            (ok <==> |b.items| > 0 && |a.items| < a.capacity)
            && (ok ==> a'.items == [b.items[0]] + a.items && b'.items == b.items[1..])
    ensures var (ok, a', b') := Step(a, b, PB);
            (ok <==> |a.items| > 0 && |b.items| < b.capacity)
            && (ok ==> b'.items == [a.items[0]] + b.items && a'.items == a.items[1..])
  {
  }

  /** A failed single-stack move changes nothing; for SS, RR and RRR a failure on B leaves the
      A-side operation applied (the move is then not recorded). */
  lemma FailedStep(a: Buffer, b: Buffer, m: Move)
    requires !Step(a, b, m).0
    ensures !IsDuo(m) ==> Step(a, b, m).1 == a && Step(a, b, m).2 == b
    ensures IsDuo(m) ==> Step(a, b, m).2 == b && |b.items| <= 1
  {
  }

  /** An instance of the second case: SS on A = [2, 1] with B empty swaps A yet reports failure. */
  lemma DuoFailureStillChangesA()
    ensures var a := Buffers.Buffer(2, [2, 1]);
            var b := Buffers.Buffer(2, []);
            var (ok, a', _) := Step(a, b, SS);
            !ok && a'.items == [1, 2]
  {
  }

  /** `a'` and `b'` keep the capacities and validity of `a` and `b` and hold the same values
      between them. */
  predicate Conserved(a: Buffer, b: Buffer, a': Buffer, b': Buffer) {
    && Buffers.Valid(a') && Buffers.Valid(b')
    && a'.capacity == a.capacity && b'.capacity == b.capacity
    && multiset(a'.items) + multiset(b'.items) == multiset(a.items) + multiset(b.items)
  }

  /** Every move keeps both capacity bounds and the combined multiset of the two stacks. */
  lemma StepConserves(a: Buffer, b: Buffer, m: Move)
    requires Buffers.Valid(a) && Buffers.Valid(b)
    ensures var (_, a', b') := Step(a, b, m);
            Buffers.Valid(a') && Buffers.Valid(b')
            && a'.capacity == a.capacity && b'.capacity == b.capacity
            && multiset(a'.items) + multiset(b'.items) == multiset(a.items) + multiset(b.items)
  {
    if m == SA || m == SB || m == SS {
      SwapsConserve(a, b, m);
    } else if m == PA || m == PB {
      PushesConserve(a, b, m);
    } else {
      RotationsConserve(a, b, m);
    }
  }

  /** The swap case of StepConserves. */
  lemma SwapsConserve(a: Buffer, b: Buffer, m: Move)
    requires Buffers.Valid(a) && Buffers.Valid(b) && (m == SA || m == SB || m == SS)
    ensures Conserved(a, b, Step(a, b, m).1, Step(a, b, m).2)
  {
    Buffers.OperationsKeepValid(a, b, 0);
    Buffers.OperationsKeepValid(b, a, 0);
    Buffers.SwapPermutes(a);
    Buffers.SwapPermutes(b);
  }

  /** The push case of StepConserves. */
  lemma PushesConserve(a: Buffer, b: Buffer, m: Move)
    requires Buffers.Valid(a) && Buffers.Valid(b) && (m == PA || m == PB)
    ensures Conserved(a, b, Step(a, b, m).1, Step(a, b, m).2)
  {
    if m == PA {
      PushKeeps(b, a);
      var (_, b', a') := Buffers.Push(b, a);
      assert multiset(b'.items) + multiset(a'.items) == multiset(a'.items) + multiset(b'.items);
      assert multiset(b.items) + multiset(a.items) == multiset(a.items) + multiset(b.items);
      assert Step(a, b, m) == (Buffers.Push(b, a).0, a', b');
    } else {
      PushKeeps(a, b);
      assert Step(a, b, m) == Buffers.Push(a, b);
    }
  }

  /** A push between two valid buffers keeps both valid, keeps their capacities and keeps the
      combined multiset. */
  lemma PushKeeps(x: Buffer, y: Buffer)
    requires Buffers.Valid(x) && Buffers.Valid(y)
    ensures var (_, x', y') := Buffers.Push(x, y);
            Conserved(x, y, x', y')
  {
    Buffers.OperationsKeepValid(x, y, 0);
    Buffers.PushConserves(x, y);
  }

  /** The rotation case of StepConserves. */
  lemma RotationsConserve(a: Buffer, b: Buffer, m: Move)
    requires Buffers.Valid(a) && Buffers.Valid(b)
    requires m == RA || m == RB || m == RR || m == RRA || m == RRB || m == RRR
    ensures Conserved(a, b, Step(a, b, m).1, Step(a, b, m).2)
  {
    RotationKeeps(a);
    RotationKeeps(b);
    if m == RA || m == RRA {
      RotationsOfAConserve(a, b, m);
    } else if m == RB || m == RRB {
      RotationsOfBConserve(a, b, m);
    } else {
      RotationsOfBothConserve(a, b, m);
    }
  }

  /** Either rotation of one buffer keeps it valid, keeps its capacity and permutes it. */
  lemma RotationKeeps(x: Buffer)
    requires Buffers.Valid(x)
    ensures Buffers.Valid(Buffers.Rotate(x).1) && Buffers.Valid(Buffers.ReverseRotate(x).1)
    ensures Buffers.Rotate(x).1.capacity == x.capacity && Buffers.ReverseRotate(x).1.capacity == x.capacity
    ensures multiset(Buffers.Rotate(x).1.items) == multiset(x.items)
    ensures multiset(Buffers.ReverseRotate(x).1.items) == multiset(x.items)
  {
    Buffers.OperationsKeepValid(x, x, 0);
    Buffers.RotatePermutes(x);
  }

  /** RA and RRA touch only A. */
  lemma RotationsOfAConserve(a: Buffer, b: Buffer, m: Move)
    requires Buffers.Valid(a) && Buffers.Valid(b) && (m == RA || m == RRA)
    requires Buffers.Valid(Buffers.Rotate(a).1) && Buffers.Valid(Buffers.ReverseRotate(a).1)
    requires Buffers.Rotate(a).1.capacity == a.capacity && Buffers.ReverseRotate(a).1.capacity == a.capacity
    requires multiset(Buffers.Rotate(a).1.items) == multiset(a.items)
    requires multiset(Buffers.ReverseRotate(a).1.items) == multiset(a.items)
    ensures Conserved(a, b, Step(a, b, m).1, Step(a, b, m).2)
  {
    if m == RA {
      assert Step(a, b, m).1 == Buffers.Rotate(a).1 && Step(a, b, m).2 == b;
    } else {
      assert Step(a, b, m).1 == Buffers.ReverseRotate(a).1 && Step(a, b, m).2 == b;
    }
  }

  /** RB and RRB touch only B. */
  lemma RotationsOfBConserve(a: Buffer, b: Buffer, m: Move)
    requires Buffers.Valid(a) && Buffers.Valid(b) && (m == RB || m == RRB)
    requires Buffers.Valid(Buffers.Rotate(b).1) && Buffers.Valid(Buffers.ReverseRotate(b).1)
    requires Buffers.Rotate(b).1.capacity == b.capacity && Buffers.ReverseRotate(b).1.capacity == b.capacity
    requires multiset(Buffers.Rotate(b).1.items) == multiset(b.items)
    requires multiset(Buffers.ReverseRotate(b).1.items) == multiset(b.items)
    ensures Conserved(a, b, Step(a, b, m).1, Step(a, b, m).2)
  {
    if m == RB {
      assert Step(a, b, m).1 == a && Step(a, b, m).2 == Buffers.Rotate(b).1;
    } else {
      assert Step(a, b, m).1 == a && Step(a, b, m).2 == Buffers.ReverseRotate(b).1;
    }
  }

  /** RR and RRR rotate both buffers the same way. */
  lemma RotationsOfBothConserve(a: Buffer, b: Buffer, m: Move)
    requires Buffers.Valid(a) && Buffers.Valid(b) && (m == RR || m == RRR)
    requires Buffers.Valid(Buffers.Rotate(a).1) && Buffers.Valid(Buffers.ReverseRotate(a).1)
    requires Buffers.Rotate(a).1.capacity == a.capacity && Buffers.ReverseRotate(a).1.capacity == a.capacity
    requires multiset(Buffers.Rotate(a).1.items) == multiset(a.items)
    requires multiset(Buffers.ReverseRotate(a).1.items) == multiset(a.items)
    requires Buffers.Valid(Buffers.Rotate(b).1) && Buffers.Valid(Buffers.ReverseRotate(b).1)
    requires Buffers.Rotate(b).1.capacity == b.capacity && Buffers.ReverseRotate(b).1.capacity == b.capacity
    requires multiset(Buffers.Rotate(b).1.items) == multiset(b.items)
    requires multiset(Buffers.ReverseRotate(b).1.items) == multiset(b.items)
    ensures Conserved(a, b, Step(a, b, m).1, Step(a, b, m).2)
  {
    if m == RR {
      assert Step(a, b, m).1 == Buffers.Rotate(a).1 && Step(a, b, m).2 == Buffers.Rotate(b).1;
    } else {
      assert Step(a, b, m).1 == Buffers.ReverseRotate(a).1 && Step(a, b, m).2 == Buffers.ReverseRotate(b).1;
    }
  }

  /** Every successful move is undone by its inverse, which then succeeds too. */
  lemma StepInverse(a: Buffer, b: Buffer, m: Move)
    requires Buffers.Valid(a) && Buffers.Valid(b)
    requires Step(a, b, m).0
    ensures var (_, a', b') := Step(a, b, m);
            Step(a', b', Inverse(m)) == (true, a, b)
  {
    InversePairs();
    if m == SA || m == SB || m == SS {
      SwapsUndone(a, b, m);
    } else if m == PA || m == PB {
      PushesUndone(a, b, m);
    } else {
      RotationsUndone(a, b, m);
    }
  }

  /** The swap case of StepInverse. */
  lemma SwapsUndone(a: Buffer, b: Buffer, m: Move)
    requires Step(a, b, m).0 && (m == SA || m == SB || m == SS) && Inverse(m) == m
    ensures Step(Step(a, b, m).1, Step(a, b, m).2, m) == (true, a, b)
  {
    Buffers.SwapInvolution(a);
    Buffers.SwapInvolution(b);
  }

  /** The push case of StepInverse. */
  lemma PushesUndone(a: Buffer, b: Buffer, m: Move)
    requires Buffers.Valid(a) && Buffers.Valid(b) && Step(a, b, m).0
    requires (m == PA && Inverse(m) == PB) || (m == PB && Inverse(m) == PA)
    ensures Step(Step(a, b, m).1, Step(a, b, m).2, Inverse(m)) == (true, a, b)
  {
    if m == PA {
      Buffers.PushInverse(b, a);
    } else {
      Buffers.PushInverse(a, b);
    }
  }

  /** The rotation case of StepInverse. */
  lemma RotationsUndone(a: Buffer, b: Buffer, m: Move)
    requires Step(a, b, m).0
    requires || (m == RA && Inverse(m) == RRA) || (m == RRA && Inverse(m) == RA)
             || (m == RB && Inverse(m) == RRB) || (m == RRB && Inverse(m) == RB)
             || (m == RR && Inverse(m) == RRR) || (m == RRR && Inverse(m) == RR)
    ensures Step(Step(a, b, m).1, Step(a, b, m).2, Inverse(m)) == (true, a, b)
  {
    if m == RA || m == RRA {
      RotationsOfAUndone(a, b);
    } else if m == RB || m == RRB {
      RotationsOfBUndone(a, b);
    } else {
      RotationsOfBothUndone(a, b);
    }
  }

  /** RA and RRA undo each other. */
  lemma RotationsOfAUndone(a: Buffer, b: Buffer)
    requires |a.items| > 1
    ensures Step(Step(a, b, RA).1, Step(a, b, RA).2, RRA) == (true, a, b)
    ensures Step(Step(a, b, RRA).1, Step(a, b, RRA).2, RA) == (true, a, b)
  {
    Buffers.RotateInverse(a);
  }

  /** RB and RRB undo each other. */
  lemma RotationsOfBUndone(a: Buffer, b: Buffer)
    requires |b.items| > 1
    ensures Step(Step(a, b, RB).1, Step(a, b, RB).2, RRB) == (true, a, b)
    ensures Step(Step(a, b, RRB).1, Step(a, b, RRB).2, RB) == (true, a, b)
  {
    Buffers.RotateInverse(b);
  }

  /** RR and RRR undo each other; on an A of one element or fewer, both leave A alone. */
  lemma RotationsOfBothUndone(a: Buffer, b: Buffer)
    requires |b.items| > 1
    ensures Step(Step(a, b, RR).1, Step(a, b, RR).2, RRR) == (true, a, b)
    ensures Step(Step(a, b, RRR).1, Step(a, b, RRR).2, RR) == (true, a, b)
  {
    Buffers.RotateInverse(a);
    Buffers.RotateInverse(b);
  }

  /** Replays `moves` from the buffers `a` and `b`; `None` as soon as a move reports failure. */
  function Run(a: Buffer, b: Buffer, moves: seq<Move>): Option<(Buffer, Buffer)>
    decreases |moves|
  {
    if |moves| == 0 then Some((a, b))
    else
      var (ok, a', b') := Step(a, b, moves[0]);
      if !ok then None else Run(a', b', moves[1..])
  }

  /** Replaying a single move is one step. */
  lemma RunSingle(a: Buffer, b: Buffer, m: Move)
    ensures Run(a, b, [m]) == if Step(a, b, m).0 then Some((Step(a, b, m).1, Step(a, b, m).2)) else None
  {
    assert [m][1..] == [];
  }

  /** Replaying two moves is two steps. */
  lemma RunPair(a: Buffer, b: Buffer, m: Move, n: Move)
    requires Step(a, b, m).0
    ensures Run(a, b, [m, n]) == Run(Step(a, b, m).1, Step(a, b, m).2, [n])
  {
    assert [m, n][1..] == [n];
  }

  /** Replaying one more move is replaying the prefix and then stepping. */
  lemma {:induction false} RunAppend(a: Buffer, b: Buffer, moves: seq<Move>, m: Move)
    ensures Run(a, b, moves + [m]) ==
            match Run(a, b, moves)
            case None => None
            case Some((x, y)) =>
              var (ok, x', y') := Step(x, y, m);
              if ok then Some((x', y')) else None
    decreases |moves|
  {
    if |moves| > 0 {
      var (ok, a', b') := Step(a, b, moves[0]);
      assert (moves + [m])[0] == moves[0];
      assert (moves + [m])[1..] == moves[1..] + [m];
      if ok {
        RunAppend(a', b', moves[1..], m);
      }
    }
  }

  /** Replaying `xs + ys` is replaying `xs` and then `ys` from where it ended. */
  lemma {:induction false} RunConcat(a: Buffer, b: Buffer, xs: seq<Move>, ys: seq<Move>)
    ensures Run(a, b, xs + ys) ==
            match Run(a, b, xs)
            case None => None
            case Some((x, y)) => Run(x, y, ys)
    decreases |xs|
  {
    if |xs| == 0 {
      assert xs + ys == ys;
    } else {
      var (ok, a', b') := Step(a, b, xs[0]);
      assert (xs + ys)[0] == xs[0];
      assert (xs + ys)[1..] == xs[1..] + ys;
      if ok {
        RunConcat(a', b', xs[1..], ys);
      }
    }
  }

  /** A successful replay keeps the capacity bounds and the combined multiset. */
  lemma {:induction false} RunConserves(a: Buffer, b: Buffer, moves: seq<Move>)
    requires Buffers.Valid(a) && Buffers.Valid(b)
    requires Run(a, b, moves).Some?
    ensures var (x, y) := Run(a, b, moves).value;
            Buffers.Valid(x) && Buffers.Valid(y)
            && x.capacity == a.capacity && y.capacity == b.capacity
            && multiset(x.items) + multiset(y.items) == multiset(a.items) + multiset(b.items)
    decreases |moves|
  {
    if |moves| > 0 {
      var (ok, a', b') := Step(a, b, moves[0]);
      StepConserves(a, b, moves[0]);
      RunConserves(a', b', moves[1..]);
    }
  }

  /** `t` descends from `s`: its history extends `s`'s and replaying the extra moves from `s`'s
      buffers yields `t`'s buffers. */
  predicate Reaches(s: Stack, t: Stack) {
    && |s.moves| <= |t.moves|
    && t.moves[..|s.moves|] == s.moves
    && Run(s.a, s.b, t.moves[|s.moves|..]) == Some((t.a, t.b))
  }

  lemma ReachesRefl(s: Stack)
    ensures Reaches(s, s)
  {
    assert s.moves[|s.moves|..] == [];
  }

  /** A recorded move extends the descent by one step. */
  lemma ReachesApply(s: Stack, t: Stack, m: Move)
    requires Reaches(s, t)
    requires Apply(t, m).0 || !IsDuo(m)
    ensures Reaches(s, Apply(t, m).1)
  {
    var (ok, t') := Apply(t, m);
    if ok {
      var extra := t.moves[|s.moves|..];
      assert t'.moves[|s.moves|..] == extra + [m];
      assert t'.moves[..|s.moves|] == s.moves;
      RunAppend(s.a, s.b, extra, m);
    } else {
      FailedStep(t.a, t.b, m);
    }
  }

  lemma ReachesTrans(s: Stack, t: Stack, u: Stack)
    requires Reaches(s, t) && Reaches(t, u)
    ensures Reaches(s, u)
  {
    var xs := t.moves[|s.moves|..];
    var ys := u.moves[|t.moves|..];
    assert u.moves[..|t.moves|] == t.moves;
    assert u.moves[..|s.moves|] == t.moves[..|s.moves|];
    assert u.moves[|s.moves|..] == xs + ys;
    RunConcat(s.a, s.b, xs, ys);
  }

  /** Descent keeps the capacity bounds and the combined multiset of the stacks. */
  lemma ReachesConserves(s: Stack, t: Stack)
    requires Valid(s) && Reaches(s, t)
    ensures Valid(t) && t.a.capacity == s.a.capacity && t.b.capacity == s.b.capacity
    ensures multiset(t.a.items) + multiset(t.b.items) == multiset(s.a.items) + multiset(s.b.items)
  {
    RunConserves(s.a, s.b, t.moves[|s.moves|..]);
  }
}

=== FILE: mixed_heuristic.dfy ===
/** `MixedHeuristic`: the estimate used while the chunk is pulled back onto A. It adds the
    inversions of A's ascending chunk prefix, the descending-order inversions among B's chunk
    values, and the cheaper of the next push or pull. */
module MixedHeuristic {
  import opened Ints
  import opened Sorting
  import opened Chunks
  import HeuristicUtil
  import Machine

  /** The loop of `contiguousAscendingPrefixLen` from position `k`, with `last` the previous
      element or the `Int.MIN_VALUE` sentinel before the first. */
  function PrefixFrom(a: seq<Int32>, c: Chunk, limit: nat, k: nat, last: Int32): (p: nat)
    requires k <= |a| && k <= limit
    requires forall i :: 0 <= i < k ==> Contains(c, a[i])
    requires Ascending(a[..k])
    requires k == 0 ==> last == INT_MIN
    requires k > 0 ==> last == a[k - 1]
    ensures k <= p <= |a| && p <= limit
    ensures forall i :: 0 <= i < p ==> Contains(c, a[i])
    ensures Ascending(a[..p])
    ensures p < |a| && p < limit ==> !Contains(c, a[p]) || (p > 0 && a[p] < a[p - 1])
    decreases |a| - k
  {
    if k < |a| && k < limit then
      var v := a[k];
      if !Contains(c, v) then k
      else if last != INT_MIN && v < last then k
      else
        assert a[..k + 1] == a[..k] + [v];
        PrefixFrom(a, c, limit, k + 1, v)
    else k
  }

  /** `contiguousAscendingPrefixLen`: the longest prefix of A, at most `chunkSize` long, of chunk
      values in ascending order. */
  function PrefixLen(a: seq<Int32>, c: Chunk, chunkSize: nat): (p: nat)
    ensures p <= |a| && p <= chunkSize
    ensures forall i :: 0 <= i < p ==> Contains(c, a[i])
    ensures Ascending(a[..p])
    ensures p < |a| && p < chunkSize ==> !Contains(c, a[p]) || (p > 0 && a[p] < a[p - 1])
  {
    PrefixFrom(a, c, chunkSize, 0, INT_MIN)
  }

  /** A prefix that is exactly the chunk's values in ascending order is recognised in full. */
  lemma PrefixLenOfSortedChunk(a: seq<Int32>, c: Chunk)
    requires |c.values| <= |a| && a[..|c.values|] == c.values
    requires Ascending(c.values)
    requires forall i :: 0 <= i < |c.values| ==> Contains(c, c.values[i])
    ensures PrefixLen(a, c, |c.values|) == |c.values|
  {
  }

  /** `prefixInversions`: the descending pairs within the first `prefixLen` elements of A. */
  function PrefixInversions(a: seq<Int32>, prefixLen: nat): nat
    requires prefixLen <= |a|
  {
    if prefixLen <= 1 then 0 else HeuristicUtil.Score(a[..prefixLen], false)
  }

  /** The prefix the heuristic measures is ascending by construction, so this term is always 0. */
  lemma PrefixInversionsVanish(a: seq<Int32>, c: Chunk, chunkSize: nat)
    ensures PrefixInversions(a, PrefixLen(a, c, chunkSize)) == 0
  {
    var p := PrefixLen(a, c, chunkSize);
    HeuristicUtil.ScoreZeroIffSorted(a[..p]);
  }

  /** The inner loop of `descendingInversionsB`: the chunk values after `x` that exceed it. */
  function ChunkAfter(x: int, t: seq<Int32>, c: Chunk): nat
    decreases |t|
  {
    if |t| == 0 then 0
    else (if Contains(c, t[0]) && x < t[0] then 1 else 0) + ChunkAfter(x, t[1..], c)
  }

  /** The outer loop of `descendingInversionsB`: pairs `i < j` of chunk values with `b[i] < b[j]`. */
  function ChunkPairs(b: seq<Int32>, c: Chunk): nat
    decreases |b|
  {
    if |b| == 0 then 0
    else (if Contains(c, b[0]) then ChunkAfter(b[0], b[1..], c) else 0) + ChunkPairs(b[1..], c)
  }

  /** `descendingInversionsB`. */
  function DescendingInversionsB(b: seq<Int32>, c: Chunk): nat
  {
    if |b| <= 1 then 0 else ChunkPairs(b, c)
  }

  lemma {:induction false} ChunkAfterIsCount(x: int, t: seq<Int32>, c: Chunk)
    ensures ChunkAfter(x, t, c) == HeuristicUtil.CountAfter(x, Filter(t, c), true)
    decreases |t|
  {
    if |t| > 0 {
      ChunkAfterIsCount(x, t[1..], c);
      if Contains(c, t[0]) {
        HeuristicUtil.CountAfterCons(x, t[0], Filter(t[1..], c), true);
      }
    }
  }

  lemma {:induction false} ChunkPairsIsScore(b: seq<Int32>, c: Chunk)
    ensures ChunkPairs(b, c) == HeuristicUtil.Score(Filter(b, c), true)
    decreases |b|
  {
    if |b| > 0 {
      ChunkPairsIsScore(b[1..], c);
      if Contains(c, b[0]) {
        var f := Filter(b[1..], c);
        assert Filter(b, c) == [b[0]] + f;
        assert ([b[0]] + f)[1..] == f;
        ChunkAfterIsCount(b[0], b[1..], c);
      }
    }
  }

  /** B's term is the reversed inversion count of B's chunk values, and it is 0 exactly when
      those values are in descending order. */
  lemma DescendingInversionsBIsScore(b: seq<Int32>, c: Chunk)
    ensures DescendingInversionsB(b, c) == HeuristicUtil.Score(Filter(b, c), true)
    ensures DescendingInversionsB(b, c) == 0 <==> Descending(Filter(b, c))
  {
    ChunkPairsIsScore(b, c);
    HeuristicUtil.ScoreZeroIffSorted(Filter(b, c));
    if |b| <= 1 {
      assert |Filter(b, c)| <= 1;
      assert HeuristicUtil.Score(Filter(b, c), true) == 0 by {
        if |Filter(b, c)| == 1 {
          assert Filter(b, c)[1..] == [];
        }
      }
    }
  }

  /** The position in B where `v` would be inserted: the first element below it, or B's size. */
  function InsertPos(b: seq<Int32>, v: int): (j: nat)
    ensures j <= |b|
    ensures forall k :: 0 <= k < j ==> b[k] >= v
    ensures j < |b| ==> b[j] < v
  {
    if |b| == 0 then 0 else if b[0] < v then 0 else 1 + InsertPos(b[1..], v)
  }

  /** The cost of pushing A's element at `i` to B's position `j`: the cheapest of the four
      rotation plans (both forward, both backward, A forward and B backward, A backward and B
      forward), plus the push. */
  function PushCandidate(sizeA: nat, i: nat, sizeB: nat, j: nat): (r: int)
    requires i <= sizeA && j <= sizeB
    ensures 1 <= r <= Max(i, j) + 1 && r <= Max(sizeA - i, sizeB - j) + 1
    ensures r <= i + sizeB - j + 1 && r <= sizeA - i + j + 1
  {
    Min(Min(Max(i, j), Max(sizeA - i, sizeB - j)), Min(i + sizeB - j, sizeA - i + j)) + 1
  }

  function PushCost(a: seq<Int32>, b: seq<Int32>, i: nat): int
    requires i < |a|
  {
    PushCandidate(|a|, i, |b|, InsertPos(b, a[i]))
  }

  /** The loop of `candidatePushCost` from index `i`, keeping the smallest candidate in `best`. */
  function MinPushFrom(a: seq<Int32>, b: seq<Int32>, c: Chunk, i: nat, best: int): (r: int)
    ensures r <= best
    ensures r == best || exists k :: i <= k < |a| && Contains(c, a[k]) && r == PushCost(a, b, k)
    ensures forall k :: i <= k < |a| && Contains(c, a[k]) ==> r <= PushCost(a, b, k)
    decreases |a| - i
  {
    if i >= |a| then best
    else
      var next := if Contains(c, a[i]) && PushCost(a, b, i) < best then PushCost(a, b, i) else best;
      MinPushFrom(a, b, c, i + 1, next)
  }

  /** `candidatePushCost`: -1 once the prefix holds the whole chunk or when no chunk value lies
      past the prefix in A, else the cheapest push of such a value. */
  function CandidatePushCost(a: seq<Int32>, b: seq<Int32>, c: Chunk, prefixLen: nat, chunkSize: nat)
    : (r: int)
    ensures r == -1 || r >= 1
    ensures prefixLen >= chunkSize ==> r == -1
    ensures r >= 1 ==> exists k :: prefixLen <= k < |a| && Contains(c, a[k]) && r == PushCost(a, b, k)
    ensures r >= 1 ==> forall k :: prefixLen <= k < |a| && Contains(c, a[k]) ==> r <= PushCost(a, b, k)
    ensures r == -1 && prefixLen < chunkSize ==>
      forall k :: prefixLen <= k < |a| && Contains(c, a[k]) ==> PushCost(a, b, k) >= INT_MAX
  {
    if prefixLen >= chunkSize then -1
    else
      var m := MinPushFrom(a, b, c, prefixLen, INT_MAX);
      if m == INT_MAX then -1 else m
  }

  /** The cost of pulling B's element at `k`: the shorter rotation to B's head, the push, and one
      more when the value would land below the top of A's prefix. */
  function PullCost(b: seq<Int32>, k: nat, prefixLen: nat, prefixMax: int): int
    requires k < |b|
  {
    Min(k, |b| - k) + 1 + (if prefixLen > 0 && b[k] < prefixMax then 1 else 0)
  }

  /** The loop of `candidatePullCost` from index `k`. */
  function MinPullFrom(b: seq<Int32>, c: Chunk, k: nat, best: int, prefixLen: nat, prefixMax: int)
    : (r: int)
    ensures r <= best
    ensures r == best || exists j :: k <= j < |b| && Contains(c, b[j]) && r == PullCost(b, j, prefixLen, prefixMax)
    ensures forall j :: k <= j < |b| && Contains(c, b[j]) ==> r <= PullCost(b, j, prefixLen, prefixMax)
    decreases |b| - k
  {
    if k >= |b| then best
    else
      var cand := PullCost(b, k, prefixLen, prefixMax);
      var next := if Contains(c, b[k]) && cand < best then cand else best;
      MinPullFrom(b, c, k + 1, next, prefixLen, prefixMax)
  }

  /** The prefix's last element, or the `Int.MIN_VALUE` sentinel for an empty prefix. */
  function PrefixMax(a: seq<Int32>, prefixLen: nat): Int32
    requires prefixLen <= |a|
  {
    if prefixLen > 0 then a[prefixLen - 1] else INT_MIN
  }

  /** `candidatePullCost`: -1 for an empty B or one without chunk values, else the cheapest pull.
      The prefix length is at most A's size, as its one caller guarantees. */
  function CandidatePullCost(a: seq<Int32>, b: seq<Int32>, c: Chunk, prefixLen: nat): (r: int)
    requires prefixLen <= |a|
    ensures r == -1 || r >= 1
    ensures (forall j :: 0 <= j < |b| ==> !Contains(c, b[j])) ==> r == -1
    ensures |b| <= INT_MAX && (exists j :: 0 <= j < |b| && Contains(c, b[j])) ==> r >= 1
    ensures r >= 1 ==> exists j :: 0 <= j < |b| && Contains(c, b[j]) && r == PullCost(b, j, prefixLen, PrefixMax(a, prefixLen))
    ensures r >= 1 ==> forall j :: 0 <= j < |b| && Contains(c, b[j]) ==> r <= PullCost(b, j, prefixLen, PrefixMax(a, prefixLen))
  {
    if |b| == 0 then -1
    else
      var m := MinPullFrom(b, c, 0, INT_MAX, prefixLen, PrefixMax(a, prefixLen));
      if m == INT_MAX then -1 else m
  }

  /** `nextCost`: the least of the candidates that exist (are non-negative), 0 when neither does. */
  function NextCost(pushCost: int, pullCost: int): (r: int)
    ensures r >= 0
    ensures pushCost >= 0 ==> r <= pushCost
    ensures pullCost >= 0 ==> r <= pullCost
    ensures pushCost < 0 && pullCost < 0 ==> r == 0
    ensures pushCost >= 0 || pullCost >= 0 ==> r == pushCost || r == pullCost
  {
    if pushCost >= 0 && pullCost >= 0 then Min(pushCost, pullCost)
    else if pushCost >= 0 then pushCost
    else if pullCost >= 0 then pullCost
    else 0
  }

  /** `calculate`. */
  function Calculate(s: Machine.Stack): (r: int)
    ensures r >= 0
    ensures |s.b.items| == 0 && PrefixLen(s.a.items, s.chunk, |s.chunk.values|) == |s.chunk.values| ==> r == 0
  {
    var a := s.a.items;
    var b := s.b.items;
    var chunkSize := |s.chunk.values|;
    var prefixLen := PrefixLen(a, s.chunk, chunkSize);
    if |b| == 0 && prefixLen == chunkSize then 0
    else
      var next := NextCost(CandidatePushCost(a, b, s.chunk, prefixLen, chunkSize),
                           CandidatePullCost(a, b, s.chunk, prefixLen));
      PrefixInversions(a, prefixLen) + DescendingInversionsB(b, s.chunk) + next
  }

  /** The goal of the pull phase — B empty and A headed by the chunk's values in ascending
      order — has estimate 0. */
  lemma CalculateAtGoal(s: Machine.Stack)
    requires |s.b.items| == 0
    requires |s.chunk.values| <= |s.a.items| && s.a.items[..|s.chunk.values|] == s.chunk.values
    requires Ascending(s.chunk.values)
    requires forall i :: 0 <= i < |s.chunk.values| ==> Contains(s.chunk, s.chunk.values[i])
    ensures Calculate(s) == 0
  {
    PrefixLenOfSortedChunk(s.a.items, s.chunk);
  }

  /** An estimate of 0 means no chunk value is left in B and, unless the prefix is complete, none
      lies past the prefix in A. */
  lemma CalculateZero(s: Machine.Stack)
    requires |s.a.items| + |s.b.items| + 2 < INT_MAX
    requires Calculate(s) == 0
    ensures forall j :: 0 <= j < |s.b.items| ==> !Contains(s.chunk, s.b.items[j])
    ensures var p := PrefixLen(s.a.items, s.chunk, |s.chunk.values|);
      p < |s.chunk.values| ==> forall k :: p <= k < |s.a.items| ==> !Contains(s.chunk, s.a.items[k])
  {
    var a := s.a.items;
    var b := s.b.items;
    var n := |s.chunk.values|;
    var p := PrefixLen(a, s.chunk, n);
    var push := CandidatePushCost(a, b, s.chunk, p, n);
    var pull := CandidatePullCost(a, b, s.chunk, p);
    if !(|b| == 0 && p == n) {
      PrefixInversionsVanish(a, s.chunk, n);
      assert NextCost(push, pull) == 0;
      assert pull == -1;
      assert p < n ==> forall k :: p <= k < |a| ==> !Contains(s.chunk, a[k]);
    }
  }
}

=== FILE: moves.dfy ===
/** The eleven push_swap instructions, their declaration order, inverse map and named subsets. */
module Moves {
  import opened Wrappers

  datatype Move = SA | SB | SS | PA | PB | RA | RB | RR | RRA | RRB | RRR

  /** `Move.entries`: the moves in declaration order. */
  const Entries: seq<Move> := [SA, SB, SS, PA, PB, RA, RB, RR, RRA, RRB, RRR]

  /** The position of `m` in the declaration (`Move.ordinal`). */
  function Ordinal(m: Move): (r: nat)
    ensures r < |Entries| && Entries[r] == m
  {
    match m
    case SA => 0 case SB => 1 case SS => 2 case PA => 3 case PB => 4 case RA => 5
    case RB => 6 case RR => 7 case RRA => 8 case RRB => 9 case RRR => 10
  }

  /** `Move.entries[k]`, which throws for an index outside the enumeration. */
  function FromOrdinal(k: int): (r: Option<Move>)
    ensures r.Some? <==> 0 <= k < |Entries|
    ensures r.Some? ==> Ordinal(r.value) == k
  {
    if 0 <= k < |Entries| then Some(Entries[k]) else None
  }

  /** Decoding an ordinal gives back the move. */
  lemma OrdinalRoundTrip(m: Move)
    ensures FromOrdinal(Ordinal(m)) == Some(m)
  {
  }

  const InverseMap: map<Move, Move> :=
    map[SA := SA, SB := SB, SS := SS, PA := PB, PB := PA, RA := RRA, RB := RRB, RR := RRR,
        RRA := RA, RRB := RB, RRR := RR]

  /** `inverseMap[this] ?: error(..)`: `None` models the error for a move the map lacks. */
  function LookupInverse(m: Move): (r: Option<Move>)
    ensures r.Some? <==> m in InverseMap
  {
    if m in InverseMap then Some(InverseMap[m]) else None
  }

  /** The inverse map covers every move, so `inverse()` never reaches its error. */
  lemma InverseTotal(m: Move)
    ensures LookupInverse(m).Some?
  {
    match m
    case SA => case SB => case SS => case PA => case PB => case RA =>
    case RB => case RR => case RRA => case RRB => case RRR =>
  }

  function Inverse(m: Move): Move
  {
    InverseTotal(m);
    LookupInverse(m).value
  }

  /** `inverse` is an involution. */
  lemma InverseInvolution(m: Move)
    ensures Inverse(Inverse(m)) == m
  {
  }

  /** The swaps undo themselves; the pushes and the rotations pair up. */
  lemma InversePairs()
    ensures Inverse(SA) == SA && Inverse(SB) == SB && Inverse(SS) == SS
    ensures Inverse(PA) == PB && Inverse(PB) == PA
    ensures Inverse(RA) == RRA && Inverse(RB) == RRB && Inverse(RR) == RRR
    ensures Inverse(RRA) == RA && Inverse(RRB) == RB && Inverse(RRR) == RR
  {
  }

  /** The moves that act on both stacks at once. */
  const DuoMoves: seq<Move> := [SS, RR, RRR]

  predicate IsDuo(m: Move) { m == SS || m == RR || m == RRR }

  /** `toString`: the lower-case name. */
  function Name(m: Move): (r: string)
    ensures 2 <= |r| <= 3
    ensures forall i :: 0 <= i < |r| ==> 'a' <= r[i] <= 'z'
  {
    match m
    case SA => "sa" case SB => "sb" case SS => "ss" case PA => "pa" case PB => "pb"
    case RA => "ra" case RB => "rb" case RR => "rr" case RRA => "rra" case RRB => "rrb"
    case RRR => "rrr"
  }

  /** Distinct moves print differently, so the textual output can be read back. */
  lemma NameInjective(m1: Move, m2: Move)
    ensures Name(m1) == Name(m2) ==> m1 == m2
  {
  }

  /** The move lists of the push and pull phases of the search. */
  const PushAllowed: seq<Move> := [PB, RA, RB, RR, RRA, RRB, RRR]
  const PullAllowed: seq<Move> := [SB, SS, RA, RB, RR, RRA, RRB, RRR]

  /** `isPush`: the phase is recognised by the first move of the list (`first()` throws on an
      empty list). */
  predicate IsPush(allowed: seq<Move>)
    requires |allowed| > 0
  {
    allowed[0] == PB
  }

  predicate IsPull(allowed: seq<Move>)
    requires |allowed| > 0
  {
    allowed[0] == SB
  }

  /** The push list is recognised as push and not pull; the pull list the other way round; the
      pull list never offers PA and the push list never offers PA or a swap. */
  lemma PhaseLists()
    ensures IsPush(PushAllowed) && !IsPull(PushAllowed)
    ensures IsPull(PullAllowed) && !IsPush(PullAllowed)
    ensures PA !in PullAllowed && PA !in PushAllowed
    ensures SA !in PushAllowed && SB !in PushAllowed && SS !in PushAllowed
  {
  }
}

=== FILE: packed_moves.dfy ===
/** The move history of a search state: moves packed four bits each, sixteen to a 64-bit word.
    A word is modelled as its sixteen 4-bit digits (digit k holds bits 4k..4k+3), so shifting and
    masking become indexing, while the `or` that stores a digit is kept. */
module PackedMoves {
  import opened Wrappers
  import opened Moves

  const BITS_PER_MOVE: nat := 4
  const MOVES_PER_LONG: nat := 16

  const ZeroWord: seq<bv4> := [0, 0, 0, 0, 0, 0, 0, 0, 0, 0, 0, 0, 0, 0, 0, 0]

  datatype PackedMoveList = PackedMoveList(data: seq<seq<bv4>>, size: nat)

  predicate WellShaped(data: seq<seq<bv4>>) {
    forall w :: 0 <= w < |data| ==> |data[w]| == MOVES_PER_LONG
  }

  /** The 4-bit digit holding move `i`: `(data[i / 16] shr ((i % 16) * 4)) and 0xF`. */
  function Digit(data: seq<seq<bv4>>, i: int): bv4
    requires WellShaped(data) && 0 <= i < MOVES_PER_LONG * |data|
  {
    data[i / MOVES_PER_LONG][i % MOVES_PER_LONG]
  }

  /** The class invariant kept by the private constructor's callers: every stored digit is an
      ordinal of the enumeration and every unused digit is still zero. */
  predicate Valid(p: PackedMoveList) {
    && WellShaped(p.data)
    && p.size <= MOVES_PER_LONG * |p.data|
    && (forall i :: 0 <= i < p.size ==> Digit(p.data, i) as int < |Entries|)
    && (forall i :: p.size <= i < MOVES_PER_LONG * |p.data| ==> Digit(p.data, i) == 0)
  }

  /** Two distinct move indices live in distinct digits. */
  lemma DigitPositionsDistinct(i: int, j: int)
    requires 0 <= i && 0 <= j && i != j
    ensures i / MOVES_PER_LONG != j / MOVES_PER_LONG || i % MOVES_PER_LONG != j % MOVES_PER_LONG
  {
    assert i == MOVES_PER_LONG * (i / MOVES_PER_LONG) + i % MOVES_PER_LONG;
    assert j == MOVES_PER_LONG * (j / MOVES_PER_LONG) + j % MOVES_PER_LONG;
  }

  /** `arr[i / 16] = arr[i / 16] or (ord shl ((i % 16) * 4))`. */
  function OrDigit(data: seq<seq<bv4>>, i: int, ord: bv4): (r: seq<seq<bv4>>)
    requires WellShaped(data) && 0 <= i < MOVES_PER_LONG * |data|
    ensures WellShaped(r) && |r| == |data|
    ensures Digit(r, i) == Digit(data, i) | ord
    ensures forall j :: 0 <= j < MOVES_PER_LONG * |data| && j != i ==> Digit(r, j) == Digit(data, j)
  {
    var w := i / MOVES_PER_LONG;
    var k := i % MOVES_PER_LONG;
    var r := data[w := data[w][k := data[w][k] | ord]];
    assert forall j :: 0 <= j < MOVES_PER_LONG * |data| && j != i ==> Digit(r, j) == Digit(data, j) by {
      forall j | 0 <= j < MOVES_PER_LONG * |data| && j != i
        ensures Digit(r, j) == Digit(data, j)
      {
        DigitPositionsDistinct(i, j);
      }
    }
    r
  }

  /** The 4-bit code of a move: its ordinal, which always fits the mask because 11 < 16. */
  function Code(m: Move): (r: bv4)
    ensures r as int == Ordinal(m)
  {
    Ordinal(m) as bv4
  }

  function Decode(d: bv4): (m: Move)
    requires d as int < |Entries|
    ensures Ordinal(m) == d as int
  {
    FromOrdinal(d as int).value
  }

  /** `toList()`: decodes the first `size` digits. */
  function ToList(p: PackedMoveList): (r: seq<Move>)
    requires Valid(p)
    ensures |r| == p.size
    ensures forall i :: 0 <= i < p.size ==> Code(r[i]) == Digit(p.data, i)
  {
    seq(p.size, i requires 0 <= i < p.size && Valid(p) => Decode(Digit(p.data, i)))
  }

  /** `empty()`: one zero word and no moves. */
  function Empty(): (r: PackedMoveList)
    ensures Valid(r) && r.size == 0 && ToList(r) == []
  {
    PackedMoveList([ZeroWord], 0)
  }

  /** `from(moves)`: allocates ceil(n / 16) zero words and ors each move's code into place. */
  method From(moves: seq<Move>) returns (p: PackedMoveList)
    ensures Valid(p)
    ensures p.size == |moves|
    ensures ToList(p) == moves
  {
    var arr := seq((|moves| + MOVES_PER_LONG - 1) / MOVES_PER_LONG, _ => ZeroWord);
    var i := 0;
    while i < |moves|
      invariant 0 <= i <= |moves|
      invariant WellShaped(arr) && |moves| <= MOVES_PER_LONG * |arr|
      invariant forall j :: 0 <= j < i ==> Digit(arr, j) == Code(moves[j])
      invariant forall j :: i <= j < MOVES_PER_LONG * |arr| ==> Digit(arr, j) == 0
    {
      arr := OrDigit(arr, i, Code(moves[i]));
      i := i + 1;
    }
    p := PackedMoveList(arr, |moves|);
    assert forall j :: 0 <= j < |moves| ==> ToList(p)[j] == moves[j] by {
      forall j | 0 <= j < |moves| ensures ToList(p)[j] == moves[j] {
        OrdinalRoundTrip(moves[j]);
      }
    }
  }

  /** `data.copyOf(arrLen)` when more words are needed: the old words followed by zero words. */
  function Grow(data: seq<seq<bv4>>, arrLen: nat): (r: seq<seq<bv4>>)
    requires WellShaped(data)
    ensures WellShaped(r) && |r| == (if arrLen > |data| then arrLen else |data|)
    ensures forall j :: 0 <= j < MOVES_PER_LONG * |data| ==> Digit(r, j) == Digit(data, j)
    ensures forall j :: MOVES_PER_LONG * |data| <= j < MOVES_PER_LONG * |r| ==> Digit(r, j) == 0
  {
    var r := if arrLen > |data| then data + seq(arrLen - |data|, _ => ZeroWord) else data;
    assert forall j :: MOVES_PER_LONG * |data| <= j ==> j / MOVES_PER_LONG >= |data|;
    r
  }

  /** `add(move)`: copies the words (growing by zero words when the new size needs one more),
      then ors the code into digit `size`. */
  function Add(p: PackedMoveList, m: Move): (r: PackedMoveList)
    requires Valid(p)
    ensures Valid(r)
    ensures r.size == p.size + 1
    ensures ToList(r) == ToList(p) + [m]
  {
    var newSize := p.size + 1;
    var arrLen := (newSize + MOVES_PER_LONG - 1) / MOVES_PER_LONG;
    var newArr := Grow(p.data, arrLen);
    var r := PackedMoveList(OrDigit(newArr, p.size, Code(m)), newSize);
    AddKeepsList(p, m, r);
    r
  }

  lemma AddKeepsList(p: PackedMoveList, m: Move, r: PackedMoveList)
    requires Valid(p) && WellShaped(r.data) && r.size == p.size + 1
    requires r.size <= MOVES_PER_LONG * |r.data| && |p.data| <= |r.data|
    requires forall j :: 0 <= j < p.size ==> Digit(r.data, j) == Digit(p.data, j)
    requires Digit(r.data, p.size) == Code(m)
    requires forall j :: r.size <= j < MOVES_PER_LONG * |r.data| ==> Digit(r.data, j) == 0
    ensures Valid(r) && ToList(r) == ToList(p) + [m]
  {
    forall j | 0 <= j < p.size ensures ToList(r)[j] == ToList(p)[j] {
      OrdinalRoundTrip(ToList(p)[j]);
      OrdinalRoundTrip(ToList(r)[j]);
    }
    OrdinalRoundTrip(m);
    OrdinalRoundTrip(ToList(r)[p.size]);
  }

  /** `clone()`: a fresh copy of the words; in this value model the copy is the same value. */
  function Clone(p: PackedMoveList): (r: PackedMoveList)
    requires Valid(p)
    ensures Valid(r) && r.size == p.size && ToList(r) == ToList(p)
  {
    PackedMoveList(p.data, p.size)
  }

  function IsEmpty(p: PackedMoveList): bool { p.size == 0 }

  /** `contains(element)`: a linear scan of the digits. */
  method Contains(p: PackedMoveList, element: Move) returns (found: bool)
    requires Valid(p)
    ensures found <==> element in ToList(p)
  {
    var i := 0;
    while i < p.size
      invariant 0 <= i <= p.size
      invariant element !in ToList(p)[..i]
    {
      var ord := Digit(p.data, i);
      if Decode(ord) == element {
        assert ToList(p)[i] == element by { OrdinalRoundTrip(ToList(p)[i]); }
        return true;
      }
      assert ToList(p)[i] == Decode(ord) by { OrdinalRoundTrip(ToList(p)[i]); }
      assert ToList(p)[..i + 1] == ToList(p)[..i] + [ToList(p)[i]];
      i := i + 1;
    }
    assert ToList(p)[..i] == ToList(p);
    return false;
  }

  /** `containsAll(elements)`. */
  method ContainsAll(p: PackedMoveList, elements: seq<Move>) returns (all: bool)
    requires Valid(p)
    ensures all <==> forall e :: e in elements ==> e in ToList(p)
  {
    var i := 0;
    while i < |elements|
      invariant 0 <= i <= |elements|
      invariant forall k :: 0 <= k < i ==> elements[k] in ToList(p)
    {
      var c := Contains(p, elements[i]);
      if !c { return false; }
      i := i + 1;
    }
    return true;
  }

  /** The anonymous iterator object: the list and the index of the next move. */
  datatype Cursor = Cursor(list: PackedMoveList, idx: nat)

  function Iterator(p: PackedMoveList): Cursor { Cursor(p, 0) }

  function HasNext(c: Cursor): bool { c.idx < c.list.size }

  /** `next()`: the move at the index and the advanced cursor, or the `NoSuchElementException`
      once the moves are exhausted. */
  function Next(c: Cursor): (r: Result<(Move, Cursor)>)
    requires Valid(c.list)
    ensures r.Err? <==> !HasNext(c)
    ensures r.Ok? ==> r.value.0 == ToList(c.list)[c.idx] && r.value.1 == Cursor(c.list, c.idx + 1)
  {
    if !HasNext(c) then Err("NoSuchElementException")
    else
      OrdinalRoundTrip(ToList(c.list)[c.idx]);
      Ok((Decode(Digit(c.list.data, c.idx)), Cursor(c.list, c.idx + 1)))
  }

  /** Everything a cursor yields by calling `next()` while `hasNext()`. */
  function Drain(c: Cursor): seq<Move>
    requires Valid(c.list)
    decreases c.list.size - c.idx
  {
    match Next(c)
    case Err(_) => []
    case Ok((m, c')) => [m] + Drain(c')
  }

  /** A cursor at index `i` yields exactly the moves of `toList()` from `i` on, in order. */
  lemma {:induction false} DrainFrom(c: Cursor)
    requires Valid(c.list) && c.idx <= c.list.size
    ensures Drain(c) == ToList(c.list)[c.idx..]
    decreases c.list.size - c.idx
  {
    if HasNext(c) {
      DrainFrom(Cursor(c.list, c.idx + 1));
    }
  }

  /** The iterator yields the elements of `toList()` in order, and then `next()` fails. */
  lemma IteratorYieldsList(p: PackedMoveList)
    requires Valid(p)
    ensures Drain(Iterator(p)) == ToList(p)
    ensures Next(Cursor(p, p.size)).Err?
  {
    DrainFrom(Iterator(p));
  }

  /** Starting from `empty()` and adding the moves one at a time decodes back to exactly those
      moves. */
  lemma {:induction false} AddBuildsList(moves: seq<Move>)
    ensures Valid(AddAll(Empty(), moves)) && ToList(AddAll(Empty(), moves)) == moves
  {
    if |moves| > 0 {
      var init, last := moves[..|moves| - 1], moves[|moves| - 1];
      AddBuildsList(init);
      var q := AddAll(Empty(), init);
      assert AddAll(Empty(), moves) == Add(q, last);
      assert ToList(Add(q, last)) == init + [last];
      assert moves == init + [last];
    }
  }

  /** Appending `moves` one `add` at a time. */
  function AddAll(p: PackedMoveList, moves: seq<Move>): (r: PackedMoveList)
    requires Valid(p)
    ensures Valid(r) && r.size == p.size + |moves|
  {
    if |moves| == 0 then p else Add(AddAll(p, moves[..|moves| - 1]), moves[|moves| - 1])
  }
}

=== FILE: push_heuristic.dfy ===
/** `PushHeuristic`: the estimate used while the chunk is pushed from A to B — every chunk value
    still in A costs its push, plus the cheapest rotation that brings one of them to A's head and
    B into position for it. */
module PushHeuristic {
  import opened Ints
  import opened Chunks
  import HeuristicUtil
  import Machine

  /** The rotations for pushing A's element at `idx`: the shorter way round A, plus
      `minRotIdxB` for an occupied B. */
  function RotationCost(a: seq<Int32>, b: seq<Int32>, idx: nat): (r: nat)
    requires idx < |a|
    ensures 2 * r <= |a| + |b|
  {
    Min(idx, |a| - idx) + (if |b| == 0 then 0 else HeuristicUtil.MinRotIdxB(b, a[idx]))
  }

  /** The `forEachIndexed` loop from `idx`, keeping the cheapest rotation cost in `best`. */
  function MinRotationFrom(a: seq<Int32>, b: seq<Int32>, c: Chunk, idx: nat, best: int): (r: int)
    ensures r <= best
    ensures r == best || exists k :: idx <= k < |a| && Contains(c, a[k]) && r == RotationCost(a, b, k)
    ensures forall k :: idx <= k < |a| && Contains(c, a[k]) ==> r <= RotationCost(a, b, k)
    decreases |a| - idx
  {
    if idx >= |a| then best
    else
      var next := if Contains(c, a[idx]) && RotationCost(a, b, idx) < best
                  then RotationCost(a, b, idx) else best;
      MinRotationFrom(a, b, c, idx + 1, next)
  }

  /** `pushPhaseLB`. */
  function PushPhaseLB(s: Machine.Stack): (r: int)
    ensures |s.a.items| == 0 ==> r == (if |s.b.items| != s.b.capacity then INT_MIN else 0)
    ensures |s.a.items| > 0 ==> r >= CountIn(s.a.items, s.chunk)
    ensures |s.a.items| > 0 && CountIn(s.a.items, s.chunk) == 0 ==> r == 0
  {
    var a := s.a.items;
    var b := s.b.items;
    if |a| == 0 then (if |b| != s.b.capacity then INT_MIN else 0)
    else
      var eligible := CountIn(a, s.chunk);
      var minRotationCost := MinRotationFrom(a, b, s.chunk, 0, INT_MAX);
      if eligible == 0 then 0
      else if minRotationCost == INT_MAX then eligible
      else eligible + minRotationCost
  }

  /** `calculate`: `Int.MIN_VALUE` marks an empty A beside a B that is not full. */
  function Calculate(s: Machine.Stack): (r: int)
    ensures r == INT_MIN <==> |s.a.items| == 0 && |s.b.items| != s.b.capacity
    ensures r != INT_MIN ==> r >= 0
  {
    if |s.a.items| == 0 && |s.b.items| != s.b.capacity then INT_MIN else PushPhaseLB(s)
  }

  /** With chunk values in A the estimate is their number plus the least rotation cost among
      them. */
  lemma CalculateIsBound(s: Machine.Stack)
    requires |s.a.items| + |s.b.items| < INT_MAX
    requires exists k :: 0 <= k < |s.a.items| && Contains(s.chunk, s.a.items[k])
    ensures exists k :: (0 <= k < |s.a.items| && Contains(s.chunk, s.a.items[k])
                         && Calculate(s) == CountIn(s.a.items, s.chunk) + RotationCost(s.a.items, s.b.items, k))
    ensures forall k :: (0 <= k < |s.a.items| && Contains(s.chunk, s.a.items[k])
                         ==> Calculate(s) <= CountIn(s.a.items, s.chunk) + RotationCost(s.a.items, s.b.items, k))
  {
    var a := s.a.items;
    var b := s.b.items;
    var k0 :| 0 <= k0 < |a| && Contains(s.chunk, a[k0]);
    var m := MinRotationFrom(a, b, s.chunk, 0, INT_MAX);
    assert m <= RotationCost(a, b, k0) < INT_MAX;
    assert CountIn(a, s.chunk) > 0;
    assert Calculate(s) == PushPhaseLB(s) == CountIn(a, s.chunk) + m;
    var k :| 0 <= k < |a| && Contains(s.chunk, a[k]) && m == RotationCost(a, b, k);
  }

  /** Once A holds no chunk value the push phase's estimate is 0. */
  lemma CalculateDone(s: Machine.Stack)
    requires |s.a.items| > 0
    requires forall k :: 0 <= k < |s.a.items| ==> !Contains(s.chunk, s.a.items[k])
    ensures Calculate(s) == 0
  {
  }
}

=== FILE: replay.dfy ===
/** Straight-line move sequences on a `Stack`: `stack.apply` in a loop, whose statuses the callers
    ignore, and the shortest-direction rotation that brings one position of A to its head, shared
    by `sortFourFive` and `shiftSmallestToTop`. */
module Replay {
  import opened Wrappers
  import opened Ints
  import opened Sorting
  import opened Moves
  import opened Machine
  import Buffers

  /** `repeat(k) { stack.apply(m) }` as a move list. */
  function Repeat(m: Move, k: nat): (r: seq<Move>)
    ensures |r| == k && forall j :: 0 <= j < k ==> r[j] == m
  {
    seq(k, _ => m)
  }

  /** Applies each move in turn, ignoring the statuses. */
  function ApplyAll(s: Stack, ms: seq<Move>): Stack
    decreases |ms|
  {
    if |ms| == 0 then s else ApplyAll(Apply(s, ms[0]).1, ms[1..])
  }

  /** When the replay of `ms` succeeds, applying the moves one by one records all of them and ends
      in the replay's buffers; the state then descends from `s`. */
  lemma {:induction false} ApplyAllRun(s: Stack, ms: seq<Move>)
    requires Run(s.a, s.b, ms).Some?
    ensures var t := ApplyAll(s, ms);
            && (t.a, t.b) == Run(s.a, s.b, ms).value
            && t.moves == s.moves + ms
            && t.chunk == s.chunk && t.prevChunkNum == s.prevChunkNum && t.heuristic == s.heuristic
            && Reaches(s, t)
    decreases |ms|
  {
    if |ms| == 0 {
      ReachesRefl(s);
    } else {
      var s1 := Apply(s, ms[0]).1;
      ApplyAllRun(s1, ms[1..]);
      assert s.moves + [ms[0]] + ms[1..] == s.moves + ms;
      var t := ApplyAll(s, ms);
      assert t.moves[|s.moves|..] == ms;
    }
  }

  /** `k` rotations of A move its first `k` elements to the tail. */
  lemma {:induction false} RunRotations(a: Buffer, b: Buffer, k: nat)
    requires |a.items| >= 2 && k <= |a.items|
    ensures Run(a, b, Repeat(RA, k)) == Some((Buffers.Buffer(a.capacity, a.items[k..] + a.items[..k]), b))
    decreases k
  {
    var x := a.items;
    if k == 0 {
      assert x[0..] + x[..0] == x;
    } else {
      var a1 := Buffers.Buffer(a.capacity, x[1..] + [x[0]]);
      assert Repeat(RA, k)[1..] == Repeat(RA, k - 1);
      RunRotations(a1, b, k - 1);
      assert a1.items[k - 1..] + a1.items[..k - 1] == x[k..] + x[..k];
    }
  }

  /** `k` reverse rotations of A move its last `k` elements to the head. */
  lemma {:induction false} RunReverseRotations(a: Buffer, b: Buffer, k: nat)
    requires |a.items| >= 2 && k <= |a.items|
    ensures var n := |a.items|;
            Run(a, b, Repeat(RRA, k)) == Some((Buffers.Buffer(a.capacity, a.items[n - k..] + a.items[..n - k]), b))
    decreases k
  {
    var x := a.items;
    var n := |x|;
    if k == 0 {
      assert x[n..] + x[..n] == x;
    } else {
      var a1 := Buffers.Buffer(a.capacity, [x[n - 1]] + x[..n - 1]);
      assert Repeat(RRA, k)[1..] == Repeat(RRA, k - 1);
      RunReverseRotations(a1, b, k - 1);
      assert a1.items[n - (k - 1)..] + a1.items[..n - (k - 1)] == x[n - k..] + x[..n - k];
    }
  }

  /** The moves that bring position `i` of an `n`-element A to its head: RA `i` times when `i` is
      in the first half (`i <= n / 2`), otherwise RRA `n - i` times. */
  function RotationMoves(n: nat, i: nat): (r: seq<Move>)
    requires i <= n
    ensures |r| <= n / 2
    ensures forall j :: 0 <= j < |r| ==> r[j] == (if i <= n / 2 then RA else RRA)
  {
    if i <= n / 2 then Repeat(RA, i) else Repeat(RRA, n - i)
  }

  /** The rotation moves bring position `i` to the head, reach it with at most `n / 2` moves and
      leave B alone; the resulting state descends from `s`. */
  lemma RotateToFront(s: Stack, i: nat)
    requires i < |s.a.items|
    ensures var n := |s.a.items|;
            var t := ApplyAll(s, RotationMoves(n, i));
            && t.a == Buffers.Buffer(s.a.capacity, s.a.items[i..] + s.a.items[..i])
            && t.b == s.b
            && t.moves == s.moves + RotationMoves(n, i)
            && t.chunk == s.chunk && t.prevChunkNum == s.prevChunkNum && t.heuristic == s.heuristic
            && Reaches(s, t)
  {
    var n := |s.a.items|;
    var x := s.a.items;
    var ms := RotationMoves(n, i);
    var target := Buffers.Buffer(s.a.capacity, x[i..] + x[..i]);
    if n == 1 {
      assert x[0..] + x[..0] == x;
      ReachesRefl(s);
    } else {
      if i <= n / 2 {
        RunRotations(s.a, s.b, i);
      } else {
        RunReverseRotations(s.a, s.b, n - i);
        assert n - (n - i) == i;
      }
      assert Run(s.a, s.b, ms) == Some((target, s.b));
      ApplyAllRun(s, ms);
    }
  }

  /** The recorded history only grows. */
  lemma {:induction false} ApplyAllPrefix(s: Stack, ms: seq<Move>)
    ensures s.moves <= ApplyAll(s, ms).moves
    decreases |ms|
  {
    if |ms| > 0 {
      ApplyAllPrefix(Apply(s, ms[0]).1, ms[1..]);
    }
  }

  /** Every move the history gains comes from the list applied. */
  lemma {:induction false} ApplyAllRecords(s: Stack, ms: seq<Move>)
    ensures forall x :: x in ApplyAll(s, ms).moves ==> x in s.moves || x in ms
    decreases |ms|
  {
    if |ms| > 0 {
      var s1 := Apply(s, ms[0]).1;
      ApplyAllRecords(s1, ms[1..]);
      forall x | x in ApplyAll(s, ms).moves
        ensures x in s.moves || x in ms
      {
        assert x in s1.moves || x in ms[1..];
      }
    }
  }
}

=== FILE: ring.dfy ===
/** `CircularBuffer` as the source lays it out: a fixed array of `capacity` slots, a head offset and
    a size, with logical position i stored at slot (head + i) % capacity. Each operation is proved
    to act on the logical content exactly as the matching operation of module Buffers. */
module Ring {
  import opened Wrappers
  import opened Ints
  import opened Sorting
  import Buffers

  datatype Ring = Ring(capacity: nat, buf: seq<Int32>, head: nat, size: nat)

  /** The representation invariant: the array has `capacity` slots, the head is a slot index and
      the size never exceeds the capacity. */
  predicate Valid(r: Ring) {
    && |r.buf| == r.capacity
    && r.size <= r.capacity
    && (if r.capacity == 0 then r.head == 0 else r.head < r.capacity)
  }

  /** The slot of logical position i, that is (h + i) % c for 0 <= h < c and 0 <= i < c,
      written without the remainder (see SlotIsMod). */
  function Slot(h: int, c: int, i: int): int {
    if h + i < c then h + i else h + i - c
  }

  /** The logical content, head first (`value`). */
  function Value(r: Ring): (v: seq<Int32>)
    requires Valid(r)
    ensures |v| == r.size
  {
    seq(r.size, i requires 0 <= i < r.size && Valid(r) => r.buf[Slot(r.head, r.capacity, i)])
  }

  /** The abstraction function onto the logical buffer. */
  function Abs(r: Ring): Buffers.Buffer
    requires Valid(r)
  {
    Buffers.Buffer(r.capacity, Value(r))
  }

  /** Index arithmetic: every slot expression of the source adds less than three laps. */
  lemma Mod(x: int, c: int)
    requires c > 0 && 0 <= x < 3 * c
    ensures x % c == if x < c then x else if x < 2 * c then x - c else x - 2 * c
  {
    var q := x / c;
    assert x == c * q + x % c;
    if x < c {
      assert q == 0;
    } else if x < 2 * c {
      assert q == 1;
    } else {
      assert q == 2;
    }
  }

  /** The source's slot expression `(head + i) % capacity` is Slot. */
  lemma SlotIsMod(h: int, c: int, i: int)
    requires c > 0 && 0 <= h < c && 0 <= i < c
    ensures (h + i) % c == Slot(h, c, i)
  {
    Mod(h + i, c);
  }

  /** `enqueue`: writes the slot after the tail unless full. */
  function Enqueue(r: Ring, v: Int32): (res: (bool, Ring))
    requires Valid(r)
    ensures Valid(res.1) && res.1.capacity == r.capacity && res.1.head == r.head
    ensures res.0 == Buffers.Enqueue(Abs(r), v).0 && Abs(res.1) == Buffers.Enqueue(Abs(r), v).1
  {
    if r.size == r.capacity then (false, r)
    else
      var slot := (r.head + r.size) % r.capacity;
      SlotIsMod(r.head, r.capacity, r.size);
      var r' := Ring(r.capacity, r.buf[slot := v], r.head, r.size + 1);
      assert Value(r') == Value(r) + [v];
      (true, r')
  }

  /** `dequeue`: reads and clears the head slot and advances the head. */
  function Dequeue(r: Ring): (res: Option<(Int32, Ring)>)
    requires Valid(r)
    ensures res.Some? ==> Valid(res.value.1)
    ensures Buffers.Dequeue(Abs(r)).None? <==> res.None?
    ensures res.Some? ==> res.value.0 == Buffers.Dequeue(Abs(r)).value.0
                          && Abs(res.value.1) == Buffers.Dequeue(Abs(r)).value.1
  {
    if r.size == 0 then None
    else
      var c := r.capacity;
      Mod(r.head + 1, c);
      var r' := Ring(c, r.buf[r.head := 0], (r.head + 1) % c, r.size - 1);
      assert Value(r') == Value(r)[1..];
      Some((r.buf[r.head], r'))
  }

  /** `get(i)`: `require(i in 0 until size)`. */
  function Get(r: Ring, i: int): (res: Option<Int32>)
    requires Valid(r)
    ensures res == Buffers.Get(Abs(r), i)
  {
    if 0 <= i < r.size then
      SlotIsMod(r.head, r.capacity, i);
      Some(r.buf[(r.head + i) % r.capacity])
    else None
  }

  /** `peek()`: the head value or `null`. */
  function Peek(r: Ring): (res: Option<Int32>)
    requires Valid(r)
    ensures res.Some? <==> r.size > 0
    ensures res.Some? ==> res.value == Value(r)[0]
  {
    if r.size == 0 then None else Some(r.buf[r.head])
  }

  /** The indexed store `this[i] = value` for a position inside the content. */
  function Put(r: Ring, i: nat, v: Int32): (r': Ring)
    requires Valid(r) && i < r.size
    ensures Valid(r') && Value(r') == Value(r)[i := v]
  {
    SlotIsMod(r.head, r.capacity, i);
    var slot := (r.head + i) % r.capacity;
    Ring(r.capacity, r.buf[slot := v], r.head, r.size)
  }

  /** `swap`: exchanges positions 0 and 1 through `get` and `set`. */
  function Swap(r: Ring): (res: (bool, Ring))
    requires Valid(r)
    ensures Valid(res.1)
    ensures res.0 == Buffers.Swap(Abs(r)).0 && Abs(res.1) == Buffers.Swap(Abs(r)).1
  {
    if r.size < 2 then (false, r)
    else
      var temp := Get(r, 0).value;
      var r1 := Put(r, 0, Get(r, 1).value);
      var r2 := Put(r1, 1, temp);
      assert Value(r2) == [Value(r)[1], Value(r)[0]] + Value(r)[2..];
      (true, r2)
  }

  /** `rotate`: dequeues the head and enqueues it again. */
  function Rotate(r: Ring): (res: (bool, Ring))
    requires Valid(r)
    ensures Valid(res.1)
    ensures res.0 == Buffers.Rotate(Abs(r)).0 && Abs(res.1) == Buffers.Rotate(Abs(r)).1
  {
    if r.size <= 1 then (false, r)
    else
      var (first, r1) := Dequeue(r).value;
      Enqueue(r1, first)
  }

  /** `reverseRotate`: moves the value in the tail slot into the slot before the head. */
  function ReverseRotate(r: Ring): (res: (bool, Ring))
    requires Valid(r)
    ensures Valid(res.1)
    ensures res.0 == Buffers.ReverseRotate(Abs(r)).0
    ensures Abs(res.1) == Buffers.ReverseRotate(Abs(r)).1
  {
    if r.size <= 1 then (false, r)
    else
      var c := r.capacity;
      Mod(r.head + r.size - 1 + c, c);
      Mod(r.head - 1 + c, c);
      var lastIndex := (r.head + r.size - 1 + c) % c;
      var last := r.buf[lastIndex];
      var newHead := (r.head - 1 + c) % c;
      var r' := Ring(c, r.buf[lastIndex := 0][newHead := last], newHead, r.size);
      assert Value(r') == [Value(r)[r.size - 1]] + Value(r)[..r.size - 1];
      (true, r')
  }

  /** `src.push(dest)`: dequeues from the source and writes into the slot before the
      destination's head. */
  function Push(src: Ring, dst: Ring): (res: (bool, Ring, Ring))
    requires Valid(src) && Valid(dst)
    ensures Valid(res.1) && Valid(res.2)
    ensures var spec := Buffers.Push(Abs(src), Abs(dst));
            res.0 == spec.0 && Abs(res.1) == spec.1 && Abs(res.2) == spec.2
  {
    if src.size == 0 || dst.size == dst.capacity then (false, src, dst)
    else
      var (value, src') := Dequeue(src).value;
      var c := dst.capacity;
      Mod(dst.head - 1 + c, c);
      var newHead := (dst.head - 1 + c) % c;
      var dst' := Ring(c, dst.buf[newHead := value], newHead, dst.size + 1);
      assert Value(dst') == [value] + Value(dst);
      (true, src', dst')
  }

  /** Stores the values of `list` after the tail, one `enqueue` at a time. */
  function Fill(r: Ring, list: seq<Int32>): (r': Ring)
    requires Valid(r) && r.size + |list| <= r.capacity
    ensures Valid(r') && r'.capacity == r.capacity && r'.head == r.head && Value(r') == Value(r) + list
    decreases |list|
  {
    if |list| == 0 then r
    else
      var r1 := Enqueue(r, list[0]).1;
      assert list == [list[0]] + list[1..];
      Fill(r1, list[1..])
  }

  /** The constructor: a zeroed array of `capacity` slots, then the list's values in order; a
      non-empty list longer than the capacity fails its `require`. */
  function New(capacity: nat, list: seq<Int32>): (res: Option<Ring>)
    ensures res.Some? ==> Valid(res.value)
    ensures Buffers.FromList(capacity, list).None? <==> res.None?
    ensures res.Some? ==> Abs(res.value) == Buffers.FromList(capacity, list).value
  {
    var empty := Ring(capacity, seq(capacity, _ => 0), 0, 0);
    if |list| == 0 then Some(empty)
    else if |list| > capacity then None
    else Some(Fill(empty, list))
  }

  /** `clone()`: a copy of the array, the head and the size. */
  function Clone(r: Ring): (r': Ring)
    requires Valid(r)
    ensures Valid(r') && Abs(r') == Abs(r)
  {
    Ring(r.capacity, r.buf, r.head, r.size)
  }

  /** `equals`: compares sizes and then the logical positions slot by slot, so two buffers with
      different head offsets are equal exactly when their contents are. */
  method Equals(x: Ring, y: Ring) returns (eq: bool)
    requires Valid(x) && Valid(y)
    ensures eq <==> Value(x) == Value(y)
  {
    if x.size != y.size { return false; }
    var i := 0;
    while i < x.size
      invariant 0 <= i <= x.size
      invariant Value(x)[..i] == Value(y)[..i]
    {
      SlotIsMod(x.head, x.capacity, i);
      SlotIsMod(y.head, y.capacity, i);
      if x.buf[(x.head + i) % x.capacity] != y.buf[(y.head + i) % y.capacity] {
        assert Value(x)[i] != Value(y)[i];
        return false;
      }
      assert Value(x)[..i + 1] == Value(x)[..i] + [Value(x)[i]];
      assert Value(y)[..i + 1] == Value(y)[..i] + [Value(y)[i]];
      i := i + 1;
    }
    assert Value(x)[..i] == Value(x) && Value(y)[..i] == Value(y);
    return true;
  }

  /** `hashCode`: folds `31 * result + value` over the logical content in `Int` arithmetic,
      starting from the size; the head offset plays no part. */
  method HashCode(r: Ring) returns (h: Int32)
    requires Valid(r)
    ensures h == Buffers.Hash(Value(r))
  {
    h := Wrap32(r.size);
    var i := 0;
    while i < r.size
      invariant 0 <= i <= r.size
      invariant Buffers.HashFrom(h, Value(r)[i..]) == Buffers.Hash(Value(r))
    {
      assert Value(r)[i..][1..] == Value(r)[i + 1..];
      SlotIsMod(r.head, r.capacity, i);
      h := Wrap32(Wrap32(31 * h) + r.buf[(r.head + i) % r.capacity]);
      i := i + 1;
    }
  }
  /** `sorted()` as `newKotlin/utils/Utils.kt` writes it (the `src` tree imports its own
      `src/main/kotlin/utils/Utils.kt`, which is not part of this model): a clone
      whose backing array is sorted slot by slot, with the head and the size kept. The slots that
      `dequeue` cleared to 0 take part in the sort, and the head still points where it did. */
  function SortedAsWritten(r: Ring): (s: Ring)
    requires Valid(r)
    ensures Valid(s) && s.capacity == r.capacity && s.head == r.head && s.size == r.size
    ensures Ascending(s.buf) && multiset(s.buf) == multiset(r.buf)
  {
    Ring(r.capacity, Sorting.Sort(r.buf), r.head, r.size)
  }

  /** The intended `sorted()`: a buffer of the same capacity holding the logical content in
      ascending order from slot 0. */
  function SortedLogical(r: Ring): (s: Ring)
    requires Valid(r)
    ensures Valid(s) && s.capacity == r.capacity && Value(s) == Sorting.Sort(Value(r))
  {
    var v := Sorting.Sort(Value(r));
    var s := Ring(r.capacity, v + seq(r.capacity - r.size, _ => 0), 0, r.size);
    assert forall i :: 0 <= i < r.size ==> Value(s)[i] == v[i];
    s
  }

  /** With the intended `sorted()`, `buffer == buffer.sorted()` holds exactly when the logical
      content is ascending. */
  lemma SortedLogicalIffAscending(r: Ring)
    requires Valid(r)
    ensures Value(r) == Value(SortedLogical(r)) <==> Ascending(Value(r))
  {
    SortedIffAscending(Value(r));
  }

  /** On a full buffer whose head is slot 0, as the engine builds A from the input list, the
      as-written `sorted()` reads the same as the intended one. */
  lemma SortedAsWrittenFullAtZero(r: Ring)
    requires Valid(r) && r.head == 0 && r.size == r.capacity
    ensures Value(SortedAsWritten(r)) == Value(SortedLogical(r))
  {
    assert Value(r) == r.buf;
    assert Value(SortedAsWritten(r)) == SortedAsWritten(r).buf;
  }

  /** A full buffer built by the constructor starts at slot 0, so its array is the list. */
  lemma NewFull(list: seq<Int32>)
    requires |list| > 0
    ensures New(|list|, list) == Some(Ring(|list|, list, 0, |list|))
  {
    var r := New(|list|, list).value;
    assert forall i :: 0 <= i < |list| ==> r.buf[i] == Value(r)[i];
    assert r.buf == list;
  }

  /** RA on the full buffer [-1, -5, 1, 2]: the head moves to slot 1 and the array is unchanged. */
  lemma RotateFour()
    ensures Rotate(Ring(4, [-1, -5, 1, 2], 0, 4)).1 == Ring(4, [-1, -5, 1, 2], 1, 4)
  {
    var r := Ring(4, [-1, -5, 1, 2], 0, 4);
    var r1 := Dequeue(r).value.1;
    assert r1 == Ring(4, [0, -5, 1, 2], 1, 3);
    assert Enqueue(r1, -1).1 == Ring(4, [-1, -5, 1, 2], 1, 4);
  }

  /** PB next: slot 1 is dequeued and cleared and the head moves to slot 2. */
  lemma PushFour()
    ensures Push(Ring(4, [-1, -5, 1, 2], 1, 4), New(4, []).value).1 == Ring(4, [-1, 0, 1, 2], 2, 3)
  {
    var r := Ring(4, [-1, -5, 1, 2], 1, 4);
    assert Dequeue(r).value.1 == Ring(4, [-1, 0, 1, 2], 2, 3);
  }

  /** The array [-1, 0, 1, 2] with the head at slot 2 reads [1, 2, -1], and sorting the array
      leaves it as it is. */
  lemma RawFour()
    ensures var r := Ring(4, [-1, 0, 1, 2], 2, 3);
            Valid(r) && Value(r) == [1, 2, -1] && SortedAsWritten(r) == r
  {
    var r := Ring(4, [-1, 0, 1, 2], 2, 3);
    RawFourValue(r);
    AscendingFour(r.buf);
  }

  lemma RawFourValue(r: Ring)
    requires r == Ring(4, [-1, 0, 1, 2], 2, 3)
    ensures Valid(r) && Value(r) == [1, 2, -1]
  {
    assert Value(r)[0] == 1 && Value(r)[1] == 2 && Value(r)[2] == -1;
  }

  lemma AscendingFour(s: seq<Int32>)
    requires s == [-1, 0, 1, 2]
    ensures Sorting.Sort(s) == s
  {
    assert Ascending(s);
    SortOfAscending(s);
  }

  /** `sortFourFive` on A = [-1, -5, 1, 2] with capacity 4: RA and then PB leave the array
      [-1, 0, 1, 2] with the head at slot 2, so A reads [1, 2, -1]. That array is already in
      order, so the as-written `buffer == buffer.sorted()` holds although A is not ascending,
      and `sortThree` returns no moves; the intended comparison fails. */
  lemma SortedAsWrittenAccepts()
    ensures var a0 := New(4, [-1, -5, 1, 2]).value;
            var a1 := Rotate(a0).1;
            var a2 := Push(a1, New(4, []).value).1;
            && Value(a2) == [1, 2, -1]
            && Value(a2) == Value(SortedAsWritten(a2))
            && !Ascending(Value(a2))
            && Value(a2) != Value(SortedLogical(a2))
  {
    NewFull([-1, -5, 1, 2]);
    RotateFour();
    PushFour();
    RawFour();
    var a2 := Ring(4, [-1, 0, 1, 2], 2, 3);
    assert Value(a2)[1] > Value(a2)[2];
  }
}

=== FILE: small_sort.dfy ===
/** `SmallSort`: fixed move sequences for inputs of at most five values. Two or three values are
    sorted by a case table; four or five values have their one or two minima parked on B, the
    remaining three sorted by the table, and the minima pulled back. */
module SmallSort {
  import opened Wrappers
  import opened Ints
  import opened Sorting
  import opened Moves
  import opened Machine
  import opened Replay
  import Buffers

  /** `x in lo..<hi`. */
  predicate InRange(x: int, lo: int, hi: int) {
    lo <= x < hi
  }

  /** The bound `v + 1` of a range expression: Kotlin's `Int` addition wraps around at
      `Int.MAX_VALUE` (`wraps`), the intended reading does not. */
  function Succ(v: Int32, wraps: bool): (r: int)
    ensures v < INT_MAX ==> r == v + 1
    ensures wraps && v == INT_MAX ==> r == INT_MIN
  {
    if wraps then Wrap32(v + 1) else v + 1
  }

  /** The `when` table of `sortThree` on the first three values `a, b, c`. */
  function ThreeCases(a: Int32, b: Int32, c: Int32, wraps: bool): (r: Result<seq<Move>>)
    ensures r.Ok? ==> |r.value| <= 2 && forall k :: 0 <= k < |r.value| ==> r.value[k] in {SA, RA, RRA}
  {
    if InRange(b, Succ(a, wraps), c) then Ok([])
    else if InRange(a, Succ(b, wraps), c) && b < c then Ok([SA])
    else if InRange(b, Succ(c, wraps), a) then Ok([SA, RRA])
    else if a > b && b < c && c < a then Ok([RA])
    else if a < b && b > c && c > a then Ok([SA, RA])
    else if InRange(a, Succ(c, wraps), b) && b > c then Ok([RRA])
    else Err("Invalid state")
  }

  /** `sortThree` on a buffer's content: nothing when sorted or shorter than two, one SA for an
      inverted pair, and the case table for three values. */
  function SortThreeWith(a: seq<Int32>, wraps: bool): (r: Result<seq<Move>>)
    ensures Ascending(a) ==> r == Ok([])
    ensures r.Ok? ==> |r.value| <= 2 && forall k :: 0 <= k < |r.value| ==> r.value[k] in {SA, RA, RRA}
  {
    SortedIffAscending(a);
    if a == Sorting.Sort(a) || |a| < 2 then Ok([])
    else if |a| == 2 then (if a[0] > a[1] then Ok([SA]) else Ok([]))
    else ThreeCases(a[0], a[1], a[2], wraps)
  }

  /** `sortThree` with the intended, non-wrapping ranges; the rest of the model uses this one. */
  function SortThree(a: seq<Int32>): (r: Result<seq<Move>>)
    ensures Ascending(a) ==> r == Ok([])
    ensures r.Ok? ==> |r.value| <= 2
    ensures |a| <= 3 && Distinct(a) ==> r.Ok?
  {
    SortThreeWith(a, false)
  }

  /** `sortThree` as the source writes it, with `Int` addition in the range bounds. */
  function SortThreeAsWritten(a: seq<Int32>): (r: Result<seq<Move>>)
    ensures Ascending(a) ==> r == Ok([])
    ensures r.Ok? ==> |r.value| <= 2
  {
    SortThreeWith(a, true)
  }

  /** With `a == Int.MAX_VALUE` the first range `(a + 1)..<c` starts at `Int.MIN_VALUE`, so any
      `b < c` matches it and no move is returned although A is out of order. The intended table
      answers RA, which sorts. */
  lemma SortThreeOverflow()
    ensures var a := [INT_MAX as Int32, 1, 2];
            && !Ascending(a)
            && SortThreeAsWritten(a) == Ok([])
            && SortThree(a) == Ok([RA])
            && Run(Buffers.Buffer(3, a), Buffers.Buffer(3, []), [RA])
               == Some((Buffers.Buffer(3, [1, 2, INT_MAX]), Buffers.Buffer(3, [])))
  {
    SortThreeOverflowFamily(1, 2);
    RotateMaxBack();
  }

  /** RA on `[Int.MAX_VALUE, 1, 2]` gives `[1, 2, Int.MAX_VALUE]`. */
  lemma RotateMaxBack()
    ensures Run(Buffers.Buffer(3, [INT_MAX as Int32, 1, 2]), Buffers.Buffer(3, []), [RA])
            == Some((Buffers.Buffer(3, [1, 2, INT_MAX]), Buffers.Buffer(3, [])))
  {
    var a := [INT_MAX as Int32, 1, 2];
    assert a[1..] + [a[0]] == [1, 2, INT_MAX];
    RunSingle(Buffers.Buffer(3, a), Buffers.Buffer(3, []), RA);
  }

  /** The same happens for every three distinct values with the maximum `Int` first and the other
      two in order: the source returns no moves. */
  lemma SortThreeOverflowFamily(b: Int32, c: Int32)
    requires b < c < INT_MAX
    ensures !Ascending([INT_MAX as Int32, b, c])
    ensures SortThreeAsWritten([INT_MAX as Int32, b, c]) == Ok([])
    ensures SortThree([INT_MAX as Int32, b, c]) == Ok([RA])
  {
    var a := [INT_MAX as Int32, b, c];
    assert a[0] > a[1];
    assert Succ(a[0], true) == INT_MIN;
  }

  /** Away from that case the two tables agree on distinct values. */
  lemma SortThreeAgrees(a: seq<Int32>)
    requires Distinct(a)
    requires |a| >= 3 ==> a[0] < INT_MAX
    ensures SortThreeAsWritten(a) == SortThree(a)
  {
    if |a| >= 3 {
      assert a[0] != a[1] && a[0] != a[2] && a[1] != a[2];
    }
  }

  /** Two ascending parts: a value below everything in an ascending sequence can be put in front. */
  lemma AscendingCons(x: Int32, s: seq<Int32>)
    requires Ascending(s)
    requires forall k :: 0 <= k < |s| ==> x < s[k]
    ensures Ascending([x] + s)
  {
  }

  lemma AscendingThree(p: Int32, q: Int32, r: Int32)
    requires p <= q <= r
    ensures Ascending([p, q, r])
  {
  }

  /** Ascending with the same elements as `a` means equal to `a` sorted. */
  lemma IsSorted(f: seq<Int32>, a: seq<Int32>)
    requires Ascending(f) && multiset(f) == multiset(a)
    ensures f == Sorting.Sort(a)
  {
    AscendingUnique(f, Sorting.Sort(a));
  }

  lemma StepSwapPair(cap: nat, a: seq<Int32>, b: Buffer)
    requires |a| == 2
    ensures Step(Buffers.Buffer(cap, a), b, SA) == (true, Buffers.Buffer(cap, [a[1], a[0]]), b)
  {
    assert a[2..] == [];
    assert [a[1], a[0]] + a[2..] == [a[1], a[0]];
  }

  lemma StepsOfThree(cap: nat, x: Int32, y: Int32, z: Int32, b: Buffer)
    ensures Step(Buffers.Buffer(cap, [x, y, z]), b, SA) == (true, Buffers.Buffer(cap, [y, x, z]), b)
    ensures Step(Buffers.Buffer(cap, [x, y, z]), b, RA) == (true, Buffers.Buffer(cap, [y, z, x]), b)
    ensures Step(Buffers.Buffer(cap, [x, y, z]), b, RRA) == (true, Buffers.Buffer(cap, [z, x, y]), b)
  {
    var s := [x, y, z];
    assert [s[1], s[0]] + s[2..] == [y, x, z];
    assert s[1..] + [s[0]] == [y, z, x];
    assert [s[2]] + s[..2] == [z, x, y];
  }

  /** Out of order, three distinct values go to the case table. */
  lemma ToTable(x: Int32, y: Int32, z: Int32)
    requires x != y && y != z && x != z && !(x < y < z)
    ensures SortThree([x, y, z]) == ThreeCases(x, y, z, false)
  {
    var a := [x, y, z];
    assert !Ascending(a) by {
      if x > y { assert a[0] > a[1]; }
      else { assert a[1] > a[2]; }
    }
    SortedIffAscending(a);
  }

  /** The two-value case: one SA exactly when the pair is inverted. */
  lemma SortTwoSorts(a: seq<Int32>, cap: nat, b: Buffer)
    requires |a| == 2 && Distinct(a)
    ensures SortThree(a).Ok?
    ensures Run(Buffers.Buffer(cap, a), b, SortThree(a).value) == Some((Buffers.Buffer(cap, Sorting.Sort(a)), b))
  {
    if Ascending(a) {
      SortOfAscending(a);
    } else {
      var f := [a[1], a[0]];
      assert a[2..] == [];
      assert SortThree(a).value == [SA];
      StepSwapPair(cap, a, b);
      RunSingle(Buffers.Buffer(cap, a), b, SA);
      assert Run(Buffers.Buffer(cap, a), b, [SA]) == Some((Buffers.Buffer(cap, f), b));
      IsSorted(f, a);
    }
  }

  /** The table's moves replay to `f` on A and leave B alone. */
  predicate TableRunsTo(a: seq<Int32>, cap: nat, b: Buffer, f: seq<Int32>) {
    && SortThree(a).Ok?
    && Run(Buffers.Buffer(cap, a), b, SortThree(a).value) == Some((Buffers.Buffer(cap, f), b))
  }

  /** Row `[SA]` of the table. */
  lemma RowSa(a: seq<Int32>, cap: nat, b: Buffer) returns (f: seq<Int32>)
    requires |a| == 3 && a[1] < a[0] < a[2]
    ensures TableRunsTo(a, cap, b, f) && Ascending(f) && multiset(f) == multiset(a)
  {
    var x, y, z := a[0], a[1], a[2];
    assert a == [x, y, z];
    ToTable(x, y, z);
    StepsOfThree(cap, x, y, z, b);
    RunSingle(Buffers.Buffer(cap, a), b, SA);
    f := [y, x, z];
    AscendingThree(y, x, z);
  }

  /** Row `[SA, RRA]` of the table. */
  lemma RowSaRra(a: seq<Int32>, cap: nat, b: Buffer) returns (f: seq<Int32>)
    requires |a| == 3 && a[2] < a[1] < a[0]
    ensures TableRunsTo(a, cap, b, f) && Ascending(f) && multiset(f) == multiset(a)
  {
    var x, y, z := a[0], a[1], a[2];
    assert a == [x, y, z];
    ToTable(x, y, z);
    StepsOfThree(cap, x, y, z, b);
    StepsOfThree(cap, y, x, z, b);
    RunPair(Buffers.Buffer(cap, a), b, SA, RRA);
    RunSingle(Buffers.Buffer(cap, [y, x, z]), b, RRA);
    f := [z, y, x];
    AscendingThree(z, y, x);
  }

  /** Row `[RA]` of the table. */
  lemma RowRa(a: seq<Int32>, cap: nat, b: Buffer) returns (f: seq<Int32>)
    requires |a| == 3 && a[1] < a[2] < a[0]
    ensures TableRunsTo(a, cap, b, f) && Ascending(f) && multiset(f) == multiset(a)
  {
    var x, y, z := a[0], a[1], a[2];
    assert a == [x, y, z];
    ToTable(x, y, z);
    StepsOfThree(cap, x, y, z, b);
    RunSingle(Buffers.Buffer(cap, a), b, RA);
    f := [y, z, x];
    AscendingThree(y, z, x);
  }

  /** Row `[SA, RA]` of the table. */
  lemma RowSaRa(a: seq<Int32>, cap: nat, b: Buffer) returns (f: seq<Int32>)
    requires |a| == 3 && a[0] < a[2] < a[1]
    ensures TableRunsTo(a, cap, b, f) && Ascending(f) && multiset(f) == multiset(a)
  {
    var x, y, z := a[0], a[1], a[2];
    assert a == [x, y, z];
    ToTable(x, y, z);
    StepsOfThree(cap, x, y, z, b);
    StepsOfThree(cap, y, x, z, b);
    RunPair(Buffers.Buffer(cap, a), b, SA, RA);
    RunSingle(Buffers.Buffer(cap, [y, x, z]), b, RA);
    f := [x, z, y];
    AscendingThree(x, z, y);
  }

  /** Row `[RRA]` of the table. */
  lemma RowRra(a: seq<Int32>, cap: nat, b: Buffer) returns (f: seq<Int32>)
    requires |a| == 3 && a[2] < a[0] < a[1]
    ensures TableRunsTo(a, cap, b, f) && Ascending(f) && multiset(f) == multiset(a)
  {
    var x, y, z := a[0], a[1], a[2];
    assert a == [x, y, z];
    ToTable(x, y, z);
    StepsOfThree(cap, x, y, z, b);
    RunSingle(Buffers.Buffer(cap, a), b, RRA);
    f := [z, x, y];
    AscendingThree(z, x, y);
  }

  /** The three-value table: every arrangement of three distinct values ends sorted on A, and B is
      left alone. */
  lemma SortThreeSorts(a: seq<Int32>, cap: nat, b: Buffer)
    requires |a| == 3 && Distinct(a)
    ensures SortThree(a).Ok?
    ensures Run(Buffers.Buffer(cap, a), b, SortThree(a).value) == Some((Buffers.Buffer(cap, Sorting.Sort(a)), b))
  {
    var x, y, z := a[0], a[1], a[2];
    if Ascending(a) {
      SortOfAscending(a);
    } else {
      assert x != y && y != z && x != z;
      var f;
      if y < x < z { f := RowSa(a, cap, b); }
      else if z < y < x { f := RowSaRra(a, cap, b); }
      else if y < z < x { f := RowRa(a, cap, b); }
      else if x < z < y { f := RowSaRa(a, cap, b); }
      else { f := RowRra(a, cap, b); }
      IsSorted(f, a);
    }
  }

  /** `(0 until size).minByOrNull { a[it] } ?: 0`: the first position of the least value. */
  function MinIndex(a: seq<Int32>): (r: nat)
    ensures |a| == 0 ==> r == 0
    ensures |a| > 0 ==> r < |a|
    ensures |a| > 0 ==> forall k :: 0 <= k < |a| ==> a[r] <= a[k]
    ensures |a| > 0 ==> forall k :: 0 <= k < r ==> a[r] < a[k]
  {
    if |a| <= 1 then 0
    else
      var j := 1 + MinIndex(a[1..]);
      if a[j] < a[0] then j else 0
  }

  /** One round of `sortFourFive`'s first `repeat`: rotate A's first minimum to the head the short
      way, then PB. */
  function PushMin(s: Stack): Stack {
    var i := MinIndex(s.a.items);
    Apply(ApplyAll(s, RotationMoves(|s.a.items|, i)), PB).1
  }

  /** What is left of A after taking out its least value: no repeats, all of it above that value,
      and with it the original elements. */
  lemma RestAfterMin(a: seq<Int32>, i: nat)
    requires Distinct(a) && i < |a|
    requires forall k :: 0 <= k < |a| ==> a[i] <= a[k]
    ensures var rest := (a[i..] + a[..i])[1..];
            && Distinct(rest)
            && multiset(rest) + multiset{a[i]} == multiset(a)
            && forall k :: 0 <= k < |rest| ==> a[i] < rest[k]
  {
    var t := a[i..] + a[..i];
    var rest := t[1..];
    DistinctRotation(a, i);
    RotationPermutes(a, i);
    assert t == [t[0]] + rest;
    assert multiset(t) == multiset{t[0]} + multiset(rest);
    forall k | 0 <= k < |rest|
      ensures a[i] < rest[k]
    {
      assert rest[k] == t[k + 1];
      assert t[k + 1] in multiset(a);
      var j :| 0 <= j < |a| && a[j] == t[k + 1];
      assert t[0] != t[k + 1];
    }
  }

  /** `t` is `s` after one round of PushMin: A's least value moved from A onto B, the rest of A
      rotated so that it starts right after that value. */
  predicate PushedMin(s: Stack, t: Stack) {
    var a := s.a.items;
    var i := MinIndex(a);
    && i < |a|
    && t.a == Buffers.Buffer(s.a.capacity, (a[i..] + a[..i])[1..])
    && t.b == Buffers.Buffer(s.b.capacity, [a[i]] + s.b.items)
    && t.chunk == s.chunk && t.prevChunkNum == s.prevChunkNum && t.heuristic == s.heuristic
    && Reaches(s, t)
  }

  /** PushMin parks A's least value on top of B and leaves the rest of A, rotated, behind. */
  lemma PushMinSpec(s: Stack)
    requires Valid(s) && |s.a.items| >= 2 && |s.b.items| < s.b.capacity
    ensures PushedMin(s, PushMin(s))
  {
    var a := s.a.items;
    var i := MinIndex(a);
    var r := ApplyAll(s, RotationMoves(|a|, i));
    RotateToFront(s, i);
    assert r.a.items[0] == a[i];
    ReachesApply(s, r, PB);
    ReachesTrans(s, r, PushMin(s));
  }

  lemma PushMinPrefix(s: Stack)
    ensures s.moves <= PushMin(s).moves
  {
    ApplyAllPrefix(s, RotationMoves(|s.a.items|, MinIndex(s.a.items)));
  }

  /** `sortFourFive`: one minimum parked for four values, two for five; then the table on the
      remaining three, then PA once per parked value. The result is the whole recorded history. */
  function SortFourFive(s: Stack): (r: Result<seq<Move>>)
    ensures r.Ok? ==> |s.moves| <= |r.value| && r.value[..|s.moves|] == s.moves
  {
    var k := if |s.a.items| == 5 then 2 else 1;
    var s1 := PushMin(s);
    var s2 := if k == 2 then PushMin(s1) else s1;
    PushMinPrefix(s);
    PushMinPrefix(s1);
    match SortThree(s2.a.items)
    case Err(e) => Err(e)
    case Ok(ms) =>
      var s3 := ApplyAll(s2, ms);
      var s4 := ApplyAll(s3, Repeat(PA, k));
      ApplyAllPrefix(s2, ms);
      ApplyAllPrefix(s3, Repeat(PA, k));
      Ok(s4.moves)
  }

  /** After `k` rounds of PushMin from `s`: A holds the other values, distinct, and B the `k`
      parked minima in strictly descending order, each below everything left on A; nothing is lost
      and `t` descends from `s`. */
  predicate Parked(s: Stack, t: Stack, k: nat) {
    && Valid(t) && t.a.capacity == s.a.capacity && t.b.capacity == s.b.capacity
    && |t.a.items| + k == |s.a.items| && Distinct(t.a.items)
    && |t.b.items| == k && StrictlyDescending(t.b.items)
    && (forall p, q :: 0 <= p < k && 0 <= q < |t.a.items| ==> t.b.items[p] < t.a.items[q])
    && multiset(t.a.items) + multiset(t.b.items) == multiset(s.a.items)
    && t.chunk == s.chunk && t.prevChunkNum == s.prevChunkNum && t.heuristic == s.heuristic
    && Reaches(s, t)
  }

  /** The first round parks A's least value. */
  lemma ParkFirst(s: Stack, t: Stack)
    requires Valid(s) && |s.a.items| >= 2 && Distinct(s.a.items)
    requires s.b.items == [] && s.b.capacity >= 1 && PushedMin(s, t)
    ensures Parked(s, t, 1)
  {
    RestAfterMin(s.a.items, MinIndex(s.a.items));
  }

  /** The second round parks the least remaining value, which is above the first. */
  lemma ParkSecond(s: Stack, s1: Stack, s2: Stack)
    requires Parked(s, s1, 1) && |s1.a.items| >= 2 && s1.b.capacity >= 2 && PushedMin(s1, s2)
    ensures Parked(s, s2, 2)
  {
    var a1 := s1.a.items;
    var m1 := s1.b.items[0];
    assert s1.b.items == [m1];
    assert forall k :: 0 <= k < |a1| ==> m1 < a1[k];
    TwoParked(a1, MinIndex(a1), m1);
    ReachesTrans(s, s1, s2);
  }

  /** Taking the least value `a[j]` out of `a` and parking it on top of `m1`, which is below all
      of `a`, gives a strictly descending B below everything left. */
  lemma TwoParked(a: seq<Int32>, j: nat, m1: Int32)
    requires Distinct(a) && j < |a| && forall k :: 0 <= k < |a| ==> a[j] <= a[k]
    requires forall k :: 0 <= k < |a| ==> m1 < a[k]
    ensures var rest, b := (a[j..] + a[..j])[1..], [a[j], m1];
            && StrictlyDescending(b) && Distinct(rest)
            && (forall p, q :: 0 <= p < 2 && 0 <= q < |rest| ==> b[p] < rest[q])
            && multiset(rest) + multiset(b) == multiset(a) + multiset{m1}
  {
    var rest := (a[j..] + a[..j])[1..];
    RestAfterMin(a, j);
    forall q | 0 <= q < |rest|
      ensures m1 < rest[q]
    {
      assert rest[q] in multiset(a);
    }
  }

  /** The first `repeat` of `sortFourFive` parks one minimum for four values and two for five. */
  lemma Park(s: Stack)
    requires Valid(s) && 4 <= |s.a.items| <= 5 && Distinct(s.a.items)
    requires s.b.items == [] && s.b.capacity >= 2
    ensures |s.a.items| == 4 ==> Parked(s, PushMin(s), 1)
    ensures |s.a.items| == 5 ==> Parked(s, PushMin(PushMin(s)), 2)
  {
    var s1 := PushMin(s);
    PushMinSpec(s);
    ParkFirst(s, s1);
    if |s.a.items| == 5 {
      PushMinSpec(s1);
      ParkSecond(s, s1, PushMin(s1));
    }
  }

  /** One PA brings B's head onto A. */
  lemma PullOne(a: Buffer, b: Buffer)
    requires |b.items| >= 1 && |a.items| + 1 <= a.capacity
    ensures Run(a, b, [PA]) == Some((Buffers.Buffer(a.capacity, [b.items[0]] + a.items), Buffers.Buffer(b.capacity, b.items[1..])))
  {
    assert Step(a, b, PA) == (true, Buffers.Buffer(a.capacity, [b.items[0]] + a.items), Buffers.Buffer(b.capacity, b.items[1..]));
    RunSingle(a, b, PA);
  }

  /** Two PAs bring B's two values onto A, the second one ending at the head. */
  lemma PullTwo(a: Buffer, b: Buffer)
    requires |b.items| == 2 && |a.items| + 2 <= a.capacity
    ensures Run(a, b, [PA, PA]) == Some((Buffers.Buffer(a.capacity, [b.items[1], b.items[0]] + a.items), Buffers.Buffer(b.capacity, [])))
  {
    var a1 := Buffers.Buffer(a.capacity, [b.items[0]] + a.items);
    var b1 := Buffers.Buffer(b.capacity, b.items[1..]);
    PullOne(a, b);
    assert Step(a, b, PA) == (true, a1, b1);
    RunPair(a, b, PA, PA);
    PullOne(a1, b1);
    assert [b1.items[0]] + a1.items == [b.items[1], b.items[0]] + a.items;
  }

  /** `repeat(k) { stack.apply(PA) }` for one or two parked values: they land on A in reverse
      order of B, which empties. */
  lemma PullBack(a: Buffer, b: Buffer)
    requires 1 <= |b.items| <= 2 && |a.items| + |b.items| <= a.capacity
    ensures Run(a, b, Repeat(PA, |b.items|)) == Some((Buffers.Buffer(a.capacity, PulledBack(b.items) + a.items), Buffers.Buffer(b.capacity, [])))
  {
    if |b.items| == 1 {
      assert Repeat(PA, 1) == [PA];
      PullOne(a, b);
      assert b.items[1..] == [];
    } else {
      assert Repeat(PA, 2) == [PA, PA];
      PullTwo(a, b);
    }
  }

  /** A value below every element stays below every element once they are sorted. */
  lemma BelowSorted(x: Int32, rest: seq<Int32>)
    requires forall q :: 0 <= q < |rest| ==> x < rest[q]
    ensures forall q :: 0 <= q < |rest| ==> x < Sorting.Sort(rest)[q]
  {
    var sorted := Sorting.Sort(rest);
    forall q | 0 <= q < |rest|
      ensures x < sorted[q]
    {
      assert sorted[q] in multiset(rest);
    }
  }

  /** Two values, the smaller first, in front of an ascending sequence of larger ones. */
  lemma TwoInFront(x: Int32, y: Int32, t: seq<Int32>)
    requires Ascending(t) && x < y && forall q :: 0 <= q < |t| ==> y < t[q]
    ensures Ascending([x, y] + t)
  {
    AscendingCons(y, t);
    AscendingCons(x, [y] + t);
    assert [x, y] + t == [x] + ([y] + t);
  }

  /** The parked values, read back in pull order. */
  function PulledBack(b: seq<Int32>): (r: seq<Int32>)
    requires 1 <= |b| <= 2
    ensures multiset(r) == multiset(b)
  {
    if |b| == 2 then
      assert b == [b[0], b[1]];
      [b[1], b[0]]
    else
      assert b == [b[0]];
      [b[0]]
  }

  /** The parked values pulled back in front of the sorted rest form an ascending sequence. */
  lemma BackInFront(b: seq<Int32>, rest: seq<Int32>)
    requires 1 <= |b| <= 2 && StrictlyDescending(b)
    requires forall p, q :: 0 <= p < |b| && 0 <= q < |rest| ==> b[p] < rest[q]
    ensures Ascending(PulledBack(b) + Sorting.Sort(rest))
  {
    var sorted := Sorting.Sort(rest);
    BelowSorted(b[0], rest);
    if |b| == 2 {
      BelowSorted(b[1], rest);
      TwoInFront(b[1], b[0], sorted);
    } else {
      AscendingCons(b[0], sorted);
    }
  }

  /** From a parked state, the table's moves and then `k` PAs: A ends as the parked values in
      front of the sorted rest, and B is empty. */
  lemma FinishRun(s2: Stack, k: nat)
    requires Valid(s2) && |s2.a.items| == 3 && Distinct(s2.a.items)
    requires 1 <= k <= 2 && |s2.b.items| == k && 3 + k <= s2.a.capacity
    ensures SortThree(s2.a.items).Ok?
    ensures var s4 := ApplyAll(ApplyAll(s2, SortThree(s2.a.items).value), Repeat(PA, k));
            && s4.a == Buffers.Buffer(s2.a.capacity, PulledBack(s2.b.items) + Sorting.Sort(s2.a.items))
            && s4.b == Buffers.Buffer(s2.b.capacity, [])
            && Reaches(s2, s4)
            && s4.chunk == s2.chunk && s4.prevChunkNum == s2.prevChunkNum && s4.heuristic == s2.heuristic
  {
    var rest := s2.a.items;
    SortThreeSorts(rest, s2.a.capacity, s2.b);
    var ms := SortThree(rest).value;
    assert s2.a == Buffers.Buffer(s2.a.capacity, rest);
    ApplyAllRun(s2, ms);
    var s3 := ApplyAll(s2, ms);
    PullBack(s3.a, s3.b);
    ApplyAllRun(s3, Repeat(PA, k));
    ReachesTrans(s2, s3, ApplyAll(s3, Repeat(PA, k)));
  }

  /** From the parked state: the table sorts the three values left on A and the PAs bring the
      parked minima back in front of them, so the replay from `s` ends with A sorted. */
  lemma FinishFourFive(s: Stack, s2: Stack, k: nat)
    requires Valid(s) && |s.a.items| <= s.a.capacity && 1 <= k <= 2 && |s.a.items| == 3 + k
    requires s.b.items == [] && Parked(s, s2, k)
    ensures SortThree(s2.a.items).Ok?
    ensures var s4 := ApplyAll(ApplyAll(s2, SortThree(s2.a.items).value), Repeat(PA, k));
            Reaches(s, s.(a := Buffers.Buffer(s.a.capacity, Sorting.Sort(s.a.items)), moves := s4.moves))
  {
    FinishRun(s2, k);
    var s4 := ApplyAll(ApplyAll(s2, SortThree(s2.a.items).value), Repeat(PA, k));
    ReachesTrans(s, s2, s4);
    BackInFront(s2.b.items, s2.a.items);
    IsSorted(s4.a.items, s.a.items);
  }

  /** `sortFourFive` sorts four or five distinct values: replaying its new moves from the start
      ends with A sorted and B empty again. */
  lemma SortFourFiveSorts(s: Stack)
    requires Valid(s) && 4 <= |s.a.items| <= 5 && Distinct(s.a.items) && |s.a.items| <= s.a.capacity
    requires s.b.items == [] && s.b.capacity >= 2
    ensures SortFourFive(s).Ok?
    ensures Reaches(s, s.(a := Buffers.Buffer(s.a.capacity, Sorting.Sort(s.a.items)), moves := SortFourFive(s).value))
  {
    var k := if |s.a.items| == 5 then 2 else 1;
    var s1 := PushMin(s);
    var s2 := if k == 2 then PushMin(s1) else s1;
    Park(s);
    FinishFourFive(s, s2, k);
  }

  /** `smallSort`: nothing for a sorted A or fewer than two values, the table for two or three,
      `sortFourFive` for four or five, and an error beyond five. */
  function Sort(s: Stack): (r: Result<seq<Move>>)
    ensures Ascending(s.a.items) ==> r == Ok([])
    ensures |s.a.items| > 5 ==> (r.Err? <==> !Ascending(s.a.items))
    ensures |s.a.items| <= 3 && Distinct(s.a.items) ==> r.Ok?
  {
    var a := s.a.items;
    SortedIffAscending(a);
    if a == Sorting.Sort(a) then Ok([])
    else if |a| <= 1 then Ok([])
    else if |a| <= 3 then SortThree(a)
    else if |a| <= 5 then SortFourFive(s)
    else Err("SmallSort can only handle up to 5 elements")
  }

  /** The small-input path sorts every input of at most five distinct values: from the stack the
      chunk sorter builds (the values on A, B empty with the same capacity, no history), replaying
      the returned moves leaves A sorted and B empty. */
  lemma SortSorts(s: Stack)
    requires Valid(s) && |s.a.items| <= 5 && Distinct(s.a.items)
    requires s.b.items == [] && s.b.capacity == s.a.capacity && s.moves == []
    ensures Sort(s).Ok?
    ensures Reaches(s, s.(a := Buffers.Buffer(s.a.capacity, Sorting.Sort(s.a.items)), moves := Sort(s).value))
  {
    var a := s.a.items;
    SortedIffAscending(a);
    if Ascending(a) {
      SortOfAscending(a);
      assert Sort(s) == Ok([]);
      assert s.(a := Buffers.Buffer(s.a.capacity, a), moves := []) == s;
      ReachesRefl(s);
    } else if |a| <= 3 {
      assert Sort(s) == SortThree(a);
      SmallTableSorts(s);
    } else {
      assert Sort(s) == SortFourFive(s);
      SortFourFiveSorts(s);
    }
  }

  /** The two- and three-value cases of SortSorts. */
  lemma SmallTableSorts(s: Stack)
    requires 2 <= |s.a.items| <= 3 && Distinct(s.a.items) && s.moves == []
    ensures SortThree(s.a.items).Ok?
    ensures Reaches(s, s.(a := Buffers.Buffer(s.a.capacity, Sorting.Sort(s.a.items)), moves := SortThree(s.a.items).value))
  {
    var a := s.a.items;
    if |a| == 2 {
      SortTwoSorts(a, s.a.capacity, s.b);
    } else {
      SortThreeSorts(a, s.a.capacity, s.b);
    }
    assert s.a == Buffers.Buffer(s.a.capacity, a);
    var ms := SortThree(a).value;
    assert ms[0..] == ms;
  }

  /** No move acts on both stacks at once. */
  predicate SingleStack(ms: seq<Move>) {
    RR !in ms && RRR !in ms
  }

  /** PushMin records only rotations of A and a PB. */
  lemma PushMinSingle(s: Stack)
    requires SingleStack(s.moves)
    ensures SingleStack(PushMin(s).moves)
  {
    ApplyAllRecords(s, RotationMoves(|s.a.items|, MinIndex(s.a.items)));
  }

  /** The small sort answers only with moves on one stack at a time: the table uses SA, RA and
      RRA, and the four- and five-value path adds PB and PA. */
  lemma SortSingleStack(s: Stack)
    requires s.moves == [] && Sort(s).Ok?
    ensures SingleStack(Sort(s).value)
  {
    var a := s.a.items;
    if a == Sorting.Sort(a) || |a| <= 1 {
      assert Sort(s).value == [];
    } else if |a| <= 3 {
      assert Sort(s) == SortThree(a);
      TableSingleStack(a);
    } else if |a| <= 5 {
      assert Sort(s) == SortFourFive(s);
      FourFiveSingleStack(s);
    }
  }

  /** The table's answers use SA, RA and RRA only. */
  lemma TableSingleStack(a: seq<Int32>)
    requires SortThree(a).Ok?
    ensures SingleStack(SortThree(a).value)
  {
    assert SortThree(a) == SortThreeWith(a, false);
  }

  /** Applying single-stack moves to a single-stack history keeps it single-stack. */
  lemma ApplyAllSingleStack(s: Stack, ms: seq<Move>)
    requires SingleStack(s.moves) && SingleStack(ms)
    ensures SingleStack(ApplyAll(s, ms).moves)
  {
    ApplyAllRecords(s, ms);
  }

  /** The four- and five-value path adds only rotations of A, the table's moves, PB and PA. */
  lemma FourFiveSingleStack(s: Stack)
    requires SingleStack(s.moves) && SortFourFive(s).Ok?
    ensures SingleStack(SortFourFive(s).value)
  {
    var k := if |s.a.items| == 5 then 2 else 1;
    var s1 := PushMin(s);
    PushMinSingle(s);
    var s2 := if k == 2 then PushMin(s1) else s1;
    if k == 2 {
      PushMinSingle(s1);
    }
    TableSingleStack(s2.a.items);
    var s3 := ApplyAll(s2, SortThree(s2.a.items).value);
    ApplyAllSingleStack(s2, SortThree(s2.a.items).value);
    assert SingleStack(Repeat(PA, k));
    ApplyAllSingleStack(s3, Repeat(PA, k));
  }
}

=== FILE: small_sort_test.dfy ===
/** The property the small-sort tests check for every permutation of up to five values: the
    checker, given the input, the sorted input and the small sort's answer, says OK. */
module SmallSortTest {
  import opened Wrappers
  import opened Ints
  import opened Sorting
  import opened Moves
  import opened Chunks
  import Buffers
  import SmallSort
  import ChunkSort
  import Checker

  /** For every input of at most five distinct values, the small sort answers, and the checker
      accepts that answer against the sorted input. */
  lemma SmallSortAccepted(list: seq<Int32>, first: Chunk)
    requires |list| <= 5 && Distinct(list)
    ensures SmallSort.Sort(ChunkSort.Initial(list, first)).Ok?
    ensures var ms := SmallSort.Sort(ChunkSort.Initial(list, first)).value;
            Checker.Check(Checker.Wrap(ms), list, Sorting.Sort(list)) == Ok(Checker.Pass)
  {
    var s := ChunkSort.Initial(list, first);
    var n := |list|;
    ChunkSort.SmallPathSorts(list, first);
    var ms := SmallSort.Sort(s).value;
    SmallSort.SortSingleStack(s);
    Checker.ReplayAgrees(Buffers.Buffer(n, list), Buffers.Buffer(n, []), ms);
    DistinctPermutation(list, Sorting.Sort(list));
    if |ms| > 0 {
      Checker.PassMeans(ms, list, Sorting.Sort(list));
    } else {
      assert list == Sorting.Sort(list);
      SortedIffAscending(list);
      Checker.KnownWrap(ms);
    }
  }
}

=== FILE: sorting.dfy ===
/** Ordering predicates on integer sequences and the reference sort that stands in for Kotlin's
    `List<Int>.sorted()`. */
module Sorting {
  import opened Ints

  /** Non-decreasing: what `list == list.sorted()` tests. */
  predicate Ascending(s: seq<int>) {
    forall i, j :: 0 <= i < j < |s| ==> s[i] <= s[j]
  }

  predicate StrictlyAscending(s: seq<int>) {
    forall i, j :: 0 <= i < j < |s| ==> s[i] < s[j]
  }

  predicate Descending(s: seq<int>) {
    forall i, j :: 0 <= i < j < |s| ==> s[i] >= s[j]
  }

  predicate StrictlyDescending(s: seq<int>) {
    forall i, j :: 0 <= i < j < |s| ==> s[i] > s[j]
  }

  /** No value occurs twice (the input contract of the engine). */
  predicate Distinct(s: seq<int>) {
    forall i, j :: 0 <= i < j < |s| ==> s[i] != s[j]
  }

  /** Inserts `x` into an ascending sequence, keeping it ascending. */
  function Insert(x: Int32, s: seq<Int32>): (r: seq<Int32>)
    requires Ascending(s)
    ensures Ascending(r)
    ensures multiset(r) == multiset(s) + multiset{x}
    ensures |r| == |s| + 1
  {
    if |s| == 0 || x <= s[0] then [x] + s
    else
      var t := Insert(x, s[1..]);
      assert s == [s[0]] + s[1..];
      assert forall k :: 0 <= k < |t| ==> s[0] <= t[k] by {
        forall k | 0 <= k < |t| ensures s[0] <= t[k] {
          assert t[k] in multiset(t);
        }
      }
      [s[0]] + t
  }

  /** The ascending permutation of `s`. */
  function Sort(s: seq<Int32>): (r: seq<Int32>)
    ensures Ascending(r)
    ensures multiset(r) == multiset(s)
    ensures |r| == |s|
  {
    if |s| == 0 then []
    else
      assert s == [s[0]] + s[1..];
      Insert(s[0], Sort(s[1..]))
  }

  /** Sorting an ascending sequence returns it unchanged. */
  lemma {:induction false} SortOfAscending(s: seq<Int32>)
    requires Ascending(s)
    ensures Sort(s) == s
  {
    if |s| > 0 {
      SortOfAscending(s[1..]);
      assert Sort(s[1..]) == s[1..];
    }
  }

  /** `s == s.sorted()` holds exactly when `s` is ascending. */
  lemma SortedIffAscending(s: seq<Int32>)
    ensures Sort(s) == s <==> Ascending(s)
  {
    if Ascending(s) { SortOfAscending(s); }
  }

  /** An ascending sequence without repeats is strictly ascending. */
  lemma AscendingDistinctIsStrict(s: seq<int>)
    requires Ascending(s) && Distinct(s)
    ensures StrictlyAscending(s)
  {
  }

  /** Two ascending sequences with the same elements are equal: the sorted order is unique. */
  lemma {:induction false} AscendingUnique(s: seq<Int32>, t: seq<Int32>)
    requires Ascending(s) && Ascending(t) && multiset(s) == multiset(t)
    ensures s == t
    decreases |s|
  {
    assert |s| == |multiset(s)| == |multiset(t)| == |t|;
    if |s| > 0 {
      LeastFirst(s, t);
      LeastFirst(t, s);
      Tails(s, t);
      AscendingUnique(s[1..], t[1..]);
      assert s == [s[0]] + s[1..] && t == [t[0]] + t[1..];
    }
  }

  lemma LeastFirst(s: seq<Int32>, t: seq<Int32>)
    requires Ascending(t) && |s| > 0 && multiset(s) == multiset(t)
    ensures t[0] <= s[0]
  {
    assert s[0] in multiset(t);
    var j :| 0 <= j < |t| && t[j] == s[0];
  }

  lemma Tails(s: seq<Int32>, t: seq<Int32>)
    requires |s| > 0 && |t| > 0 && s[0] == t[0] && multiset(s) == multiset(t)
    ensures multiset(s[1..]) == multiset(t[1..])
  {
    assert s == [s[0]] + s[1..];
    assert t == [t[0]] + t[1..];
    assert multiset(s) == multiset{s[0]} + multiset(s[1..]);
    assert multiset(t) == multiset{s[0]} + multiset(t[1..]);
    assert multiset(s[1..]) == multiset(s) - multiset{s[0]};
  }

  /** Rotating a sequence keeps its elements. */
  lemma RotationPermutes(s: seq<Int32>, i: nat)
    requires i <= |s|
    ensures multiset(s[i..] + s[..i]) == multiset(s)
  {
    assert s == s[..i] + s[i..];
  }

  /** Rotating a sequence keeps it free of repeats. */
  lemma DistinctRotation(s: seq<Int32>, i: nat)
    requires i <= |s| && Distinct(s)
    ensures Distinct(s[i..] + s[..i])
  {
    var t := s[i..] + s[..i];
    var n := |s|;
    forall p, q | 0 <= p < q < |t|
      ensures t[p] != t[q]
    {
      var fp := if p < n - i then i + p else p - (n - i);
      var fq := if q < n - i then i + q else q - (n - i);
      assert t[p] == s[fp] && t[q] == s[fq];
      assert fp != fq;
      if fp < fq { assert s[fp] != s[fq]; } else { assert s[fq] != s[fp]; }
    }
  }

  /** A sequence without repeats holds each value at most once. */
  lemma {:induction false} DistinctCount(s: seq<int>, x: int)
    requires Distinct(s)
    ensures multiset(s)[x] <= 1
    decreases |s|
  {
    if |s| > 0 {
      DistinctCount(s[1..], x);
      assert s == [s[0]] + s[1..];
      if x == s[0] {
        assert x !in s[1..];
      }
    }
  }

  /** A rearrangement of a sequence without repeats has none either; in particular the sorted
      order of distinct values is distinct. */
  lemma DistinctPermutation(s: seq<Int32>, t: seq<Int32>)
    requires Distinct(s) && multiset(s) == multiset(t)
    ensures Distinct(t)
  {
    forall i, j | 0 <= i < j < |t|
      ensures t[i] != t[j]
    {
      if t[i] == t[j] {
        assert t == t[..j] + t[j..];
        assert t[..j][i] == t[i];
        assert t[j..][0] == t[i];
        assert multiset(t)[t[i]] == multiset(t[..j])[t[i]] + multiset(t[j..])[t[i]];
        DistinctCount(s, t[i]);
        assert false;
      }
    }
  }
}

=== FILE: virtual_view.dfy ===
/** `VirtualRotatedBuffer`: a read-only list view of stack B rotated by `rotation` with an extra
    value placed in front, used to score where a pushed value would land. */
module VirtualView {
  import opened Wrappers
  import opened Ints

  /** The view's `size`: one more than the viewed buffer. */
  function Size(b: seq<Int32>): nat { |b| + 1 }

  /** The view's `get(index)`. Position 0 is the inserted value; any other index reads the buffer
      at `(rotation + index - 1) % size` with Kotlin's remainder. `None` stands for the exceptions:
      a division by zero on an empty buffer, or a buffer index out of bounds. */
  function Get(b: seq<Int32>, x: Int32, rotation: int, index: int): (r: Option<Int32>)
    ensures index == 0 ==> r == Some(x)
    ensures index != 0 && |b| == 0 ==> r.None?
    ensures index != 0 && |b| > 0 && rotation + index - 1 >= 0 ==> r.Some?
  {
    if index == 0 then Some(x)
    else if |b| == 0 then None
    else
      var j := Rem(rotation + index - 1, |b|);
      if 0 <= j < |b| then Some(b[j]) else None
  }

  /** The list the view stands for: the value, then B rotated left `rotation` times. */
  function View(b: seq<Int32>, x: Int32, rotation: nat): (v: seq<Int32>)
    requires rotation <= |b|
    ensures |v| == Size(b)
  {
    [x] + b[rotation..] + b[..rotation]
  }

  lemma Mod2(y: int, c: int)
    requires c > 0 && 0 <= y < 2 * c
    ensures y % c == if y < c then y else y - c
  {
    var q := y / c;
    assert y == c * q + y % c;
    if y < c {
      assert q == 0;
    } else {
      assert q == 1;
    }
  }

  /** Indexing the view agrees with the rotated list at every in-range position. */
  lemma GetIsView(b: seq<Int32>, x: Int32, rotation: nat, index: nat)
    requires |b| > 0 && rotation < |b| && index < Size(b)
    ensures Get(b, x, rotation, index) == Some(View(b, x, rotation)[index])
  {
    if index > 0 {
      Mod2(rotation + index - 1, |b|);
    }
  }

  /** With rotation 0 the view is the value pushed onto B unchanged. */
  lemma ViewUnrotated(b: seq<Int32>, x: Int32)
    ensures View(b, x, 0) == [x] + b
  {
    assert b[0..] == b;
  }

  /** The view holds exactly the value and B's elements. */
  lemma ViewPermutes(b: seq<Int32>, x: Int32, rotation: nat)
    requires rotation <= |b|
    ensures multiset(View(b, x, rotation)) == multiset{x} + multiset(b)
  {
    assert b == b[..rotation] + b[rotation..];
  }
}

=== FILE: wrappers.dfy ===
/** Option and Result types standing in for Kotlin's nullable returns and thrown exceptions. */
module Wrappers {

  /** A Kotlin `T?`: `None` is `null`. */
  datatype Option<+T> = None | Some(value: T)

  /** A computation that either yields a value or fails the way the source throws (`error(..)`,
      `require(..)`, `!!`, an index out of bounds). */
  datatype Result<+T> = Ok(value: T) | Err(msg: string)
}
